=== FILE: README.md ===
# REVAMP identifier bot and deploy panel, modelled in Dafny

The system is a Discord bot for a FiveM server community, made of two parts.

**Member tags.** The bot in `index.js` gives every member a numeric tag and writes it in front of their nickname: `[12] Name`, or `(12) Name`.
- Numbers 1-99 are reserved for staff. Staff numbers come from per-role ranges configured as `ROLE:a-b;ROLE2:c-d`, then an overflow range, then 1-99.
- Everyone else gets the smallest free number from 100 up.
- Tags live in a table keyed by Discord id, with a uniqueness constraint on the number.
- `/corrigir` sets a tag by hand.
- The guild scan lists the members who still lack a prefix.
- `/comunicado` is a small wizard that turns a user's next message into an announcement. It converts BBCode to Markdown and keeps its sessions in a map that expires after five minutes.

**Deploy panel.** `deploy/src/handlers/deployFlow.js` drives deployments with buttons:
1. It compares `dev` with `main` and finds or opens the pull request.
2. It merges, pulls the deploy host over SSH (or only pretends to, in dry-run mode), and writes `version.cfg` with the merged SHA.
3. After the operator restarts the server by hand, it polls `info.json` until it shows the merged SHA.
4. It offers validation buttons.

State travels between clicks inside the buttons' custom ids, as base64url-encoded JSON.

## How the project is organised

| file | what |
|---|---|
| `wrappers.dfy` | Option and Result |
| `text.dfy` | The JavaScript string operations the bot uses: trimming with the ECMAScript white-space set, `split`/`join`, `replaceAll`, ASCII lower case, decimal `parseInt` and number rendering |
| `utf8.dfy` | UTF-8 (RFC 3629) |
| `base64url.dfy` | The URL-safe alphabet of section 5 of RFC 4648, without padding |
| `token.dfy` | `JSON.stringify`/`JSON.parse` of the three button payloads; `b64`/`unb64` |
| `buttons.dfy` | Button ids and routing |
| `deploy.dfy` | Configuration, the GitHub, SSH and `info.json` helpers, and the `version.cfg` line |
| `poller.dfy` | The validation loop against a virtual clock |
| `workflow.dfy` | `handleInteraction`, stage by stage |
| `tag_config.dfy` | `parseRange`, `parseSegments`, the staff role list |
| `nickname.dfy` | Tag prefixes on nicknames |
| `tag_alloc.dfy` | The tag table as a class, and the allocators |
| `guild_scan.dfy` | `scanGuild` |
| `comm_wizard.dfy` | The `/comunicado` session map as a class, and `formatInput` |

**Outside services.** GitHub, the SSH host, HTTP, PostgreSQL and Discord appear as parameters:
- a `World` of answers;
- a `Host` function from command to result;
- a `read` function from probe number to document;
- an `interference` function from attempt number to the error a concurrent writer causes;
- booleans for a permission or channel check.

**Time.** The clock is a parameter: `now`, plus the cost of each read in the poll loop.

**Mutable state.** The tag table and the wizard's session map are classes whose methods update a `map` field. The loops of `nextFreeTagInRange`, `allocateStaffTag`, `ensureStaffTag`, the public-number scan, `parseSegments`, `scanGuild` and the poll loop are methods with loop invariants. Each is proved against a function that specifies it.

## Model

| member | source | states |
|---|---|---|
| Base64Url.DecodeEncode | deploy/src/handlers/deployFlow.js:34-35 | Decoding the base64url text of any byte string gives the bytes back |
| Base64Url.EncodeShape | deploy/src/handlers/deployFlow.js:34 | The encoding uses only the URL-safe alphabet and has no padding: n bytes take (4n+2)/3 characters |
| Utf8.DecodeEncode | deploy/src/handlers/deployFlow.js:34-35 | Reading back the UTF-8 bytes of any text gives the same text |
| Token.ParseSerialize | deploy/src/handlers/deployFlow.js:34-35 | `JSON.parse(JSON.stringify(o))` gives back each payload `{pr}`, `{expect}`, `{flow}`, whatever characters the strings hold |
| Token.Unb64B64 | deploy/src/handlers/deployFlow.js:34-35 | `unb64(b64(o)) == o` for every payload, and the token uses only URL-safe characters. The length bound a custom id needs is stated by the `Buttons.*Fits` lemmas |
| Token.EscapePlain | deploy/src/handlers/deployFlow.js:34 | `JSON.stringify` writes text with no control character, quote or backslash as it is |
| Buttons.RouteMergeId | deploy/src/handlers/deployFlow.js:260-261 | The merge button's id routes to the merge stage, and the token cut from it decodes to the PR number it was built with |
| Buttons.RouteConfirmRestartId | deploy/src/handlers/deployFlow.js:354-355 | The "restarted" button routes to the validation stage, and its token decodes to the merged SHA |
| Buttons.RouteValidIds | deploy/src/handlers/deployFlow.js:414-424 | The two validation buttons route to the OK and the FAIL stages, whatever the flow id |
| Buttons.TokenLength | deploy/src/handlers/deployFlow.js:34 | A payload whose JSON text is ASCII gives a token of (4n+2)/3 characters for n characters of JSON |
| Buttons.ConfirmRestartIdFits | deploy/src/handlers/deployFlow.js:334 | The "restarted" button's id for a SHA of up to 40 lower-case hex digits is at most 100 characters, Discord's custom-id limit (94 for a full SHA) |
| Buttons.ValidIdsFit | deploy/src/handlers/deployFlow.js:430-434 | Both validation ids for a flow id of up to 40 base-36 digits are at most 100 characters |
| Buttons.MergeIdFits | deploy/src/handlers/deployFlow.js:63 | The merge button's id for a PR number of up to 40 digits is at most 100 characters |
| Buttons.RouteFixedIds | deploy/src/handlers/deployFlow.js:215-351 | `DEPLOY_CREATE_MR` routes to the create stage and `DEPLOY_CANCEL` to the cancel stage |
| Buttons.RouteOf | deploy/src/handlers/deployFlow.js:215-419 | The handler's tests in their order (lines 215, 260, 348, 354, 414 and 419). The merge and restart tokens are exactly the id without its prefix, and an id not starting with `DEPLOY_` selects no stage. `Buttons.RouteMergeId`, `Buttons.RouteConfirmRestartId`, `Buttons.RouteValidIds` and `Buttons.RouteFixedIds` show each id the panel writes reaching its stage |
| Deploy.FromEnv | deploy/src/handlers/deployFlow.js:8-31 | Every allowed user id is non-empty and trimmed, and dry run is on only when `DRY_RUN` is set. `Deploy.FromEnvDefaults` gives the values with nothing set |
| Deploy.FromEnvDefaults | deploy/src/handlers/deployFlow.js:8-31 | With nothing set: no allowed users, no channel restriction, no dry run, `main`/`dev`, `squash`, no version file, no `info.json` source, key `git_sha`, polling every 5000 ms for 240000 ms, remote `origin`, branch `main` |
| Deploy.VersionFilePath | deploy/src/handlers/deployFlow.js:23-25 | `VERSION_FILE_PATH` wins; otherwise `config/version.cfg` under `DEPLOY_PATH` with one trailing slash dropped; otherwise unset |
| Deploy.VersionFilePathSlash | deploy/src/handlers/deployFlow.js:23-25 | A trailing slash on `DEPLOY_PATH` does not change the derived path |
| Deploy.AllowListFailsClosed | deploy/src/handlers/deployFlow.js:8-9 | With `ALLOWED_USER_IDS` unset nobody is allowed, and an empty or padded id never is |
| Deploy.IsAllowed | deploy/src/handlers/deployFlow.js:37-39 | A user is allowed iff their id is in the list; what that list can hold is stated by `Deploy.FromEnv` and `Deploy.AllowListFailsClosed` |
| Deploy.IsRightChannel | deploy/src/handlers/deployFlow.js:40-42 | Any channel passes when `DEPLOY_CHANNEL_ID` is unset; otherwise exactly that channel |
| Deploy.HasDiff | deploy/src/handlers/deployFlow.js:104-110 | There is a difference iff the compare exists and one of these holds: a non-empty status other than "identical" in any case, a positive commit count, or a non-empty files array |
| Deploy.HasDiffStatusWords | deploy/src/handlers/deployFlow.js:104-110 | An "identical" status defers to the commits and files; "ahead", "behind" and "diverged" always count as a difference |
| Deploy.EnsurePullRequest | deploy/src/handlers/deployFlow.js:74-84 | The first open PR is reused; one is created iff none is open |
| Deploy.EnsurePullRequestIdempotent | deploy/src/handlers/deployFlow.js:74-84 | A second call finds the PR of the first and creates none |
| Deploy.VersionMatches | deploy/src/handlers/deployFlow.js:189-192 | The value at the key, as text, against the expected SHA; its meaning is stated by `Deploy.VersionMatchesPrefix` and `Deploy.VersionMatchesForms` |
| Deploy.VersionMatchesPrefix | deploy/src/handlers/deployFlow.js:189-192 | A match iff the value at the key is non-empty and agrees with the expected SHA on its first min(7, len) characters |
| Deploy.VersionMatchesForms | deploy/src/handlers/deployFlow.js:189-192 | The full SHA and its 7-character short form match; a value differing in the first seven characters does not |
| Deploy.LastSeen | deploy/src/handlers/deployFlow.js:384 | The value at the key as text when it is truthy, otherwise `n/d` |
| Deploy.LastSeenOfMatch | deploy/src/handlers/deployFlow.js:383-385 | A matching document leaves the matched value as the last value seen |
| Deploy.RunSsh | deploy/src/handlers/deployFlow.js:135-142 | In dry-run mode the host is not contacted and the result is exit code 0 with `[DRY-RUN] <cmd>`; otherwise the host's answer |
| Deploy.DeployCommands | deploy/src/handlers/deployFlow.js:122-134 | Fails with `DEPLOY_PATH em falta` exactly when `DEPLOY_PATH` is unset |
| Deploy.DeployCommandsText | deploy/src/handlers/deployFlow.js:122-134 | The command is cd, fetch --all --prune, checkout, reset --hard remote/branch and pull --ff-only, in that order, joined by ` && ` |
| Deploy.VersionLine | deploy/src/handlers/deployFlow.js:148-155 | The content written ends in a newline |
| Deploy.VersionLineSingle | deploy/src/handlers/deployFlow.js:148-155 | When neither the trimmed format nor the SHA holds a line break, that final newline is the only one: the content is a single line |
| Deploy.VersionLineTemplate | deploy/src/handlers/deployFlow.js:148-152 | For any format built from literal text without `{`, `{sha}` and `{short}`, the line is the format with `{sha}` replaced by the SHA and `{short}` by its first 7 characters |
| Deploy.DefaultVersionLine | deploy/src/handlers/deployFlow.js:148 | The default format gives `sets revamp_version <sha>` followed by a newline |
| Deploy.VersionCommand | deploy/src/handlers/deployFlow.js:156 | The command as written: `printf %s`, the content as a JSON string literal, redirected into the path; what it leaves in the file is stated by `Deploy.VersionFileAsWritten` |
| Deploy.VersionFileAsWritten | deploy/src/handlers/deployFlow.js:148-157 | For the version line of any format and SHA whose body is plain text, the command as written is `printf %s "<JSON escape of the line>" > path`, and the shell hands `printf` the body followed by a backslash and `n`, not the line: the file never ends in a newline (see Findings) |
| Deploy.ShellEscapeRoundTrip | deploy/src/handlers/deployFlow.js:156 | The corrected quoting reads back in the shell as exactly the content, final newline included |
| Deploy.VersionFileFixed | deploy/src/handlers/deployFlow.js:148-157 | For every format and SHA, the corrected command quotes the version line for the shell, and the shell hands `printf` exactly that line, final newline included |
| Deploy.WriteVersionCfg | deploy/src/handlers/deployFlow.js:143-158 | Without a version path it fails with the source's message; otherwise it runs, through `runSSH` (dry run included), the corrected `printf` of the version line into that path |
| Deploy.ReadInfoJson | deploy/src/handlers/deployFlow.js:160-187 | Fails when neither source is set. With a URL it succeeds iff the response is 2xx and its body is JSON, and then returns that body. With only a path it succeeds iff `cat` exits 0 and its output parses |
| Deploy.ReadInfoJsonSource | deploy/src/handlers/deployFlow.js:166-182 | With a URL the SSH host and the JSON reader are never consulted; with only a path the HTTP outcome is not |
| Poller.SleepMs | deploy/src/handlers/deployFlow.js:387 | The pause is the configured interval when it is between 1 and 2^31-1, and 1 ms otherwise (NaN included) |
| Poller.ProbesWithinTimeout | deploy/src/handlers/deployFlow.js:379-388 | A NaN timeout allows no read, and a timeout of T ms at most T reads |
| Poller.ReadOnce | deploy/src/handlers/deployFlow.js:382-386 | A successful read updates the last value and is tested; a failed one only records its message |
| Poller.ReadRound | deploy/src/handlers/deployFlow.js:382-386 | After read k, the last value seen and the last error are those of the latest read of each kind among the first k+1 |
| Poller.PollRound | deploy/src/handlers/deployFlow.js:381-388 | One loop pass keeps the loop invariant, makes one read, and advances the clock unless it matched |
| Poller.AllStartedInTime | deploy/src/handlers/deployFlow.js:379-381 | When the last read started before the deadline, every earlier read did too |
| Poller.Poll | deploy/src/handlers/deployFlow.js:379-388 | Succeeds iff the last read matched. No earlier read matched, and every read started before the timeout. On failure the clock is past the timeout. The reported last value and error are those of the latest reads. The number of reads is bounded by the timeout |
| Workflow.ButtonsLeadBack | deploy/src/handlers/deployFlow.js:52-71 | Every button a panel carries routes back into the flow; the merge and restart buttons carry exactly that panel's PR number and SHA |
| Workflow.CreateMr | deploy/src/handlers/deployFlow.js:215-257 | A failed compare or no difference shows the home panel and touches no PR. A PR is created only when there is a difference and none is open. With a difference: the merge panel for the open PR or the new one, or a crash when GitHub fails; the calls are compare, list, and create only when the list was empty |
| Workflow.PullAndWrite | deploy/src/handlers/deployFlow.js:289-345 | The version file is written only after a successful pull. A failed pull sends the pull (unless dry run or no `DEPLOY_PATH`), notifies the owner and shows home. Dry run sends no command. Success shows the restart panel with the version outcome, after the pull and then the version write. The trace is `Workflow.PullWriteTrace` |
| Workflow.MergeAndPull | deploy/src/handlers/deployFlow.js:260-346 | The merge happens only when there is a difference, and for the PR the token carries. A merge call that throws crashes with the trace compare, merge. A refused merge reports GitHub's message or `erro`. After a real merge the trace is compare, merge, then the pull-and-write trace; a failed pull shows home with the pull failure. The restart panel appears iff diff, merge and pull all succeeded |
| Workflow.MergePayload | deploy/src/handlers/deployFlow.js:263-346 | The same guarantees, once the token is decoded: an unreadable token crashes with no call, no difference shows home after the compare only, a token without `{pr}` crashes after the compare, and the panel is home, the restart panel or a crash |
| Workflow.FailedPullWritesNoVersion | deploy/src/handlers/deployFlow.js:289-345 | When the pull fails, the merge stage runs no command other than the pull: the version file is not written |
| Workflow.Base36 | deploy/src/handlers/deployFlow.js:360 | `Date.now().toString(36)` (here and at line 400): at least one digit, each 0-9 or a-z |
| Workflow.Base36RoundTrip | deploy/src/handlers/deployFlow.js:360 | The flow id reads back in base 36 as the time stamp it was made from |
| Workflow.ConfirmRestarted | deploy/src/handlers/deployFlow.js:354-411 | An unreadable token crashes. With no `info.json` source it goes straight to validation, stamped with the click time. A source and a token without `{expect}` crash. Otherwise it waits for the SHA, with the outcome `Workflow.AwaitVersion` states |
| Workflow.ConfirmPayload | deploy/src/handlers/deployFlow.js:355-376 | The same guarantees, once the token is decoded |
| Workflow.AwaitVersion | deploy/src/handlers/deployFlow.js:372-411 | With p reads made: each started before the deadline and none before the last matched. The validation panel comes iff the last read matched, stamped with the click time plus the time spent (its buttons carry that stamp in base 36 as the flow id). Otherwise the next read would have started too late, the home panel reports the last value and the last error seen, and the clicker and then the owner are messaged |
| Workflow.HandleInteraction | deploy/src/handlers/deployFlow.js:204-425 | Non-buttons are ignored; disallowed users and other channels are refused with no outside call. An admitted click runs the stage its id selects, with that stage's outcome: create and merge as above, cancel shows home, restart as `Workflow.ConfirmRestarted`, OK shows home validated, FAIL shows home and tells the owner. A click on one of the flow's ids is never refused or ignored once admitted |
| TagConfig.ParseRange | index.js:38-41 | An accepted range always has start <= end |
| TagConfig.ParseRangeAccepts | index.js:38-41 | Every text "ws digits ws - ws digits ws" is accepted as the range from the smaller number to the larger |
| TagConfig.ParseRangeCharacters | index.js:38-41 | An accepted text holds one dash and otherwise only digits and white space |
| TagConfig.ParseRangeOfNumbers | index.js:38-41 | The text `a-b` parses back to the range a..b |
| TagConfig.OverflowDefault | index.js:52 | Without `STAFF_OVERFLOW` the overflow range is 61-100 |
| TagConfig.SegmentOf | index.js:46-47 | An item gives a segment only with a non-empty role id and an ordered range |
| TagConfig.SegmentsWellFormed | index.js:42-50 | Every parsed segment names a role and has start <= end |
| TagConfig.ParseSegments | index.js:42-50 | The loop pushes the segments of the trimmed, non-blank `;` items in order, and they are well-formed |
| TagConfig.ParseSegmentsRender | index.js:42-50 | Writing well-formed segments as `ROLE:a-b;...` and parsing them gives them back; no segments give the empty setting and back |
| TagConfig.StaffRoleIds | index.js:53-54 | `ALL_STAFF_ROLE_IDS` has no duplicates and holds exactly the `STAFF_ROLE_IDS` items and the segment roles |
| TagConfig.StaffMemberRoles | index.js:59 | A member is staff iff they hold a `STAFF_ROLE_IDS` role or some segment's role |
| TagConfig.PreferredSegment | index.js:60 | The first segment, in configuration order, whose role the member holds; none iff they hold no segment role |
| Nickname.MakePrefix | index.js:57 | The number in square brackets, or round brackets when `NICKNAME_PREFIX_BRACKETS` is 0; its digits read back as the number |
| Nickname.StripPrefix | index.js:58 | The result is trimmed, and a name without a prefix is only trimmed |
| Nickname.StripMakePrefix | index.js:57-58 | Stripping a prefix the bot wrote gives back the trimmed name behind it |
| Nickname.ApplyNickname | index.js:150-155 | The nickname is at most 32 characters and starts with the prefix whenever the prefix fits |
| Nickname.AppliedHasPrefix | index.js:150-155 | A nickname the bot set is recognised as tagged by the scan's test |
| Nickname.HasPrefix | index.js:169 | The scan's test for a tag prefix; `Nickname.AppliedHasPrefix` shows it holds of every nickname the bot sets, and `Nickname.StripPrefix` that a name failing it is only trimmed |
| Nickname.RetagReplacesPrefix | index.js:150-155 | When the first nickname was not cut (prefix, space and name within 32 characters), tagging again replaces the old prefix instead of stacking a second one |
| Nickname.RetagStripsOldPrefix | index.js:150-155 | For any first nickname whose prefix fits, cut or not, tagging again gives the new prefix, a space and the trimmed rest after the old prefix, cut to 32 characters |
| TagAlloc.SmallestFreeUnique | index.js:87-95 | The smallest free number of a range is the only free number below which the range is full |
| TagAlloc.NextFreeTagInRange | index.js:87-95 | Over the sorted taken numbers of a range: the smallest free number, or none iff the range is full |
| TagAlloc.FirstFreeIsFree | index.js:97-105 | The number the allocator finds is free |
| TagAlloc.FirstFreeNone | index.js:97-105 | The allocator finds nothing iff every range it tries is full |
| TagAlloc.StaffRangeOrder | index.js:97-105 | A free number in the preferred segment is taken from there, and staff allocation fails only when 1-99 is full |
| TagAlloc.PushRanges | index.js:98-102 | The ranges are pushed in the order `TagAlloc.TryRanges` gives: the preferred segment, the other segments, the overflow range, then 1-99 (`TagAlloc.StaffRangeOrder` states what that order achieves) |
| TagAlloc.PublicScan | index.js:133 | The smallest number >= 100 not taken |
| TagAlloc.TagTable.TakenBetween | index.js:88-91 | The query returns exactly the taken numbers in lo..hi, sorted |
| TagAlloc.TagTable.TakenFrom | index.js:132 | The query returns exactly the taken numbers >= lo, sorted |
| TagAlloc.TagTable.Upsert | index.js:134-139 | The member's row is inserted or replaced, unless another member holds the number: then code 23505 and nothing changes. The uniqueness invariant holds |
| TagAlloc.TagTable.AllocateStaffTag | index.js:97-105 | The smallest free number of the first non-full range in the order preferred segment, other segments, overflow, 1-99; otherwise 'no free numbers' |
| TagAlloc.TagTable.EnsureStaffTag | index.js:107-126 | An existing staff row is returned unchanged. Otherwise, with a free number: the first attempt not refused with 23505 decides. If it succeeds, the smallest free number of the preferred ranges is written as a staff row; if it fails, its error is passed on. Five 23505s give the retry error. With no free number the result is the no-free-number error, and that error comes only then. Failures change nothing |
| TagAlloc.TagTable.GetOrCreatePublicTag | index.js:128-142 | Any existing row is returned unchanged; otherwise the smallest free number >= 100 is written as a non-staff row |
| TagAlloc.TagTable.Corrigir | index.js:299-316 | A number < 100 for a non-staff member without force is refused. A number held by someone else is refused. Otherwise the row becomes (number, number < 100). The table stays unique |
| GuildScan.SelectMembers | index.js:167-172 | Each list holds exactly the members that pass its test |
| GuildScan.ScanPartition | index.js:159-174 | No member is in both lists and the owner is never offered for renaming. Every untagged human is listed, unless they are the owner with a row |
| GuildScan.ScanGuild | index.js:159-174 | The loop builds the two lists of the specification; a failed owner query counts as no row |
| CommWizard.FormatInput | index.js:70-79 | An empty text is returned as it is; otherwise the tags are replaced in the order b, i, u, s, br, code. Its meaning is stated by `CommWizard.FormatInputPlain`, `CommWizard.FormatInputBold` and `CommWizard.FormatInputBreak` |
| CommWizard.FormatInputPlain | index.js:70-79 | Text without `[` is left unchanged |
| CommWizard.FormatInputBold | index.js:73 | `[b]x[/b]` becomes `**x**` for any x without `[` |
| CommWizard.FormatInputBreak | index.js:77 | `[br]` in any case becomes a newline and the text around it is kept |
| CommWizard.ChosenKind | index.js:333 | The type is the part of the id after `comm_type:` up to the next colon |
| CommWizard.Wizard.GetState | index.js:182 | No session: none. An expired session is deleted and none returned. A live session is returned with the map unchanged |
| CommWizard.Wizard.ClearComm | index.js:181 | The user's session is removed and nothing else |
| CommWizard.Wizard.Start | index.js:319-328 | Without permission nothing changes; otherwise a fresh type-choice session for this server and channel replaces any earlier one |
| CommWizard.Wizard.ChooseType | index.js:331-344 | "Session expired" comes exactly when there is no live session in this server, and then only the caller's own expired session is deleted; every other session is kept. `custom` records the type and asks for an image. Any other type records it, sets the fixed image of `comunicado`/`informacoes`, and waits for text with the timer restarted |
| CommWizard.Wizard.ImageModal | index.js:347-352 | A trimmed http(s) URL becomes the image and the session waits for text; anything else is refused with the session unchanged |
| CommWizard.Wizard.PickChannel | index.js:355-358 | A live session records the target channel at any step |
| CommWizard.Wizard.ConfirmOrCancel | index.js:361-370 | "Session expired" comes exactly when there is no live session. Cancel ends the session. Send needs a target. With a target: not a text channel is refused, a failed post reports its error, and a successful post sends the session's text and image and ends the session. Failures keep the session |
| CommWizard.Wizard.CaptureText | index.js:391-410 | A preview happens iff the author is not a bot, the session is live in the same server and channel, it awaits text, and the author is an admin. Then the text is `formatInput(trim(content))`, the step is preview and the timer restarts. Without a preview, only the author's own expired session is deleted; every other session is kept |

## Left out

- Discord UI: embeds, colours, labels and reply texts are left out. Panels are reduced to the buttons they carry and a note of the outcome. `logAdmin` messages are left out; the direct messages to the owner and to the clicker appear only as trace entries.
- Outside services: the GitHub (Octokit), SSH (NodeSSH), HTTP (`fetch` with its 8-second abort) and PostgreSQL clients are parameters, not models.
- Concurrency: overlapping clicks and parallel sessions on the tag table are not modelled. A concurrent writer's effect on `ensureStaffTag` is an `interference` parameter giving the error of each attempt.
- Other commands: `/reset`, `/aplicar`, `/staff`, `/verificar` and the `apply_all` button are not part of this model. Only the scan they share is modelled, together with the tag operations.
- `isAdmin` and `canSendComms`: both are booleans given to the wizard. Their permission bits are left out.
- Channel lookup: whether `guild.channels.fetch` found a text channel is one boolean.
- Base64Url.Decode: strict. It refuses characters outside the alphabet and impossible lengths, where Node's decoder skips them. Tokens the panel itself writes decode the same way in both.
- Utf8.Decode: strict. Node replaces bad sequences with U+FFFD. Texts are sequences of Unicode scalar values, so lone surrogates are left out.
- Token.Parse: reads only the three object shapes the panel writes, not general JSON.
- Deploy.JsonValue: a number in `info.json` is an integer; fractional numbers are left out.
- Deploy.ShellDoubleQuoted: models backslash handling inside double quotes. `$`, backquote and `!` expansion are left out; a SHA and a path never hold them.
- Text.ParseInt: unbounded, where JavaScript's `parseInt` loses precision past 2^53.
- Text.ToLowerAscii: `toLowerCase` and the regular expressions' `i` flag are modelled on ASCII letters only.
- Nickname.ApplyNickname: cuts at 32 code points, where `slice(0, 32)` counts UTF-16 code units. Names outside the Basic Multilingual Plane can come out one unit shorter in the bot.
- Workflow.MergePayload: a token that decodes to no `{pr}` makes the stage crash before merging. The bot would call `mergePR(undefined)` and fail at GitHub.
- GuildScan.ScanGuild: the member cache, a JavaScript Map, is a sequence in cache order.
- Deploy.WriteVersionCfg: sends the corrected command `Deploy.VersionCommandFixed`, not the source's `printf %s <JSON>` (`Deploy.VersionCommand`), which writes a literal backslash-n; see Findings, where `Deploy.VersionFileAsWritten` models what that command leaves in the file.
- Workflow.PullAndWrite: its trace records the corrected `Deploy.VersionCommandFixed` for the same reason.
- Poller.Poll: time is virtual. Each read takes the time a `cost` function gives it, and the pause is the clamped interval.

## Findings

| source | as written | input that shows it | evidently intended | confidence | as-written member | corrected member |
|---|---|---|---|---|---|---|
| deploy/src/handlers/deployFlow.js:154-156 | The content is quoted with `JSON.stringify` and sent as `printf %s "<json>" > path`. JSON writes the final newline as backslash-n. Inside double quotes the shell keeps the backslash before `n`, and `printf %s` does not interpret escapes | The default format with SHA `abc1234`: the file ends in the two characters backslash and `n`, not in a newline | The file holds exactly one line followed by a real newline | not executed | Deploy.VersionFileAsWritten | Deploy.VersionFileFixed |

`Deploy.WriteVersionCfg` and the workflow use the corrected command `Deploy.VersionCommandFixed`. It quotes the content for the shell instead of as JSON.

=== FILE: base64url.dfy ===
/** The URL- and filename-safe base64 alphabet of section 5 of RFC 4648,
    without padding, as Buffer's 'base64url' encoding writes it. */
module Base64Url {
  import opened Wrappers
  import opened Bytes

  type Index = x: int | 0 <= x < 64

  /** Table 2 of RFC 4648: A-Z, a-z, 0-9, then '-' and '_'. */
  function CharOf(i: Index): char {
    if i < 26 then ('A' as int + i) as char
    else if i < 52 then ('a' as int + (i - 26)) as char
    else if i < 62 then ('0' as int + (i - 52)) as char
    else if i == 62 then '-'
    else '_'
  }

  predicate IsUrlSafe(c: char) {
    ('A' <= c <= 'Z') || ('a' <= c <= 'z') || ('0' <= c <= '9') || c == '-' || c == '_'
  }

  function IndexOf(c: char): (r: Option<Index>)
    ensures r.Some? <==> IsUrlSafe(c)
    ensures r.Some? ==> CharOf(r.value) == c
  {
    if 'A' <= c <= 'Z' then Some(c as int - 'A' as int)
    else if 'a' <= c <= 'z' then Some(c as int - 'a' as int + 26)
    else if '0' <= c <= '9' then Some(c as int - '0' as int + 52)
    else if c == '-' then Some(62)
    else if c == '_' then Some(63)
    else None
  }

  lemma IndexOfCharOf(i: Index)
    ensures IndexOf(CharOf(i)) == Some(i)
  {
  }

  /** The 6-bit groups of three bytes, and of a final two or one byte padded
      with zero bits. */
  function Sextets3(b0: Byte, b1: Byte, b2: Byte): seq<Index> {
    [b0 / 4, (b0 % 4) * 16 + b1 / 16, (b1 % 16) * 4 + b2 / 64, b2 % 64]
  }

  function Sextets2(b0: Byte, b1: Byte): seq<Index> {
    [b0 / 4, (b0 % 4) * 16 + b1 / 16, (b1 % 16) * 4]
  }

  function Sextets1(b0: Byte): seq<Index> {
    [b0 / 4, (b0 % 4) * 16]
  }

  function Chars(q: seq<Index>): (r: string)
    ensures |r| == |q| && forall i :: 0 <= i < |q| ==> r[i] == CharOf(q[i])
  {
    seq(|q|, i requires 0 <= i < |q| => CharOf(q[i]))
  }

  /** The bytes carried by two, three or four 6-bit groups; the bits past
      the last whole byte are dropped. */
  function Octets(q: seq<Index>): seq<Byte>
    requires 2 <= |q| <= 4
  {
    var q0, q1 := q[0] as int, q[1] as int;
    if |q| == 2 then [q0 * 4 + q1 / 16]
    else
      var q2 := q[2] as int;
      if |q| == 3 then [q0 * 4 + q1 / 16, (q1 % 16) * 16 + q2 / 4]
      else [q0 * 4 + q1 / 16, (q1 % 16) * 16 + q2 / 4, (q2 % 4) * 64 + q[3]]
  }

  /** Three bytes become four characters; a final one or two bytes become two
      or three characters and no '=' is written. */
  function Encode(b: seq<Byte>): (r: string)
    decreases |b|
  {
    if |b| >= 3 then Chars(Sextets3(b[0], b[1], b[2])) + Encode(b[3..])
    else if |b| == 2 then Chars(Sextets2(b[0], b[1]))
    else if |b| == 1 then Chars(Sextets1(b[0]))
    else []
  }

  /** The alphabet positions of the characters, or None if one is outside
      the alphabet. */
  function Indices(s: string): (r: Option<seq<Index>>)
    ensures r.Some? ==> |r.value| == |s|
    decreases |s|
  {
    if s == [] then Some([])
    else match (IndexOf(s[0]), Indices(s[1..]))
      case (Some(i), Some(rest)) => Some([i] + rest)
      case _ => None
  }

  /** Four characters give three bytes and a final two or three characters
      give one or two; a single leftover character, or a character outside the
      alphabet, is refused. */
  function Decode(s: string): Option<seq<Byte>>
    decreases |s|
  {
    if |s| == 0 then Some([])
    else if |s| == 1 then None
    else
      var n := if |s| >= 4 then 4 else |s|;
      match Indices(s[..n])
      case None => None
      case Some(q) =>
        match Decode(s[n..])
        case None => None
        case Some(tail) => Some(Octets(q) + tail)
  }

  /** Every character written is from the URL-safe alphabet, and n bytes take
      ceil(4n/3) characters. */
  lemma {:induction false} EncodeShape(b: seq<Byte>)
    ensures forall i :: 0 <= i < |Encode(b)| ==> IsUrlSafe(Encode(b)[i])
    ensures |Encode(b)| == (4 * |b| + 2) / 3
    decreases |b|
  {
    if |b| >= 3 {
      EncodeShape(b[3..]);
    }
  }

  lemma {:induction false} IndicesOfChars(q: seq<Index>)
    ensures Indices(Chars(q)) == Some(q)
    decreases |q|
  {
    if q != [] {
      IndexOfCharOf(q[0]);
      assert Chars(q)[1..] == Chars(q[1..]);
      IndicesOfChars(q[1..]);
      assert q == [q[0]] + q[1..];
    }
  }

  lemma OctetsOfSextets(b0: Byte, b1: Byte, b2: Byte)
    ensures Octets(Sextets3(b0, b1, b2)) == [b0, b1, b2]
    ensures Octets(Sextets2(b0, b1)) == [b0, b1]
    ensures Octets(Sextets1(b0)) == [b0]
  {
    OctetsOfTwo(b0, b1);
    OctetsOfOne(b0);
  }

  lemma OctetsOfOne(b0: Byte)
    ensures Octets(Sextets1(b0)) == [b0]
  {
    var q := Sextets1(b0);
    assert q[1] as int / 16 == b0 % 4;
    assert q[0] as int * 4 + b0 % 4 == b0;
  }

  lemma OctetsOfTwo(b0: Byte, b1: Byte)
    ensures Octets(Sextets2(b0, b1)) == [b0, b1]
  {
  }

  /** Four characters of the alphabet in front of a decodable text. */
  lemma DecodeQuad(q: seq<Index>, t: string, tail: seq<Byte>)
    requires |q| == 4 && Decode(t) == Some(tail)
    ensures Decode(Chars(q) + t) == Some(Octets(q) + tail)
  {
    var s := Chars(q) + t;
    assert s[..4] == Chars(q);
    assert s[4..] == t;
    IndicesOfChars(q);
  }

  lemma BlockBytes(b: seq<Byte>)
    requires |b| >= 3
    ensures Octets(Sextets3(b[0], b[1], b[2])) == b[..3]
  {
    OctetsOfSextets(b[0], b[1], b[2]);
  }

  lemma DecodeFirstBlock(b: seq<Byte>)
    requires |b| >= 3
    requires Decode(Encode(b[3..])) == Some(b[3..])
    ensures Decode(Encode(b)) == Some(b)
  {
    var q := Sextets3(b[0], b[1], b[2]);
    assert Encode(b) == Chars(q) + Encode(b[3..]);
    DecodeQuad(q, Encode(b[3..]), b[3..]);
    BlockBytes(b);
    assert b[..3] + b[3..] == b;
  }

  lemma DecodeFinalBytes(b: seq<Byte>)
    requires 1 <= |b| <= 2
    ensures Decode(Encode(b)) == Some(b)
  {
    if |b| == 2 {
      DecodeLastTwo(b);
    } else {
      DecodeLastOne(b);
    }
  }

  lemma DecodeLastTwo(b: seq<Byte>)
    requires |b| == 2
    ensures Decode(Encode(b)) == Some(b)
  {
    assert Encode(b) == Chars(Sextets2(b[0], b[1]));
    DecodeFinal(Sextets2(b[0], b[1]));
    OctetsOfTwo(b[0], b[1]);
    assert b == [b[0], b[1]];
  }

  lemma DecodeLastOne(b: seq<Byte>)
    requires |b| == 1
    ensures Decode(Encode(b)) == Some(b)
  {
    assert Encode(b) == Chars(Sextets1(b[0]));
    DecodeFinal(Sextets1(b[0]));
    OctetsOfOne(b[0]);
    assert b == [b[0]];
  }

  /** Two or three characters of the alphabet at the end of the text. */
  lemma DecodeFinal(q: seq<Index>)
    requires 2 <= |q| <= 3
    ensures Decode(Chars(q)) == Some(Octets(q))
  {
    var s := Chars(q);
    assert s[..|s|] == s && s[|s|..] == [];
    IndicesOfChars(q);
    assert Octets(q) + [] == Octets(q);
  }

  /** Decoding what was encoded gives the same bytes back. */
  lemma {:induction false} DecodeEncode(b: seq<Byte>)
    ensures Decode(Encode(b)) == Some(b)
    decreases |b|
  {
    if |b| >= 3 {
      DecodeEncode(b[3..]);
      DecodeFirstBlock(b);
    } else if |b| >= 1 {
      DecodeFinalBytes(b);
    }
  }
}

=== FILE: buttons.dfy ===
/** The custom ids of the deploy panel's buttons and how the interaction
    handler picks a stage from an id (deployFlow.js homeButtons,
    confirmButtons, validationButtons and the tests in handleInteraction). */
module Buttons {
  import opened Wrappers
  import opened Text
  import opened Token
  import Utf8
  import Base64Url

  const CreateMrId := "DEPLOY_CREATE_MR"
  const CancelId := "DEPLOY_CANCEL"
  const MergePrefix := "DEPLOY_MERGE_"
  const ConfirmRestartPrefix := "DEPLOY_CONFIRM_RESTART_"
  const ValidOkPrefix := "DEPLOY_VALID_OK_"
  const ValidFailPrefix := "DEPLOY_VALID_FAIL_"

  /** The "merge" button of the confirmation panel carries the PR number. */
  function MergeId(pr: nat): string {
    MergePrefix + B64(PrRef(pr))
  }

  /** The "restarted" button carries the merge commit the server must show. */
  function ConfirmRestartId(sha: string): string {
    ConfirmRestartPrefix + B64(Expect(sha))
  }

  function ValidOkId(flow: string): string {
    ValidOkPrefix + B64(Flow(flow))
  }

  function ValidFailId(flow: string): string {
    ValidFailPrefix + B64(Flow(flow))
  }

  /** The stage a button id selects, with the token cut from the id where
      the stage reads one. */
  datatype Route =
    | CreateStage
    | MergeStage(token: string)
    | CancelStage
    | ConfirmRestartStage(token: string)
    | ValidOkStage
    | ValidFailStage
    | NoStage

  /** The tests of the handler in their order: an exact id, then a prefix,
      and the token is the id with its first occurrence of the prefix
      removed. */
  function RouteOf(customId: string): (r: Route)
    ensures r.MergeStage? ==> customId == MergePrefix + r.token
    ensures r.ConfirmRestartStage? ==> customId == ConfirmRestartPrefix + r.token
    ensures !StartsWith(customId, "DEPLOY_") ==> r == NoStage
  {
    PrefixesShareDeploy(customId);
    PrefixCut(customId, MergePrefix);
    PrefixCut(customId, ConfirmRestartPrefix);
    if customId == CreateMrId then CreateStage
    else if StartsWith(customId, MergePrefix) then MergeStage(ReplaceFirst(customId, MergePrefix, ""))
    else if customId == CancelId then CancelStage
    else if StartsWith(customId, ConfirmRestartPrefix) then
      ConfirmRestartStage(ReplaceFirst(customId, ConfirmRestartPrefix, ""))
    else if StartsWith(customId, ValidOkPrefix) then ValidOkStage
    else if StartsWith(customId, ValidFailPrefix) then ValidFailStage
    else NoStage
  }

  /** Removing the first occurrence of a leading prefix leaves the rest. */
  lemma PrefixCut(customId: string, prefix: string)
    requires |prefix| > 0
    ensures StartsWith(customId, prefix) ==> customId == prefix + ReplaceFirst(customId, prefix, "")
  {
    if StartsWith(customId, prefix) {
      assert customId == prefix + customId[|prefix|..];
      ReplaceFirstLeading(prefix, customId[|prefix|..]);
    }
  }

  /** A string that starts with p starts with every prefix of p. */
  lemma StartsWithPrefixOf(s: string, p: string, d: string)
    requires StartsWith(p, d)
    ensures StartsWith(s, p) ==> StartsWith(s, d)
  {
    if StartsWith(s, p) {
      assert s[..|d|] == s[..|p|][..|d|];
    }
  }

  /** Every id and prefix of the panel begins with DEPLOY_. */
  lemma PrefixesShareDeploy(customId: string)
    ensures (customId == CreateMrId || customId == CancelId || StartsWith(customId, MergePrefix) ||
             StartsWith(customId, ConfirmRestartPrefix) || StartsWith(customId, ValidOkPrefix) ||
             StartsWith(customId, ValidFailPrefix)) ==> StartsWith(customId, "DEPLOY_")
  {
    var d := "DEPLOY_";
    assert CreateMrId[..|d|] == d && CancelId[..|d|] == d;
    assert MergePrefix[..|d|] == d && ConfirmRestartPrefix[..|d|] == d;
    assert ValidOkPrefix[..|d|] == d && ValidFailPrefix[..|d|] == d;
    StartsWithPrefixOf(customId, MergePrefix, d);
    StartsWithPrefixOf(customId, ConfirmRestartPrefix, d);
    StartsWithPrefixOf(customId, ValidOkPrefix, d);
    StartsWithPrefixOf(customId, ValidFailPrefix, d);
  }

  /** The merge button leads to the merge stage, and the token cut from it
      decodes to the PR number it was built with. */
  lemma RouteMergeId(pr: nat)
    ensures RouteOf(MergeId(pr)) == MergeStage(B64(PrRef(pr)))
    ensures Unb64(RouteOf(MergeId(pr)).token) == Some(PrRef(pr))
  {
    var id := MergeId(pr);
    assert id[7] == 'M';
    assert StartsWith(id, MergePrefix);
    ReplaceFirstLeading(MergePrefix, B64(PrRef(pr)));
    Unb64B64(PrRef(pr));
  }

  /** The restart button leads to the validation stage, and the token cut
      from it decodes to the expected commit. */
  lemma RouteConfirmRestartId(sha: string)
    ensures RouteOf(ConfirmRestartId(sha)) == ConfirmRestartStage(B64(Expect(sha)))
    ensures Unb64(RouteOf(ConfirmRestartId(sha)).token) == Some(Expect(sha))
  {
    RouteConfirmRestartPrefix(B64(Expect(sha)));
    Unb64B64(Expect(sha));
  }

  lemma RouteConfirmRestartPrefix(t: string)
    ensures RouteOf(ConfirmRestartPrefix + t) == ConfirmRestartStage(t)
  {
    var id := ConfirmRestartPrefix + t;
    assert id[7] == 'C' && id[8] == 'O';
    assert id[..|MergePrefix|][7] == 'C';
    assert StartsWith(id, ConfirmRestartPrefix);
    ReplaceFirstLeading(ConfirmRestartPrefix, t);
  }

  /** The two buttons of the validation panel lead to their own stages. */
  lemma RouteValidIds(flow: string)
    ensures RouteOf(ValidOkId(flow)) == ValidOkStage
    ensures RouteOf(ValidFailId(flow)) == ValidFailStage
  {
    RouteValidOkPrefix(B64(Flow(flow)));
    RouteValidFailPrefix(B64(Flow(flow)));
  }

  lemma RouteValidOkPrefix(t: string)
    ensures RouteOf(ValidOkPrefix + t) == ValidOkStage
  {
    var id := ValidOkPrefix + t;
    assert id[7] == 'V';
    assert id[..|MergePrefix|][7] == 'V';
    assert !StartsWith(id, ConfirmRestartPrefix) by {
      if |id| >= |ConfirmRestartPrefix| { assert id[..|ConfirmRestartPrefix|][7] == 'V'; }
    }
    assert StartsWith(id, ValidOkPrefix);
  }

  lemma RouteValidFailPrefix(t: string)
    ensures RouteOf(ValidFailPrefix + t) == ValidFailStage
  {
    var id := ValidFailPrefix + t;
    assert id[7] == 'V';
    assert id[..|MergePrefix|][7] == 'V';
    assert !StartsWith(id, ConfirmRestartPrefix) by {
      if |id| >= |ConfirmRestartPrefix| { assert id[..|ConfirmRestartPrefix|][7] == 'V'; }
    }
    assert id[..|ValidOkPrefix|][13] == 'F';
    assert StartsWith(id, ValidFailPrefix);
  }

  /** The fixed ids lead to their stages. */
  lemma RouteFixedIds()
    ensures RouteOf(CreateMrId) == CreateStage
    ensures RouteOf(CancelId) == CancelStage
  {
    assert CancelId[..|MergePrefix|][7] == 'C';
  }

  // ---------------------------------------------------------------- id length

  /** Discord refuses a button whose custom id is longer than this. */
  const MaxCustomIdLength := 100

  /** A token over ASCII JSON takes four characters for every three
      characters of the JSON text, rounded up, with no padding. */
  lemma TokenLength(p: Payload)
    requires Utf8.IsAscii(Serialize(p))
    ensures |B64(p)| == (4 * |Serialize(p)| + 2) / 3
  {
    Utf8.EncodeAsciiLength(Serialize(p));
    Base64Url.EncodeShape(Utf8.Encode(Serialize(p)));
  }

  /** A string member holding text that JSON writes as it is. */
  lemma StringTokenLength(p: Payload, key: string, s: string)
    requires p.Expect? || p.Flow?
    requires s == (if p.Expect? then p.sha else p.id)
    requires key == (if p.Expect? then "{\"expect\":\"" else "{\"flow\":\"")
    requires Plain(s) && Utf8.IsAscii(s)
    ensures |B64(p)| == (4 * (|key| + |s| + 2) + 2) / 3
  {
    EscapePlain(s);
    assert Serialize(p) == key + s + "\"}";
    Utf8.AsciiConcat(key, s);
    Utf8.AsciiConcat(key + s, "\"}");
    TokenLength(p);
  }

  predicate LowerHex(s: string) {
    forall i :: 0 <= i < |s| ==> IsDigit(s[i]) || 'a' <= s[i] <= 'f'
  }

  predicate LowerAlnum(s: string) {
    forall i :: 0 <= i < |s| ==> IsDigit(s[i]) || 'a' <= s[i] <= 'z'
  }

  /** The restart button of a commit fits in a custom id: a 40-character
      SHA gives 23 + 71 characters. */
  lemma ConfirmRestartIdFits(sha: string)
    requires |sha| <= 40 && LowerHex(sha)
    ensures |ConfirmRestartId(sha)| <= MaxCustomIdLength
  {
    StringTokenLength(Expect(sha), "{\"expect\":\"", sha);
  }

  /** The validation buttons fit for a flow id of up to 40 characters of
      base 36. */
  lemma ValidIdsFit(flow: string)
    requires |flow| <= 40 && LowerAlnum(flow)
    ensures |ValidOkId(flow)| <= MaxCustomIdLength
    ensures |ValidFailId(flow)| <= MaxCustomIdLength
  {
    StringTokenLength(Flow(flow), "{\"flow\":\"", flow);
  }

  /** The merge button fits for a PR number of up to 40 digits. */
  lemma MergeIdFits(pr: nat)
    requires |NatToString(pr)| <= 40
    ensures |MergeId(pr)| <= MaxCustomIdLength
  {
    var d := NatToString(pr);
    assert Utf8.IsAscii(d);
    Utf8.AsciiConcat("{\"pr\":", d);
    Utf8.AsciiConcat("{\"pr\":" + d, "}");
    TokenLength(PrRef(pr));
  }
}

=== FILE: comm_wizard.dfy ===
/** The /comunicado assistant (index.js lines 70-79, 178-182, 319-370 and
    391-410): one session per user, kept in a map and dropped five minutes
    after its last step, that collects a type, an image, a text and a target
    channel before the announcement is posted; and the BBCode the text may
    use. */
module CommWizard {
  import opened Wrappers
  import opened Text

  // ---------------------------------------------------------------- formatInput

  /** pat occurs at i, letters compared without regard to case (the /i flag
      folds only A-Z onto a-z for these ASCII patterns). */
  predicate MatchesAt(s: string, pat: string, i: nat) {
    i + |pat| <= |s| && ToLowerAscii(s[i..i + |pat|]) == ToLowerAscii(pat)
  }

  /** The first position where pat occurs. */
  function FindCI(s: string, pat: string): (r: Option<nat>)
    requires |pat| > 0
    ensures r.Some? ==> r.value + |pat| <= |s|
    decreases |s|
  {
    if |s| < |pat| then None
    else if MatchesAt(s, pat, 0) then Some(0)
    else
      match FindCI(s[1..], pat)
      case None => None
      case Some(j) => Some(j + 1)
  }

  /** s.replace(/OPEN(.*?)CLOSE/gis, LEFT + '$1' + RIGHT): from left to
      right, each opening tag with a closing tag after it is paired with the
      nearest one. An opening tag with no closing tag after it ends the
      search, since no later opening tag can have one either. */
  function ReplacePairs(s: string, open: string, close: string, left: string, right: string): string
    requires |open| > 0 && |close| > 0
    decreases |s|
  {
    if |s| < |open| then s
    else if MatchesAt(s, open, 0) then
      var rest := s[|open|..];
      match FindCI(rest, close)
      case None => s
      case Some(j) => left + rest[..j] + right + ReplacePairs(rest[j + |close|..], open, close, left, right)
    else [s[0]] + ReplacePairs(s[1..], open, close, left, right)
  }

  /** s.replace(/PAT/gi, rep) */
  function ReplaceAllCI(s: string, pat: string, rep: string): string
    requires |pat| > 0
    decreases |s|
  {
    if |s| < |pat| then s
    else if MatchesAt(s, pat, 0) then rep + ReplaceAllCI(s[|pat|..], pat, rep)
    else [s[0]] + ReplaceAllCI(s[1..], pat, rep)
  }

  /** formatInput: BBCode to Markdown. An empty text is returned as it is. */
  function FormatInput(t: string): string {
    if t == "" then t
    else
      var b := ReplacePairs(t, "[b]", "[/b]", "**", "**");
      var i := ReplacePairs(b, "[i]", "[/i]", "*", "*");
      var u := ReplacePairs(i, "[u]", "[/u]", "__", "__");
      var s := ReplacePairs(u, "[s]", "[/s]", "~~", "~~");
      var br := ReplaceAllCI(s, "[br]", "\n");
      ReplacePairs(br, "[code]", "[/code]", "`", "`")
  }

  /** Only a '[' matches the '[' that opens every tag. */
  lemma MatchStartsWithBracket(s: string, pat: string, i: nat)
    requires |pat| > 0 && pat[0] == '['
    ensures MatchesAt(s, pat, i) ==> s[i] == '['
  {
    if i + |pat| <= |s| {
      assert ToLowerAscii(s[i..i + |pat|])[0] == ToLowerAsciiChar(s[i]);
      assert ToLowerAscii(pat)[0] == '[';
    }
  }

  lemma NoMatchWithoutBracket(s: string, pat: string, i: nat)
    requires |pat| > 0 && pat[0] == '[' && '[' !in s
    ensures !MatchesAt(s, pat, i)
  {
    MatchStartsWithBracket(s, pat, i);
  }

  lemma {:induction false} ReplacePairsPlain(s: string, open: string, close: string, left: string, right: string)
    requires |open| > 0 && |close| > 0 && open[0] == '[' && '[' !in s
    ensures ReplacePairs(s, open, close, left, right) == s
    decreases |s|
  {
    if |s| >= |open| {
      NoMatchWithoutBracket(s, open, 0);
      ReplacePairsPlain(s[1..], open, close, left, right);
      assert [s[0]] + s[1..] == s;
    }
  }

  lemma {:induction false} ReplaceAllCIPlain(s: string, pat: string, rep: string)
    requires |pat| > 0 && pat[0] == '[' && '[' !in s
    ensures ReplaceAllCI(s, pat, rep) == s
    decreases |s|
  {
    if |s| >= |pat| {
      NoMatchWithoutBracket(s, pat, 0);
      ReplaceAllCIPlain(s[1..], pat, rep);
      assert [s[0]] + s[1..] == s;
    }
  }

  /** A text without '[' holds no tag and is left as it is; in particular
      the empty text is. */
  lemma FormatInputPlain(t: string)
    requires '[' !in t
    ensures FormatInput(t) == t
  {
    ReplacePairsPlain(t, "[b]", "[/b]", "**", "**");
    ReplacePairsPlain(t, "[i]", "[/i]", "*", "*");
    ReplacePairsPlain(t, "[u]", "[/u]", "__", "__");
    ReplacePairsPlain(t, "[s]", "[/s]", "~~", "~~");
    ReplaceAllCIPlain(t, "[br]", "\n");
    ReplacePairsPlain(t, "[code]", "[/code]", "`", "`");
  }

  lemma {:induction false} FindCIPlain(x: string, close: string)
    requires |close| > 0 && close[0] == '[' && '[' !in x
    ensures FindCI(x + close, close) == Some(|x|)
    decreases |x|
  {
    var s := x + close;
    assert s[|x|..|x| + |close|] == close;
    if x == [] {
      assert MatchesAt(s, close, 0);
    } else {
      NoMatchWithoutBracket(x, close, 0);
      MatchStartsWithBracket(s, close, 0);
      assert s[0] == x[0];
      assert s[1..] == x[1..] + close;
      FindCIPlain(x[1..], close);
    }
  }

  /** A bold tag around plain text becomes Markdown bold, and the other
      passes leave the result alone. */
  lemma FormatInputBold(x: string)
    requires '[' !in x
    ensures FormatInput("[b]" + x + "[/b]") == "**" + x + "**"
  {
    var t := "[b]" + x + "[/b]";
    assert t[..3] == "[b]";
    assert ToLowerAscii(t[0..3]) == ToLowerAscii("[b]");
    assert MatchesAt(t, "[b]", 0);
    assert t[3..] == x + "[/b]";
    FindCIPlain(x, "[/b]");
    assert (x + "[/b]")[..|x|] == x;
    assert (x + "[/b]")[|x| + 4..] == "";
    var b := "**" + x + "**";
    assert ReplacePairs(t, "[b]", "[/b]", "**", "**") == b;
    assert '[' !in b by {
      forall k | 0 <= k < |b| ensures b[k] != '[' {
        if 2 <= k < 2 + |x| {
          assert b[k] == x[k - 2];
        }
      }
    }
    ReplacePairsPlain(b, "[i]", "[/i]", "*", "*");
    ReplacePairsPlain(b, "[u]", "[/u]", "__", "__");
    ReplacePairsPlain(b, "[s]", "[/s]", "~~", "~~");
    ReplaceAllCIPlain(b, "[br]", "\n");
    ReplacePairsPlain(b, "[code]", "[/code]", "`", "`");
  }

  lemma {:induction false} ReplacePairsPrefix(x: string, t: string, open: string, close: string, left: string, right: string)
    requires |open| > 0 && |close| > 0 && open[0] == '[' && '[' !in x
    ensures ReplacePairs(x + t, open, close, left, right) == x + ReplacePairs(t, open, close, left, right)
    decreases |x|
  {
    if x != [] {
      var s := x + t;
      if |s| < |open| {
        assert ReplacePairs(t, open, close, left, right) == t;
      } else {
        MatchStartsWithBracket(s, open, 0);
        assert !MatchesAt(s, open, 0);
        assert ReplacePairs(s, open, close, left, right) == [s[0]] + ReplacePairs(s[1..], open, close, left, right);
        assert s[1..] == x[1..] + t;
        ReplacePairsPrefix(x[1..], t, open, close, left, right);
        assert [x[0]] + x[1..] == x;
      }
    } else {
      assert x + t == t;
    }
  }

  lemma {:induction false} ReplaceAllCIPrefix(x: string, t: string, pat: string, rep: string)
    requires |pat| > 0 && pat[0] == '[' && '[' !in x
    ensures ReplaceAllCI(x + t, pat, rep) == x + ReplaceAllCI(t, pat, rep)
    decreases |x|
  {
    if x != [] {
      var s := x + t;
      if |s| < |pat| {
        assert ReplaceAllCI(t, pat, rep) == t;
      } else {
        MatchStartsWithBracket(s, pat, 0);
        assert !MatchesAt(s, pat, 0);
        assert ReplaceAllCI(s, pat, rep) == [s[0]] + ReplaceAllCI(s[1..], pat, rep);
        assert s[1..] == x[1..] + t;
        ReplaceAllCIPrefix(x[1..], t, pat, rep);
        assert [x[0]] + x[1..] == x;
      }
    } else {
      assert x + t == t;
    }
  }

  /** An opening tag whose third character is not an r is not read into a
      line break written in capitals. */
  lemma BreakIsNoOpenTag(y: string, open: string)
    requires |open| >= 3 && ToLowerAsciiChar(open[2]) != 'r'
    ensures !MatchesAt("[BR]" + y, open, 0)
  {
    var s := "[BR]" + y;
    if |open| <= |s| {
      assert s[2] == 'R';
      assert ToLowerAscii(s[..|open|])[2] == 'r';
    }
  }

  lemma PassKeepsBreak(x: string, y: string, open: string, close: string, left: string, right: string)
    requires |open| >= 3 && open[0] == '[' && ToLowerAsciiChar(open[2]) != 'r' && |close| > 0
    requires '[' !in x && '[' !in y
    ensures ReplacePairs(x + "[BR]" + y, open, close, left, right) == x + "[BR]" + y
  {
    var t := "[BR]" + y;
    assert x + "[BR]" + y == x + t;
    ReplacePairsPrefix(x, t, open, close, left, right);
    BreakIsNoOpenTag(y, open);
    assert t[1..] == "BR]" + y;
    ReplacePairsPlain("BR]" + y, open, close, left, right);
    assert [t[0]] + t[1..] == t;
  }

  lemma BreakPass(x: string, y: string)
    requires '[' !in x && '[' !in y
    ensures ReplaceAllCI(x + "[BR]" + y, "[br]", "\n") == x + "\n" + y
  {
    var t := "[BR]" + y;
    assert x + "[BR]" + y == x + t;
    ReplaceAllCIPrefix(x, t, "[br]", "\n");
    assert t[..4] == "[BR]" && t[4..] == y;
    assert MatchesAt(t, "[br]", 0);
    ReplaceAllCIPlain(y, "[br]", "\n");
  }

  lemma NoBracketAround(x: string, y: string)
    requires '[' !in x && '[' !in y
    ensures '[' !in x + "\n" + y
  {
    var n := x + "\n" + y;
    forall k | 0 <= k < |n| ensures n[k] != '[' {
      if k < |x| {
        assert n[k] == x[k];
      } else if k > |x| {
        assert n[k] == y[k - |x| - 1];
      }
    }
  }

  /** The line-break tag is matched whatever the case of its letters, and
      every other pass leaves the text around it alone. */
  lemma FormatInputBreak(x: string, y: string)
    requires '[' !in x && '[' !in y
    ensures FormatInput(x + "[BR]" + y) == x + "\n" + y
  {
    var t := x + "[BR]" + y;
    PassKeepsBreak(x, y, "[b]", "[/b]", "**", "**");
    PassKeepsBreak(x, y, "[i]", "[/i]", "*", "*");
    PassKeepsBreak(x, y, "[u]", "[/u]", "__", "__");
    PassKeepsBreak(x, y, "[s]", "[/s]", "~~", "~~");
    BreakPass(x, y);
    NoBracketAround(x, y);
    ReplacePairsPlain(x + "\n" + y, "[code]", "[/code]", "`", "`");
  }

  // ---------------------------------------------------------------- sessions

  const CommTimeoutMs := 5 * 60 * 1000
  const CommTypePrefix := "comm_type:"
  const ComunicadoImage := "https://i.imgur.com/X71MaK6.png"
  const InformacoesImage := "https://i.imgur.com/Nhle8lf.png"

  datatype Step = PickType | AwaitText | Preview

  /** The state kept for a user between the steps of the assistant. */
  datatype Session = Session(
    guildId: string,
    sourceChannelId: string,
    step: Step,
    kind: Option<string>,
    imageUrl: Option<string>,
    text: Option<string>,
    targetChannelId: Option<string>,
    createdAt: int)

  /** A session is dropped once more than five minutes have passed since
      its last step. */
  predicate Expired(s: Session, now: int) {
    now - s.createdAt > CommTimeoutMs
  }

  /** What the announcement would show: the session's text and image. */
  datatype Post = Post(text: Option<string>, imageUrl: Option<string>)

  datatype Reply =
    | NoPermission
    | TypeMenu
    | SessionExpired
    | ShowImageModal
    | AskText
    | InvalidUrl
    | ImageSet
    | ChannelPicked(channelId: string)
    | Cancelled
    | NeedChannel
    | InvalidChannel
    | Sent(post: Post, url: string)
    | SendFailed(message: string)

  /** /^https?:\/\//i */
  predicate IsHttpUrl(u: string) {
    StartsWith(ToLowerAscii(u), "http://") || StartsWith(ToLowerAscii(u), "https://")
  }

  /** The type a button selects: the part of its id after the first ':',
      up to the next ':' if there is one. */
  function ChosenKind(customId: string): (r: string)
    requires StartsWith(customId, CommTypePrefix)
    ensures ':' !in r && StartsWith(customId[|CommTypePrefix|..], r)
    ensures ':' !in customId[|CommTypePrefix|..] ==> r == customId[|CommTypePrefix|..]
  {
    SplitTypeId(customId);
    Split(customId, ':')[1]
  }

  lemma SplitTypeId(customId: string)
    requires StartsWith(customId, CommTypePrefix)
    ensures |Split(customId, ':')| >= 2
    ensures StartsWith(customId[|CommTypePrefix|..], Split(customId, ':')[1])
    ensures ':' !in customId[|CommTypePrefix|..] ==> Split(customId, ':')[1] == customId[|CommTypePrefix|..]
  {
    var rest := customId[|CommTypePrefix|..];
    assert customId == "comm_type" + [':'] + rest;
    SplitAfterPiece("comm_type", rest, ':');
    SplitFirstPiece(rest, ':');
    if ':' !in rest {
      SplitNoSeparator(rest, ':');
    }
  }

  lemma {:induction false} SplitFirstPiece(s: string, sep: char)
    ensures StartsWith(s, Split(s, sep)[0])
    decreases |s|
  {
    if s != [] {
      SplitFirstPiece(s[1..], sep);
    }
  }

  /** commState: the sessions by user id. */
  class Wizard {
    var sessions: map<string, Session>

    constructor ()
      ensures sessions == map[]
    {
      sessions := map[];
    }

    /** getState: the user's session, or nothing; an expired session is
        deleted on the way. */
    method GetState(uid: string, now: int) returns (s: Option<Session>)
      modifies this
      ensures uid !in old(sessions) ==> s.None? && sessions == old(sessions)
      ensures uid in old(sessions) && Expired(old(sessions)[uid], now) ==>
        s.None? && sessions == old(sessions) - {uid}
      ensures uid in old(sessions) && !Expired(old(sessions)[uid], now) ==>
        s == Some(old(sessions)[uid]) && sessions == old(sessions)
    {
      if uid !in sessions {
        return None;
      }
      var session := sessions[uid];
      if now - session.createdAt > CommTimeoutMs {
        sessions := sessions - {uid};
        return None;
      }
      s := Some(session);
    }

    /** clearComm */
    method ClearComm(uid: string)
      modifies this
      ensures sessions == old(sessions) - {uid}
    {
      sessions := sessions - {uid};
    }

    /** /comunicado: a user allowed to post starts a fresh session in the
        channel they are in, replacing any earlier one. */
    method Start(uid: string, guildId: string, channelId: string, canSend: bool, now: int) returns (reply: Reply)
      modifies this
      ensures !canSend ==> reply == NoPermission && sessions == old(sessions)
      ensures canSend ==> (reply == TypeMenu &&
        sessions == old(sessions)[uid := Session(guildId, channelId, PickType, None, None, None, None, now)])
    {
      if !canSend {
        return NoPermission;
      }
      sessions := sessions[uid := Session(guildId, channelId, PickType, None, None, None, None, now)];
      reply := TypeMenu;
    }

    /** A type button: the type is recorded; the two fixed types set their
        image and ask for the text, "custom" asks for an image first. A
        button from another server finds no session. */
    method ChooseType(uid: string, guildId: string, customId: string, now: int) returns (reply: Reply)
      requires StartsWith(customId, CommTypePrefix)
      modifies this
      ensures uid !in old(sessions) || Expired(old(sessions)[uid], now) || old(sessions)[uid].guildId != guildId ==>
        reply == SessionExpired
      ensures reply == SessionExpired ==>
        sessions == if uid in old(sessions) && Expired(old(sessions)[uid], now) then old(sessions) - {uid} else old(sessions)
      ensures reply != SessionExpired <==>
        uid in old(sessions) && !Expired(old(sessions)[uid], now) && old(sessions)[uid].guildId == guildId
      ensures reply == ShowImageModal <==> reply != SessionExpired && ChosenKind(customId) == "custom"
      ensures reply == ShowImageModal ==>
        sessions == old(sessions)[uid := old(sessions)[uid].(kind := Some("custom"))]
      ensures reply == AskText ==>
        var s := old(sessions)[uid];
        var kind := ChosenKind(customId);
        sessions == old(sessions)[uid := s.(kind := Some(kind), step := AwaitText, createdAt := now,
          imageUrl := if kind == "comunicado" then Some(ComunicadoImage)
                      else if kind == "informacoes" then Some(InformacoesImage)
                      else s.imageUrl)]
      ensures reply in {SessionExpired, ShowImageModal, AskText}
    {
      var found := GetState(uid, now);
      if found.None? || found.value.guildId != guildId {
        return SessionExpired;
      }
      var s := found.value;
      var kind := ChosenKind(customId);
      s := s.(kind := Some(kind));
      if kind == "comunicado" {
        s := s.(imageUrl := Some(ComunicadoImage));
      }
      if kind == "informacoes" {
        s := s.(imageUrl := Some(InformacoesImage));
      }
      if kind == "custom" {
        sessions := sessions[uid := s];
        return ShowImageModal;
      }
      s := s.(step := AwaitText, createdAt := now);
      sessions := sessions[uid := s];
      reply := AskText;
    }

    /** The image modal: a trimmed http(s) address becomes the image and the
        assistant waits for the text; anything else is refused. */
    method ImageModal(uid: string, url: string, now: int) returns (reply: Reply)
      modifies this
      ensures uid !in old(sessions) || Expired(old(sessions)[uid], now) ==>
        reply == SessionExpired && sessions == old(sessions) - {uid}
      ensures uid in old(sessions) && !Expired(old(sessions)[uid], now) && !IsHttpUrl(Trim(url)) ==>
        reply == InvalidUrl && sessions == old(sessions)
      ensures uid in old(sessions) && !Expired(old(sessions)[uid], now) && IsHttpUrl(Trim(url)) ==>
        reply == ImageSet &&
        sessions == old(sessions)[uid := old(sessions)[uid].(imageUrl := Some(Trim(url)), step := AwaitText, createdAt := now)]
    {
      var found := GetState(uid, now);
      if found.None? {
        return SessionExpired;
      }
      var u := Trim(url);
      if !IsHttpUrl(u) {
        return InvalidUrl;
      }
      sessions := sessions[uid := found.value.(imageUrl := Some(u), step := AwaitText, createdAt := now)];
      reply := ImageSet;
    }

    /** The channel menu records the target, at any step. */
    method PickChannel(uid: string, channelId: string, now: int) returns (reply: Reply)
      modifies this
      ensures uid !in old(sessions) || Expired(old(sessions)[uid], now) ==>
        reply == SessionExpired && sessions == old(sessions) - {uid}
      ensures uid in old(sessions) && !Expired(old(sessions)[uid], now) ==>
        reply == ChannelPicked(channelId) &&
        sessions == old(sessions)[uid := old(sessions)[uid].(targetChannelId := Some(channelId))]
    {
      var found := GetState(uid, now);
      if found.None? {
        return SessionExpired;
      }
      sessions := sessions[uid := found.value.(targetChannelId := Some(channelId))];
      reply := ChannelPicked(channelId);
    }

    /** The send and cancel buttons. Cancel ends the session; send needs a
        target, which must be a text channel, and posts the session's text
        and image; only a post that went through ends the session.
        textChannel says whether the target was found as a text channel and
        send is the outcome of posting there. */
    method ConfirmOrCancel(uid: string, cancel: bool, now: int, textChannel: bool, send: Result<string, string>)
      returns (reply: Reply)
      modifies this
      ensures uid !in old(sessions) || Expired(old(sessions)[uid], now) ==>
        reply == SessionExpired && sessions == old(sessions) - {uid}
      ensures reply != SessionExpired <==> uid in old(sessions) && !Expired(old(sessions)[uid], now)
      ensures reply != SessionExpired && cancel ==> reply == Cancelled && sessions == old(sessions) - {uid}
      ensures reply != SessionExpired && !cancel && old(sessions)[uid].targetChannelId.None? ==>
        reply == NeedChannel && sessions == old(sessions)
      ensures reply.Sent? ==>
        !cancel && old(sessions)[uid].targetChannelId.Some? && textChannel && send.Ok? &&
        reply.post == Post(old(sessions)[uid].text, old(sessions)[uid].imageUrl) &&
        sessions == old(sessions) - {uid}
      ensures reply != SessionExpired && !cancel && old(sessions)[uid].targetChannelId.Some? ==>
        reply == if !textChannel then InvalidChannel
                 else if send.Err? then SendFailed(send.error)
                 else Sent(Post(old(sessions)[uid].text, old(sessions)[uid].imageUrl), send.value)
      ensures reply == InvalidChannel || reply.SendFailed? ==> sessions == old(sessions)
    {
      var found := GetState(uid, now);
      if found.None? {
        return SessionExpired;
      }
      var s := found.value;
      if cancel {
        ClearComm(uid);
        return Cancelled;
      }
      if s.targetChannelId.None? {
        return NeedChannel;
      }
      if !textChannel {
        return InvalidChannel;
      }
      if send.Err? {
        return SendFailed(send.error);
      }
      ClearComm(uid);
      reply := Sent(Post(s.text, s.imageUrl), send.value);
    }

    /** The next message of the user, in the server and channel where the
        assistant was started, while it waits for the text and only from an
        administrator, becomes the text (trimmed, BBCode turned into
        Markdown) and moves the session to its preview. */
    method CaptureText(uid: string, guildId: string, channelId: string, content: string,
                       authorIsBot: bool, authorIsAdmin: bool, now: int)
      returns (preview: Option<Post>)
      modifies this
      ensures authorIsBot ==> preview.None? && sessions == old(sessions)
      ensures preview.Some? <==>
        !authorIsBot && uid in old(sessions) && !Expired(old(sessions)[uid], now) &&
        old(sessions)[uid].guildId == guildId && old(sessions)[uid].sourceChannelId == channelId &&
        old(sessions)[uid].step == AwaitText && authorIsAdmin
      ensures preview.Some? ==>
        var s := old(sessions)[uid].(text := Some(FormatInput(Trim(content))), step := Preview, createdAt := now);
        sessions == old(sessions)[uid := s] && preview.value == Post(s.text, s.imageUrl)
      ensures preview.None? && !authorIsBot ==>
        sessions == if uid in old(sessions) && Expired(old(sessions)[uid], now) then old(sessions) - {uid} else old(sessions)
    {
      if authorIsBot {
        return None;
      }
      var found := GetState(uid, now);
      if found.None? {
        return None;
      }
      var s := found.value;
      if s.guildId != guildId || s.sourceChannelId != channelId {
        return None;
      }
      if s.step != AwaitText {
        return None;
      }
      if !authorIsAdmin {
        return None;
      }
      s := s.(text := Some(FormatInput(Trim(content))), step := Preview, createdAt := now);
      sessions := sessions[uid := s];
      preview := Some(Post(s.text, s.imageUrl));
    }
  }
}

=== FILE: deploy.dfy ===
/** Settings, predicates and remote-command builders of the deploy flow
    (deploy/src/handlers/deployFlow.js, lines 8-192). The environment is a
    map from variable names to values; GitHub, SSH and HTTP answers are
    inputs. */
module Deploy {
  import opened Wrappers
  import opened Text
  import Token

  // ---------------------------------------------------------------- settings

  /** A variable read with `||` or tested with `!`: absent and empty are
      both unset. */
  function Setting(env: map<string, string>, name: string): Option<string> {
    if name in env && env[name] != "" then Some(env[name]) else None
  }

  /** process.env.NAME || fallback */
  function SettingOr(env: map<string, string>, name: string, fallback: string): string {
    Setting(env, name).GetOr(fallback)
  }

  datatype Config = Config(
    allowedUserIds: seq<string>,
    deployChannelId: Option<string>,
    notifyUserId: Option<string>,
    dryRun: bool,
    baseBranch: string,
    headBranch: string,
    mergeMethod: string,
    versionFilePath: Option<string>,
    infoJsonUrl: Option<string>,
    infoJsonPath: Option<string>,
    infoJsonKey: string,
    pollInterval: Option<int>,   // None: parseInt gave NaN
    pollTimeout: Option<int>,
    deployPath: Option<string>,
    gitRemote: string,
    gitBranch: string,
    versionFormat: string)

  /** DEPLOY_PATH with one trailing '/' removed (the pattern /\/$/). */
  function StripTrailingSlash(p: string): string {
    if p != [] && p[|p| - 1] == '/' then p[..|p| - 1] else p
  }

  /** VERSION_FILE_PATH, or else config/version.cfg under DEPLOY_PATH, or
      else unset. */
  function VersionFilePath(explicit: Option<string>, deployPath: Option<string>): (r: Option<string>)
    ensures explicit.Some? ==> r == explicit
    ensures explicit.None? ==> (r.Some? <==> deployPath.Some?)
    ensures explicit.None? && deployPath.Some? ==>
      r.value == StripTrailingSlash(deployPath.value) + "/config/version.cfg"
  {
    if explicit.Some? then explicit
    else if deployPath.Some? then Some(StripTrailingSlash(deployPath.value) + "/config/version.cfg")
    else None
  }

  /** A trailing slash on DEPLOY_PATH does not change the derived path. */
  lemma VersionFilePathSlash(base: string)
    requires base != [] && base[|base| - 1] != '/'
    ensures VersionFilePath(None, Some(base + "/")) == VersionFilePath(None, Some(base))
  {
    assert (base + "/")[..|base + "/"| - 1] == base;
  }

  /** The settings as the module reads them when it is loaded. */
  function FromEnv(env: map<string, string>): (r: Config)
    ensures forall i :: 0 <= i < |r.allowedUserIds| ==>
              r.allowedUserIds[i] != [] && IsTrimmed(r.allowedUserIds[i])
    ensures r.dryRun ==> Setting(env, "DRY_RUN").Some?
  {
    Config(
      allowedUserIds := CommaList(SettingOr(env, "ALLOWED_USER_IDS", "")),
      deployChannelId := Setting(env, "DEPLOY_CHANNEL_ID"),
      notifyUserId := Setting(env, "DEPLOY_NOTIFY_USER_ID"),
      dryRun := ToLowerAscii(SettingOr(env, "DRY_RUN", "false")) == "true",
      baseBranch := SettingOr(env, "MAIN_BRANCH", "main"),
      headBranch := SettingOr(env, "DEV_BRANCH", "dev"),
      mergeMethod := ToLowerAscii(SettingOr(env, "MERGE_METHOD", "squash")),
      versionFilePath := VersionFilePath(Setting(env, "VERSION_FILE_PATH"), Setting(env, "DEPLOY_PATH")),
      infoJsonUrl := Setting(env, "INFO_JSON_URL"),
      infoJsonPath := Setting(env, "INFO_JSON_PATH"),
      infoJsonKey := SettingOr(env, "INFO_JSON_KEY", "git_sha"),
      pollInterval := ParseInt(SettingOr(env, "INFO_JSON_POLL_INTERVAL_MS", "5000")),
      pollTimeout := ParseInt(SettingOr(env, "INFO_JSON_POLL_TIMEOUT_MS", "240000")),
      deployPath := Setting(env, "DEPLOY_PATH"),
      gitRemote := SettingOr(env, "DEPLOY_GIT_REMOTE", "origin"),
      gitBranch := SettingOr(env, "DEPLOY_GIT_BRANCH", "main"),
      versionFormat := SettingOr(env, "VERSION_CFG_FORMAT", "sets revamp_version {sha}"))
  }

  /** With nothing set: no one is allowed, any channel is accepted, no dry
      run, dev is merged into main with squash, the key is git_sha and the
      poll runs every 5 s for at most 240 s. */
  lemma FromEnvDefaults()
    ensures FromEnv(map[]).allowedUserIds == []
    ensures FromEnv(map[]).deployChannelId.None? && !FromEnv(map[]).dryRun
    ensures FromEnv(map[]).baseBranch == "main" && FromEnv(map[]).headBranch == "dev"
    ensures FromEnv(map[]).mergeMethod == "squash"
    ensures FromEnv(map[]).versionFilePath.None?
    ensures FromEnv(map[]).infoJsonUrl.None? && FromEnv(map[]).infoJsonPath.None?
    ensures FromEnv(map[]).infoJsonKey == "git_sha"
    ensures FromEnv(map[]).pollInterval == Some(5000) && FromEnv(map[]).pollTimeout == Some(240000)
    ensures FromEnv(map[]).gitRemote == "origin" && FromEnv(map[]).gitBranch == "main"
  {
    DefaultPollSettings();
    DefaultWords();
  }

  lemma DefaultWords()
    ensures CommaList("") == []
    ensures ToLowerAscii("false") == "false"
    ensures ToLowerAscii("squash") == "squash"
  {
    assert Split("", ',') == [[]];
    assert Trim([]) == [];
  }

  lemma DefaultPollSettings()
    ensures ParseInt("5000") == Some(5000)
    ensures ParseInt("240000") == Some(240000)
  {
    DefaultInterval();
    DefaultTimeout();
  }

  lemma DefaultInterval()
    ensures ParseInt("5000") == Some(5000)
  {
    ParseIntDigits("5000");
    assert DigitsValue("5") == 5;
    assert DigitsValue("50") == 50 by { assert "50"[..1] == "5"; }
    assert DigitsValue("500") == 500 by { assert "500"[..2] == "50"; }
    assert DigitsValue("5000") == 5000 by { assert "5000"[..3] == "500"; }
  }

  lemma DefaultTimeout()
    ensures ParseInt("240000") == Some(240000)
  {
    ParseIntDigits("240000");
    assert DigitsValue("240") == 240 by { DigitsValue240(); }
    assert DigitsValue("2400") == 2400 by { assert "2400"[..3] == "240"; }
    assert DigitsValue("24000") == 24000 by { assert "24000"[..4] == "2400"; }
    assert DigitsValue("240000") == 240000 by { assert "240000"[..5] == "24000"; }
  }

  lemma DigitsValue240()
    ensures DigitsValue("240") == 240
  {
    assert DigitsValue("2") == 2;
    assert DigitsValue("24") == 24 by { assert "24"[..1] == "2"; }
    assert "240"[..2] == "24";
  }

  // ---------------------------------------------------------------- guards

  /** isAllowed: the user id is one of ALLOWED_USER_IDS. */
  predicate IsAllowed(cfg: Config, userId: string) {
    userId in cfg.allowedUserIds
  }

  /** The allow-list fails closed: with ALLOWED_USER_IDS unset no one
      passes, and an empty or padded id never passes. */
  lemma AllowListFailsClosed(env: map<string, string>, userId: string)
    ensures Setting(env, "ALLOWED_USER_IDS").None? ==> !IsAllowed(FromEnv(env), userId)
    ensures userId == [] || !IsTrimmed(userId) ==> !IsAllowed(FromEnv(env), userId)
  {
    if Setting(env, "ALLOWED_USER_IDS").None? {
      assert Split("", ',') == [[]];
      assert Trim([]) == [];
    }
  }

  /** isRightChannel: any channel when DEPLOY_CHANNEL_ID is unset, otherwise
      only that one. */
  function IsRightChannel(cfg: Config, channelId: string): (r: bool)
    ensures cfg.deployChannelId.None? ==> r
    ensures cfg.deployChannelId.Some? ==> (r <==> channelId == cfg.deployChannelId.value)
  {
    !cfg.deployChannelId.Some? || channelId == cfg.deployChannelId.value
  }

  // ---------------------------------------------------------------- GitHub

  /** The fields of a compare result that hasDiff reads; a field that is
      absent or not of the tested type is None, and files holds the length
      of the files array. */
  datatype CompareData = CompareData(status: Option<string>, totalCommits: Option<int>, files: Option<nat>)

  /** hasDiff: no result means no difference; otherwise a status other than
      "identical", a positive commit count or a non-empty file list each
      mean there is one. */
  function HasDiff(compare: Option<CompareData>): (r: bool)
    ensures compare.None? ==> !r
    ensures compare.Some? ==> (r <==>
      (compare.value.status.Some? && compare.value.status.value != "" &&
       ToLowerAscii(compare.value.status.value) != "identical") ||
      (compare.value.totalCommits.Some? && compare.value.totalCommits.value > 0) ||
      (compare.value.files.Some? && compare.value.files.value > 0))
  {
    match compare
    case None => false
    case Some(c) =>
      if c.status.Some? && c.status.value != "" && ToLowerAscii(c.status.value) != "identical" then true
      else if c.totalCommits.Some? && c.totalCommits.value > 0 then true
      else if c.files.Some? && c.files.value > 0 then true
      else false
  }

  /** "identical" in any letter case, with no commits and no files, is no
      difference; "ahead", "behind" and "diverged" always are. */
  lemma HasDiffStatusWords(status: string, commits: Option<int>, files: Option<nat>)
    ensures ToLowerAscii(status) == "identical" ==>
      HasDiff(Some(CompareData(Some(status), Some(0), Some(0)))) == false
    ensures status in {"ahead", "behind", "diverged"} ==>
      HasDiff(Some(CompareData(Some(status), commits, files)))
  {
    if status == "ahead" {
      assert ToLowerAscii(status)[0] == 'a';
    } else if status == "behind" {
      assert ToLowerAscii(status)[0] == 'b';
    } else if status == "diverged" {
      assert ToLowerAscii(status)[0] == 'd';
    }
  }

  datatype PullRequest = PullRequest(number: nat)

  /** ensurePullRequest: the first open PR from head into base, or else the
      PR that pulls.create makes; the flag says whether one was created. */
  function EnsurePullRequest(open: seq<PullRequest>, created: PullRequest): (r: (PullRequest, bool))
    ensures r.1 <==> open == []
    ensures open != [] ==> r.0 == open[0]
    ensures open == [] ==> r.0 == created
  {
    if |open| > 0 then (open[0], false) else (created, true)
  }

  /** The open PRs after ensurePullRequest: the created one is now open. */
  function OpenAfterEnsure(open: seq<PullRequest>, created: PullRequest): seq<PullRequest> {
    if EnsurePullRequest(open, created).1 then [created] else open
  }

  /** A second call with nothing changed in between finds the same PR and
      creates none. */
  lemma EnsurePullRequestIdempotent(open: seq<PullRequest>, created: PullRequest, created2: PullRequest)
    ensures EnsurePullRequest(OpenAfterEnsure(open, created), created2) ==
      (EnsurePullRequest(open, created).0, false)
  {
  }

  // ---------------------------------------------------------------- info.json

  /** A JSON value as far as `(v || '').toString()` can tell it apart; an
      array is kept as the text its toString gives. */
  datatype JsonValue = JNull | JBool(b: bool) | JNumber(n: int) | JString(s: string) | JArray(text: string) | JObject

  /** A parsed info.json; a document that is not an object has no keys. */
  type InfoDoc = map<string, JsonValue>

  predicate Truthy(v: Option<JsonValue>) {
    match v
    case None => false
    case Some(JNull) => false
    case Some(JBool(b)) => b
    case Some(JNumber(n)) => n != 0
    case Some(JString(s)) => s != ""
    case Some(JArray(_)) => true
    case Some(JObject) => true
  }

  /** String(v) for a value that is present and not null. */
  function ToText(v: JsonValue): string {
    match v
    case JNull => "null"
    case JBool(b) => if b then "true" else "false"
    case JNumber(n) => IntToString(n)
    case JString(s) => s
    case JArray(t) => t
    case JObject => "[object Object]"
  }

  function Lookup(doc: InfoDoc, key: string): Option<JsonValue> {
    if key in doc then Some(doc[key]) else None
  }

  /** (json?.[key] || fallback).toString() */
  function KeyText(doc: InfoDoc, key: string, fallback: string): string {
    var v := Lookup(doc, key);
    if Truthy(v) then ToText(v.value) else fallback
  }

  /** versionMatches: the value at the key, as text, is non-empty and its
      first characters are the first seven of the expected SHA. */
  predicate VersionMatches(doc: InfoDoc, key: string, expected: string) {
    var v := KeyText(doc, key, "");
    v != "" && StartsWith(v, Take(expected, 7))
  }

  /** A match means: the value is non-empty and agrees with the expected SHA
      on its first seven characters (on all of them if it is shorter). */
  lemma VersionMatchesPrefix(doc: InfoDoc, key: string, expected: string)
    ensures VersionMatches(doc, key, expected) <==>
      var v := KeyText(doc, key, ""); var n := if |expected| < 7 then |expected| else 7;
      v != "" && |v| >= n && forall i :: 0 <= i < n ==> v[i] == expected[i]
  {
  }

  /** The server reporting the full SHA, or its seven-character short form,
      is a match; a value that differs in the first seven characters is
      not. */
  lemma VersionMatchesForms(doc: InfoDoc, key: string, sha: string, other: string)
    requires sha != []
    ensures doc == map[key := JString(sha)] ==> VersionMatches(doc, key, sha)
    ensures doc == map[key := JString(Take(sha, 7))] ==> VersionMatches(doc, key, sha)
    ensures doc == map[key := JString(other)] && Take(other, 7) != Take(sha, 7) && |sha| >= 7 ==>
      !VersionMatches(doc, key, sha)
  {
    if doc == map[key := JString(other)] && Take(other, 7) != Take(sha, 7) && |sha| >= 7 && |other| >= 7 {
      assert other[..7] != sha[..7];
      var i :| 0 <= i < 7 && other[..7][i] != sha[..7][i];
      assert other[i] != sha[i];
    }
  }

  /** The text shown as the last value seen: 'n/d' when the key is missing
      or falsy. */
  function LastSeen(doc: InfoDoc, key: string): (r: string)
    ensures Truthy(Lookup(doc, key)) ==> r == ToText(doc[key])
    ensures !Truthy(Lookup(doc, key)) ==> r == "n/d"
  {
    KeyText(doc, key, "n/d")
  }

  /** A matching document shows the matched value as the last value seen. */
  lemma LastSeenOfMatch(doc: InfoDoc, key: string, expected: string)
    requires VersionMatches(doc, key, expected)
    ensures LastSeen(doc, key) == KeyText(doc, key, "")
  {
  }

  // ---------------------------------------------------------------- SSH

  datatype ExecResult = ExecResult(code: int, stdout: string, stderr: string)

  /** The deploy host's answer to a command: its exit code and output, or the
      message of a failure to connect or to run it. */
  type Host = string -> Result<ExecResult, string>

  /** runSSH: in dry-run mode the command is not sent and reads as a success
      whose output names it; otherwise the host answers. */
  function RunSsh(dryRun: bool, cmd: string, host: Host): (r: Result<ExecResult, string>)
    ensures dryRun ==> r == Ok(ExecResult(0, "[DRY-RUN] " + cmd, ""))
    ensures !dryRun ==> r == host(cmd)
  {
    if dryRun then Ok(ExecResult(0, "[DRY-RUN] " + cmd, "")) else host(cmd)
  }

  /** deployCommands: DEPLOY_PATH unset is an error; otherwise the five
      steps joined with " && ". */
  function DeployCommands(cfg: Config): (r: Result<string, string>)
    ensures r.Err? <==> cfg.deployPath.None?
    ensures r.Err? ==> r.error == "DEPLOY_PATH em falta"
  {
    match cfg.deployPath
    case None => Err("DEPLOY_PATH em falta")
    case Some(cwd) =>
      Ok(Join([
        "cd " + cwd,
        "git fetch --all --prune",
        "git checkout " + cfg.gitBranch,
        "git reset --hard " + cfg.gitRemote + "/" + cfg.gitBranch,
        "git pull --ff-only " + cfg.gitRemote + " " + cfg.gitBranch], " && "))
  }

  lemma JoinFive(xs: seq<string>, sep: string)
    requires |xs| == 5
    ensures Join(xs, sep) == xs[0] + sep + (xs[1] + sep + (xs[2] + sep + (xs[3] + sep + xs[4])))
  {
    assert xs[3..][1..] == xs[4..] == [xs[4]];
    assert Join(xs[3..], sep) == xs[3] + sep + xs[4];
    assert xs[2..][1..] == xs[3..];
    assert Join(xs[2..], sep) == xs[2] + sep + Join(xs[3..], sep);
    assert xs[1..][1..] == xs[2..];
    assert Join(xs[1..], sep) == xs[1] + sep + Join(xs[2..], sep);
  }

  /** The chain is exactly: cd into the path, fetch all remotes pruning
      stale branches, check out the branch, reset hard to the remote's
      branch and pull fast-forward only, in that order. */
  lemma DeployCommandsText(cfg: Config)
    requires cfg.deployPath.Some?
    ensures DeployCommands(cfg) == Ok(
      ("cd " + cfg.deployPath.value) + " && " + (
      "git fetch --all --prune" + " && " + (
      ("git checkout " + cfg.gitBranch) + " && " + (
      ("git reset --hard " + cfg.gitRemote + "/" + cfg.gitBranch) + " && " +
      ("git pull --ff-only " + cfg.gitRemote + " " + cfg.gitBranch)))))
  {
    var xs := [
      "cd " + cfg.deployPath.value,
      "git fetch --all --prune",
      "git checkout " + cfg.gitBranch,
      "git reset --hard " + cfg.gitRemote + "/" + cfg.gitBranch,
      "git pull --ff-only " + cfg.gitRemote + " " + cfg.gitBranch];
    JoinFive(xs, " && ");
  }

  // ---------------------------------------------------------------- version.cfg

  /** The version line: the trimmed format with every {sha} replaced by the
      SHA, then every {short} by its first seven characters, and one newline
      after it. */
  function VersionLine(format: string, sha: string): (r: string)
    ensures |r| >= 1 && r[|r| - 1] == '\n'
  {
    ReplaceAll(ReplaceAll(Trim(format), "{sha}", sha), "{short}", Take(sha, 7)) + "\n"
  }

  /** The version line is a single line when neither the trimmed format nor
      the SHA holds a line break: its only newline is the last character. */
  lemma VersionLineSingle(format: string, sha: string)
    requires '\n' !in Trim(format) && '\n' !in sha
    ensures var r := VersionLine(format, sha); '\n' !in r[..|r| - 1]
  {
    var short := Take(sha, 7);
    assert '\n' !in short by {
      assert StartsWith(sha, short);
      assert forall i :: 0 <= i < |short| ==> short[i] == sha[i];
    }
    ReplaceAllKeepsOut(Trim(format), "{sha}", sha, '\n');
    var once := ReplaceAll(Trim(format), "{sha}", sha);
    ReplaceAllKeepsOut(once, "{short}", short, '\n');
    var r := VersionLine(format, sha);
    assert r[..|r| - 1] == ReplaceAll(once, "{short}", short);
  }

  /** A format as literal text and the two placeholders. */
  datatype Piece = Lit(text: string) | FullSha | ShortSha

  function TemplateText(ps: seq<Piece>): string
    decreases |ps|
  {
    if ps == [] then []
    else
      (match ps[0]
       case Lit(t) => t
       case FullSha => "{sha}"
       case ShortSha => "{short}") + TemplateText(ps[1..])
  }

  /** The text the template stands for once the SHA is known. */
  function Expanded(ps: seq<Piece>, sha: string): string
    decreases |ps|
  {
    if ps == [] then []
    else
      (match ps[0]
       case Lit(t) => t
       case FullSha => sha
       case ShortSha => Take(sha, 7)) + Expanded(ps[1..], sha)
  }

  /** After the first pass only {short} placeholders remain. */
  function HalfExpanded(ps: seq<Piece>, sha: string): string
    decreases |ps|
  {
    if ps == [] then []
    else
      (match ps[0]
       case Lit(t) => t
       case FullSha => sha
       case ShortSha => "{short}") + HalfExpanded(ps[1..], sha)
  }

  predicate PlainPieces(ps: seq<Piece>) {
    forall i :: 0 <= i < |ps| && ps[i].Lit? ==> '{' !in ps[i].text
  }

  /** A '{' that does not start the pattern is copied and the scan goes on. */
  lemma ReplaceAllBrace(s: string, pat: string, rep: string)
    requires |pat| > 0 && pat[0] == '{'
    requires !StartsWith(s, pat) && s != [] && s[0] == '{'
    ensures ReplaceAll(s, pat, rep) == "{" + ReplaceAll(s[1..], pat, rep)
  {
  }

  lemma {:induction false} FirstPass(ps: seq<Piece>, sha: string)
    requires PlainPieces(ps)
    ensures ReplaceAll(TemplateText(ps), "{sha}", sha) == HalfExpanded(ps, sha)
    decreases |ps|
  {
    if ps != [] {
      var rest := TemplateText(ps[1..]);
      FirstPass(ps[1..], sha);
      match ps[0]
      case Lit(t) =>
        ReplaceAllLiteral(t, rest, "{sha}", sha);
      case FullSha =>
        ReplaceAllFront(rest, "{sha}", sha);
      case ShortSha =>
        ShortSurvivesFirstPass(rest, sha);
    }
  }

  lemma ShortSurvivesFirstPass(rest: string, sha: string)
    ensures ReplaceAll("{short}" + rest, "{sha}", sha) == "{short}" + ReplaceAll(rest, "{sha}", sha)
  {
    var t := "short}" + rest;
    var s := "{" + t;
    assert s == "{short}" + rest by {
      assert "{" + "short}" == "{short}";
    }
    assert !StartsWith(s, "{sha}") by {
      assert s[3] == 'o';
      DiffersAt(s, "{sha}", 3);
    }
    assert s[1..] == t;
    ReplaceAllBrace(s, "{sha}", sha);
    ReplaceAllLiteral("short}", rest, "{sha}", sha);
  }

  /** A text that differs from a pattern at some position does not start
      with it. */
  lemma DiffersAt(s: string, p: string, i: nat)
    requires i < |p| && i < |s| && s[i] != p[i]
    ensures !StartsWith(s, p)
  {
    if |p| <= |s| {
      assert s[..|p|][i] != p[i];
    }
  }

  lemma {:induction false} SecondPass(ps: seq<Piece>, sha: string)
    requires PlainPieces(ps) && '{' !in sha
    ensures ReplaceAll(HalfExpanded(ps, sha), "{short}", Take(sha, 7)) == Expanded(ps, sha)
    decreases |ps|
  {
    if ps != [] {
      var rest := HalfExpanded(ps[1..], sha);
      SecondPass(ps[1..], sha);
      match ps[0]
      case Lit(t) =>
        ReplaceAllLiteral(t, rest, "{short}", Take(sha, 7));
      case FullSha =>
        ReplaceAllLiteral(sha, rest, "{short}", Take(sha, 7));
      case ShortSha =>
        ReplaceAllFront(rest, "{short}", Take(sha, 7));
    }
  }

  /** A format made of literal text without '{' and the two placeholders
      renders as that text with the full SHA and the short SHA put in, as
      long as the SHA has no '{' (a hexadecimal SHA has none). */
  lemma VersionLineTemplate(format: string, ps: seq<Piece>, sha: string)
    requires Trim(format) == TemplateText(ps)
    requires PlainPieces(ps) && '{' !in sha
    ensures VersionLine(format, sha) == Expanded(ps, sha) + "\n"
  {
    FirstPass(ps, sha);
    SecondPass(ps, sha);
  }

  lemma DefaultFormatPieces()
    ensures Trim("sets revamp_version {sha}") == TemplateText([Lit("sets revamp_version "), FullSha])
  {
    var f := "sets revamp_version {sha}";
    assert TemplateText([Lit("sets revamp_version "), FullSha]) == f by {
      assert [Lit("sets revamp_version "), FullSha][1..] == [FullSha];
      assert [FullSha][1..] == [];
    }
    assert f[0] == 's' && f[|f| - 1] == '}';
    TrimPadded([], f, []);
    assert [] + f + [] == f;
  }

  /** With the default format the line is "sets revamp_version <sha>". */
  lemma DefaultVersionLine(sha: string)
    requires '{' !in sha
    ensures VersionLine("sets revamp_version {sha}", sha) == "sets revamp_version " + sha + "\n"
  {
    var ps := [Lit("sets revamp_version "), FullSha];
    DefaultFormatPieces();
    DefaultPiecesPlain();
    VersionLineTemplate("sets revamp_version {sha}", ps, sha);
    DefaultExpanded(sha);
  }

  lemma DefaultPiecesPlain()
    ensures PlainPieces([Lit("sets revamp_version "), FullSha])
  {
    var t := "sets revamp_version ";
    assert forall k :: 0 <= k < |t| ==> t[k] != '{';
  }

  lemma DefaultExpanded(sha: string)
    ensures Expanded([Lit("sets revamp_version "), FullSha], sha) == "sets revamp_version " + sha
  {
    var ps := [Lit("sets revamp_version "), FullSha];
    assert ps[1..] == [FullSha] && [FullSha][1..] == [];
    assert Expanded(ps, sha) == "sets revamp_version " + (sha + []);
    assert sha + [] == sha;
  }

  /** How a POSIX shell reads the text between the double quotes of a word
      (parameter and command substitution aside): a backslash before $, `,
      " or a backslash stands for that character, a backslash before a
      newline joins the lines, and any other backslash is kept. This is also
      what `printf %s "<text>"` writes, since %s copies its argument as it
      is. */
  function ShellDoubleQuoted(body: string): string
    decreases |body|
  {
    if body == [] then []
    else if body[0] == '\\' && |body| >= 2 && body[1] in {'$', '`', '"', '\\'} then
      [body[1]] + ShellDoubleQuoted(body[2..])
    else if body[0] == '\\' && |body| >= 2 && body[1] == '\n' then ShellDoubleQuoted(body[2..])
    else [body[0]] + ShellDoubleQuoted(body[1..])
  }

  /** The command writeVersionCfg sends: printf %s with the content as a
      JSON string literal, redirected into the version file. */
  function VersionCommand(path: string, content: string): string {
    "printf %s " + Token.Quote(content) + " > " + path
  }

  lemma {:induction false} EscapeAppend(a: string, b: string)
    ensures Token.Escape(a + b) == Token.Escape(a) + Token.Escape(b)
    decreases |a|
  {
    if a == [] {
      assert a + b == b;
    } else {
      assert (a + b)[1..] == a[1..] + b;
      EscapeAppend(a[1..], b);
    }
  }

  lemma {:induction false} ShellPlain(s: string, tail: string)
    requires Token.Plain(s)
    ensures ShellDoubleQuoted(s + tail) == s + ShellDoubleQuoted(tail)
    decreases |s|
  {
    if s == [] {
      assert s + tail == tail;
    } else {
      assert (s + tail)[1..] == s[1..] + tail;
      ShellPlain(s[1..], tail);
    }
  }

  /** JSON-escaping a plain line and its newline, then reading it back as
      the shell does, leaves a backslash and the letter n at the end. */
  lemma EscapedLineReadsBack(line: string)
    requires Token.Plain(line)
    ensures ShellDoubleQuoted(Token.Escape(line + "\n")) == line + "\\n"
    ensures ShellDoubleQuoted(Token.Escape(line + "\n")) != line + "\n"
  {
    EscapeAppend(line, "\n");
    Token.EscapePlain(line);
    assert Token.Escape("\n") == "\\n";
    ShellPlain(line, "\\n");
    assert ShellDoubleQuoted("\\n") == "\\n";
    assert (line + "\\n")[|line| + 1] == 'n';
  }

  /** As written, the command's quoted word is the JSON escape of the
      version line, and the file receives the line followed by a backslash
      and the letter n, not by a newline: JSON.stringify writes the newline
      as \n, and neither the shell's double quotes nor printf %s turn it
      back into one. */
  lemma VersionFileAsWritten(path: string, format: string, sha: string)
    requires var line := VersionLine(format, sha); Token.Plain(line[..|line| - 1])
    ensures var line := VersionLine(format, sha);
            VersionCommand(path, line) == "printf %s \"" + Token.Escape(line) + "\" > " + path &&
            ShellDoubleQuoted(Token.Escape(line)) == line[..|line| - 1] + "\\n" &&
            ShellDoubleQuoted(Token.Escape(line)) != line
  {
    var line := VersionLine(format, sha);
    var body := line[..|line| - 1];
    assert line == body + "\n";
    EscapedLineReadsBack(body);
  }

  /** The text escaped for a double-quoted shell word: a backslash before
      $, `, " and a backslash; a newline stays as it is. */
  function ShellEscape(s: string): string
    decreases |s|
  {
    if s == [] then []
    else (if s[0] in {'$', '`', '"', '\\'} then ['\\', s[0]] else [s[0]]) + ShellEscape(s[1..])
  }

  /** The corrected command: printf %s with the content escaped for the
      shell rather than for JSON. */
  function VersionCommandFixed(path: string, content: string): string {
    "printf %s \"" + ShellEscape(content) + "\" > " + path
  }

  /** The corrected command writes exactly the content, its final newline
      included. */
  lemma {:induction false} ShellEscapeRoundTrip(s: string)
    ensures ShellDoubleQuoted(ShellEscape(s)) == s
    decreases |s|
  {
    if s != [] {
      var rest := ShellEscape(s[1..]);
      ShellEscapeRoundTrip(s[1..]);
      if s[0] in {'$', '`', '"', '\\'} {
        assert ShellEscape(s) == ['\\', s[0]] + rest;
        assert (['\\', s[0]] + rest)[2..] == rest;
      } else {
        assert ShellEscape(s) == [s[0]] + rest;
        assert ([s[0]] + rest)[1..] == rest;
      }
      assert s == [s[0]] + s[1..];
    }
  }

  /** The corrected command's quoted word reads back, in the shell, as
      exactly the version line, its final newline included. */
  lemma VersionFileFixed(path: string, format: string, sha: string)
    ensures var line := VersionLine(format, sha);
            VersionCommandFixed(path, line) == "printf %s \"" + ShellEscape(line) + "\" > " + path &&
            ShellDoubleQuoted(ShellEscape(line)) == line
  {
    ShellEscapeRoundTrip(VersionLine(format, sha));
  }

  /** writeVersionCfg: an error when no version file path is configured,
      otherwise the host's answer to the command that writes the version
      line. */
  function WriteVersionCfg(cfg: Config, sha: string, host: Host): (r: Result<ExecResult, string>)
    ensures cfg.versionFilePath.None? ==> r == Err("VERSION_FILE_PATH n\U{e3}o definido.")
    ensures cfg.versionFilePath.Some? ==>
      r == RunSsh(cfg.dryRun, VersionCommandFixed(cfg.versionFilePath.value, VersionLine(cfg.versionFormat, sha)), host)
  {
    match cfg.versionFilePath
    case None => Err("VERSION_FILE_PATH n\U{e3}o definido.")
    case Some(path) => RunSsh(cfg.dryRun, VersionCommandFixed(path, VersionLine(cfg.versionFormat, sha)), host)
  }

  // ---------------------------------------------------------------- readInfoJson

  /** What fetch gives for INFO_JSON_URL: a status and the body read as JSON
      (or the parser's message), or the message of a network failure or of
      the 8-second abort. */
  datatype HttpOutcome = HttpAnswer(status: int, body: Result<InfoDoc, string>) | HttpFailure(message: string)

  /** readInfoJson: neither source configured is an error; the URL is
      preferred; otherwise `cat` of the path over SSH, whose output must be
      JSON. */
  function ReadInfoJson(cfg: Config, http: HttpOutcome, host: Host, parseJson: string -> Option<InfoDoc>)
    : (r: Result<InfoDoc, string>)
    ensures cfg.infoJsonUrl.None? && cfg.infoJsonPath.None? ==>
      r == Err("Nem INFO_JSON_URL nem INFO_JSON_PATH definidos.")
    ensures cfg.infoJsonUrl.Some? ==>
      (r.Ok? <==> http.HttpAnswer? && 200 <= http.status <= 299 && http.body.Ok?)
    ensures cfg.infoJsonUrl.Some? && r.Ok? ==> r.value == http.body.value
    ensures cfg.infoJsonUrl.None? && cfg.infoJsonPath.Some? ==>
      (r.Ok? <==> var res := RunSsh(cfg.dryRun, "cat " + cfg.infoJsonPath.value, host);
        res.Ok? && res.value.code == 0 && parseJson(res.value.stdout).Some?)
  {
    if cfg.infoJsonUrl.None? && cfg.infoJsonPath.None? then
      Err("Nem INFO_JSON_URL nem INFO_JSON_PATH definidos.")
    else if cfg.infoJsonUrl.Some? then
      match http
      case HttpFailure(m) => Err("Falha HTTP ao obter info.json: " + m)
      case HttpAnswer(status, body) =>
        if !(200 <= status <= 299) then Err("Falha HTTP ao obter info.json: HTTP " + IntToString(status))
        else if body.Err? then Err("Falha HTTP ao obter info.json: " + body.error)
        else Ok(body.value)
    else
      match RunSsh(cfg.dryRun, "cat " + cfg.infoJsonPath.value, host)
      case Err(m) => Err(m)
      case Ok(res) =>
        if res.code != 0 then Err(if res.stderr != "" then res.stderr else "Falha ao ler info.json")
        else match parseJson(res.stdout)
          case None => Err("Conte\U{fa}do de info.json n\U{e3}o \U{e9} JSON v\U{e1}lido.")
          case Some(doc) => Ok(doc)
  }

  /** With a URL the host and the JSON reader are not consulted; with only a
      path the HTTP outcome is not. */
  lemma ReadInfoJsonSource(cfg: Config, http: HttpOutcome, http2: HttpOutcome, host: Host, host2: Host,
                           parseJson: string -> Option<InfoDoc>, parseJson2: string -> Option<InfoDoc>)
    ensures cfg.infoJsonUrl.Some? ==>
      ReadInfoJson(cfg, http, host, parseJson) == ReadInfoJson(cfg, http, host2, parseJson2)
    ensures cfg.infoJsonUrl.None? ==>
      ReadInfoJson(cfg, http, host, parseJson) == ReadInfoJson(cfg, http2, host, parseJson)
  {
  }
}

=== FILE: guild_scan.dfy ===
/** The scan behind /verificar and "apply all" (index.js scanGuild, lines
    159-174): the members who still lack a tag prefix, split into those the
    bot can rename and those it cannot. */
module GuildScan {
  import opened Wrappers
  import opened Nickname

  datatype Member = Member(id: string, isBot: bool, nickname: Option<string>, manageable: bool)

  datatype ScanResult = ScanResult(missingManageable: seq<Member>, missingUnmanageable: seq<Member>)

  /** The nickname test: m.nickname || '' has a tag prefix. */
  predicate Tagged(m: Member) {
    HasPrefix(m.nickname.GetOr(""))
  }

  /** Where a member goes: a bot or a tagged member nowhere; the owner to the
      unmanageable list unless their number is already in the table; anyone
      else by whether the bot can rename them. */
  predicate MissingManageable(m: Member, ownerId: string) {
    !m.isBot && !Tagged(m) && m.id != ownerId && m.manageable
  }

  predicate MissingUnmanageable(m: Member, ownerId: string, ownerHasTag: bool) {
    !m.isBot && !Tagged(m) &&
    (if m.id == ownerId then !ownerHasTag else !m.manageable)
  }

  /** The members of the cache, in order, that satisfy the test of a list. */
  function Select(members: seq<Member>, ownerId: string, ownerHasTag: bool, manageable: bool): seq<Member>
    decreases |members|
  {
    if members == [] then []
    else
      var m := members[|members| - 1];
      var keep := if manageable then MissingManageable(m, ownerId) else MissingUnmanageable(m, ownerId, ownerHasTag);
      Select(members[..|members| - 1], ownerId, ownerHasTag, manageable) + (if keep then [m] else [])
  }

  /** A list holds exactly the members that pass its test. */
  lemma {:induction false} SelectMembers(members: seq<Member>, ownerId: string, ownerHasTag: bool, manageable: bool)
    ensures forall m :: m in Select(members, ownerId, ownerHasTag, manageable) <==>
      m in members &&
      (if manageable then MissingManageable(m, ownerId) else MissingUnmanageable(m, ownerId, ownerHasTag))
    decreases |members|
  {
    if members != [] {
      var n := |members|;
      SelectMembers(members[..n - 1], ownerId, ownerHasTag, manageable);
      assert members == members[..n - 1] + [members[n - 1]];
    }
  }

  /** No member is in both lists, the owner is never offered for renaming,
      and every untagged human member is in one list unless they are the
      owner with a number. */
  lemma ScanPartition(members: seq<Member>, ownerId: string, ownerHasTag: bool)
    ensures forall m :: m in Select(members, ownerId, ownerHasTag, true) ==>
      m !in Select(members, ownerId, ownerHasTag, false) && m.id != ownerId
    ensures forall m :: m in members && !m.isBot && !Tagged(m) && !(m.id == ownerId && ownerHasTag) ==>
      m in Select(members, ownerId, ownerHasTag, true) || m in Select(members, ownerId, ownerHasTag, false)
  {
    SelectMembers(members, ownerId, ownerHasTag, true);
    SelectMembers(members, ownerId, ownerHasTag, false);
  }

  /** scanGuild: whether the owner has a row comes from a query whose
      failure counts as no row; then one pass over the members. */
  method ScanGuild(members: seq<Member>, ownerId: string, ownerRow: Result<bool, string>) returns (out: ScanResult)
    ensures var ownerHasTag := ownerRow.Ok? && ownerRow.value;
      out == ScanResult(Select(members, ownerId, ownerHasTag, true), Select(members, ownerId, ownerHasTag, false))
  {
    var ownerHasTag := false;
    if ownerRow.Ok? {
      ownerHasTag := ownerRow.value;
    }
    var manageable: seq<Member> := [];
    var unmanageable: seq<Member> := [];
    for i := 0 to |members|
      invariant manageable == Select(members[..i], ownerId, ownerHasTag, true)
      invariant unmanageable == Select(members[..i], ownerId, ownerHasTag, false)
    {
      assert members[..i + 1][..i] == members[..i];
      var m := members[i];
      if m.isBot {
        continue;
      }
      var hasPrefix := HasPrefix(m.nickname.GetOr(""));
      if m.id == ownerId {
        if !hasPrefix && !ownerHasTag {
          unmanageable := unmanageable + [m];
        }
        continue;
      }
      if !hasPrefix {
        if m.manageable {
          manageable := manageable + [m];
        } else {
          unmanageable := unmanageable + [m];
        }
      }
    }
    assert members[..|members|] == members;
    out := ScanResult(manageable, unmanageable);
  }
}

=== FILE: nickname.dfy ===
/** Tag prefixes on nicknames (index.js lines 57-58 and 150-155): the
    prefix "[n]" or "(n)", its removal, and the nickname the bot sets. */
module Nickname {
  import opened Wrappers
  import opened Text

  /** NICKNAME_PREFIX_BRACKETS: any value but '0' selects square brackets. */
  predicate SquareBrackets(env: Option<string>) {
    env != Some("0")
  }

  predicate IsOpen(c: char) { c == '[' || c == '(' }

  predicate IsClose(c: char) { c == ']' || c == ')' }

  /** makePrefix: the tag number in brackets. */
  function MakePrefix(square: bool, n: nat): (r: string)
    ensures |r| >= 3 && IsOpen(r[0]) && IsClose(r[|r| - 1])
    ensures (r[0] == '[') == square
    ensures AllDigits(r[1..|r| - 1]) && DigitsValue(r[1..|r| - 1]) == n
  {
    var r := [if square then '[' else '('] + NatToString(n) + [if square then ']' else ')'];
    assert r[1..|r| - 1] == NatToString(n);
    r
  }

  /** The part of name after a leading tag prefix, when it has one: the match
      of /^\s*[\[(]\s*\d+\s*[\])]\s* / is taken off. White space, brackets
      and digits are disjoint classes, so the greedy match is the only one. */
  function PrefixRest(name: string): Option<string> {
    var t1 := TrimStart(name);
    if t1 == [] || !IsOpen(t1[0]) then None else AfterOpen(TrimStart(t1[1..]))
  }

  /** The rest of the match once the opening bracket and the white space
      after it are taken: digits, white space, a closing bracket. */
  function AfterOpen(t: string): Option<string> {
    var d := DigitPrefix(t);
    if d == [] then None else AfterDigits(TrimStart(t[|d|..]))
  }

  function AfterDigits(t: string): Option<string> {
    if t == [] || !IsClose(t[0]) then None else Some(TrimStart(t[1..]))
  }

  /** The test /^\s*[\[(]\s*\d+\s*[\])]\s* /.test(name). */
  predicate HasPrefix(name: string) {
    PrefixRest(name).Some?
  }

  /** stripPrefix: the name without its leading tag prefix, trimmed. */
  function StripPrefix(name: string): (r: string)
    ensures IsTrimmed(r)
    ensures !HasPrefix(name) ==> r == Trim(name)
  {
    TrimResult(match PrefixRest(name) case Some(rest) => rest case None => name);
    Trim(match PrefixRest(name) case Some(rest) => rest case None => name)
  }

  lemma TrimStartKeeps(s: string)
    requires s != [] && !IsSpace(s[0])
    ensures TrimStart(s) == s
  {
  }

  lemma TrimStartTwice(s: string)
    ensures TrimStart(TrimStart(s)) == TrimStart(s)
  {
    TrimStartShape(s);
  }

  lemma AfterOpenParts(d: string, c: char, tail: string)
    requires IsClose(c) && d != [] && AllDigits(d)
    ensures AfterOpen(d + [c] + tail) == Some(TrimStart(tail))
  {
    var t := d + ([c] + tail);
    assert d + [c] + tail == t;
    DigitPrefixAppend(d, [c] + tail);
    assert t[|d|..] == [c] + tail;
    TrimStartKeeps([c] + tail);
    assert ([c] + tail)[1..] == tail;
  }

  lemma PrefixRestParts(o: char, d: string, c: char, tail: string)
    requires IsOpen(o) && IsClose(c) && d != [] && AllDigits(d)
    ensures PrefixRest([o] + d + [c] + tail) == Some(TrimStart(tail))
  {
    var name := [o] + (d + [c] + tail);
    assert [o] + d + [c] + tail == name;
    TrimStartKeeps(name);
    assert name[1..] == d + [c] + tail;
    assert IsDigit(d[0]);
    TrimStartKeeps(d + [c] + tail);
    AfterOpenParts(d, c, tail);
  }

  /** A prefix the bot wrote is recognised, and what follows it is kept up
      to its leading white space. */
  lemma PrefixRestOfPrefix(square: bool, n: nat, tail: string)
    ensures PrefixRest(MakePrefix(square, n) + tail) == Some(TrimStart(tail))
  {
    var p := MakePrefix(square, n);
    var d := p[1..|p| - 1];
    assert p == [p[0]] + d + [p[|p| - 1]];
    PrefixRestParts(p[0], d, p[|p| - 1], tail);
  }

  /** Stripping the prefix the bot wrote gives back the trimmed name after
      it; only one prefix is removed, so a prefix inside the name stays. */
  lemma StripMakePrefix(square: bool, n: nat, b: string)
    ensures StripPrefix(MakePrefix(square, n) + " " + b) == Trim(b)
  {
    assert MakePrefix(square, n) + " " + b == MakePrefix(square, n) + (" " + b);
    PrefixRestOfPrefix(square, n, " " + b);
    TrimStartSkipsSpaces(" ", b);
    TrimStartTwice(b);
  }

  /** The name a member is known by: the nickname, or the user name when
      the nickname is absent or empty. */
  function DisplayName(nickname: Option<string>, username: string): string {
    if nickname.Some? && nickname.value != "" then nickname.value else username
  }

  /** applyNickname: the prefix, a space and the stripped name, cut to 32
      characters. */
  function ApplyNickname(square: bool, nickname: Option<string>, username: string, tag: nat): (r: string)
    ensures |r| <= 32
    ensures |MakePrefix(square, tag)| <= 32 ==> StartsWith(r, MakePrefix(square, tag))
  {
    var nick := MakePrefix(square, tag) + " " + StripPrefix(DisplayName(nickname, username));
    assert StartsWith(nick, MakePrefix(square, tag)) by {
      assert nick[..|MakePrefix(square, tag)|] == MakePrefix(square, tag);
    }
    Take(nick, 32)
  }

  /** A nickname the bot set carries a prefix whenever the prefix fits. */
  lemma AppliedHasPrefix(square: bool, nickname: Option<string>, username: string, tag: nat)
    requires |MakePrefix(square, tag)| <= 32
    ensures HasPrefix(ApplyNickname(square, nickname, username, tag))
  {
    var p := MakePrefix(square, tag);
    var r := ApplyNickname(square, nickname, username, tag);
    assert r == p + r[|p|..];
    PrefixRestOfPrefix(square, tag, r[|p|..]);
  }

  /** Tagging a member again replaces the old prefix instead of stacking a
      second one, whatever brackets either tag used, when the first
      nickname was not cut short. */
  lemma RetagReplacesPrefix(square1: bool, square2: bool, nickname: Option<string>, username: string, tag1: nat, tag2: nat)
    requires |MakePrefix(square1, tag1)| + 1 + |StripPrefix(DisplayName(nickname, username))| <= 32
    ensures ApplyNickname(square2, Some(ApplyNickname(square1, nickname, username, tag1)), username, tag2) ==
            ApplyNickname(square2, nickname, username, tag2)
  {
    var base := StripPrefix(DisplayName(nickname, username));
    var first := ApplyNickname(square1, nickname, username, tag1);
    assert first == MakePrefix(square1, tag1) + " " + base;
    assert first != "";
    StripMakePrefix(square1, tag1, base);
    TrimPadded("", base, "");
    assert "" + base + "" == base;
  }

  /** Tagging a member again, even one whose nickname was cut at 32
      characters: the old prefix is taken off whatever brackets it used,
      and the new one goes in front of what the cut left of the name. */
  lemma RetagStripsOldPrefix(square1: bool, square2: bool, nickname: Option<string>, username: string, tag1: nat, tag2: nat)
    requires |MakePrefix(square1, tag1)| <= 32
    ensures var first := ApplyNickname(square1, nickname, username, tag1);
            ApplyNickname(square2, Some(first), username, tag2) ==
            Take(MakePrefix(square2, tag2) + " " + Trim(first[|MakePrefix(square1, tag1)|..]), 32)
  {
    var p := MakePrefix(square1, tag1);
    var first := ApplyNickname(square1, nickname, username, tag1);
    var tail := first[|p|..];
    assert first == p + tail;
    assert first != "";
    PrefixRestOfPrefix(square1, tag1, tail);
    TrimStartTwice(tail);
  }
}

=== FILE: poller.dfy ===
/** The loop that waits, after a manual restart, until info.json shows the
    merged commit (deployFlow.js lines 379-388). Time is a virtual clock:
    each read takes the time `cost` gives it and each pause lasts the delay
    Node's setTimeout uses for the configured interval. */
module Poller {
  import opened Wrappers
  import opened Deploy

  /** The delay setTimeout applies: NaN, a value below 1 or above 2^31 - 1
      becomes 1 ms. */
  function SleepMs(interval: Option<int>): (r: nat)
    ensures r >= 1
    ensures interval.Some? && 1 <= interval.value <= 0x7FFF_FFFF ==> r == interval.value
  {
    if interval.Some? && 1 <= interval.value <= 0x7FFF_FFFF then interval.value else 1
  }

  /** The loop test Date.now() - start < timeout; a NaN timeout is never
      exceeded and never undercut, so the test is false. */
  predicate InTime(elapsed: nat, timeout: Option<int>) {
    timeout.Some? && elapsed < timeout.value
  }

  /** The time on the clock when read k starts, when none of the results
      before it matched. */
  function StartOf(cost: nat -> nat, sleep: nat, k: nat): nat {
    if k == 0 then 0 else StartOf(cost, sleep, k - 1) + cost(k - 1) + sleep
  }

  /** The clock only moves forward, so a read that started in time was
      preceded only by reads that did too. */
  lemma {:induction false} StartOfMonotone(cost: nat -> nat, sleep: nat, j: nat, k: nat)
    requires j <= k
    ensures StartOf(cost, sleep, j) <= StartOf(cost, sleep, k)
    decreases k
  {
    if j < k {
      StartOfMonotone(cost, sleep, j, k - 1);
    }
  }

  /** When the last read started within the timeout, every read did. */
  lemma AllStartedInTime(cost: nat -> nat, sleep: nat, timeout: Option<int>, probes: nat)
    requires probes > 0 ==> InTime(StartOf(cost, sleep, probes - 1), timeout)
    ensures forall k :: 0 <= k < probes ==> InTime(StartOf(cost, sleep, k), timeout)
  {
    forall k | 0 <= k < probes
      ensures InTime(StartOf(cost, sleep, k), timeout)
    {
      StartOfMonotone(cost, sleep, k, probes - 1);
    }
  }

  /** Every round takes at least a millisecond. */
  lemma {:induction false} StartOfAtLeast(cost: nat -> nat, sleep: nat, k: nat)
    requires sleep >= 1
    ensures StartOf(cost, sleep, k) >= k
  {
    if k > 0 {
      StartOfAtLeast(cost, sleep, k - 1);
    }
  }

  /** A NaN timeout allows no read, and a timeout of T ms at most T reads. */
  lemma ProbesWithinTimeout(cost: nat -> nat, sleep: nat, timeout: Option<int>, probes: nat)
    requires sleep >= 1
    requires probes > 0 ==> InTime(StartOf(cost, sleep, probes - 1), timeout)
    ensures timeout.None? ==> probes == 0
    ensures timeout.Some? ==> probes <= if timeout.value < 0 then 0 else timeout.value
  {
    if probes > 0 {
      StartOfAtLeast(cost, sleep, probes - 1);
    }
  }

  predicate Matched(r: Result<InfoDoc, string>, key: string, expected: string) {
    r.Ok? && VersionMatches(r.value, key, expected)
  }

  function Reads(read: nat -> Result<InfoDoc, string>, n: nat): (r: seq<Result<InfoDoc, string>>)
    ensures |r| == n && forall k :: 0 <= k < n ==> r[k] == read(k)
  {
    seq(n, k requires 0 <= k < n => read(k))
  }

  /** The last value seen: from the latest successful read, or 'n/d'. */
  function LastSeenOf(results: seq<Result<InfoDoc, string>>, key: string): string
    decreases |results|
  {
    if results == [] then "n/d"
    else if results[|results| - 1].Ok? then LastSeen(results[|results| - 1].value, key)
    else LastSeenOf(results[..|results| - 1], key)
  }

  /** The message of the latest failed read, or the empty text. */
  function LastErrorOf(results: seq<Result<InfoDoc, string>>): string
    decreases |results|
  {
    if results == [] then ""
    else if results[|results| - 1].Err? then results[|results| - 1].error
    else LastErrorOf(results[..|results| - 1])
  }

  /** One more read updates the last value seen and the last error as the
      loop body does. */
  lemma ResultsStep(read: nat -> Result<InfoDoc, string>, n: nat, key: string)
    ensures LastSeenOf(Reads(read, n + 1), key) ==
      if read(n).Ok? then LastSeen(read(n).value, key) else LastSeenOf(Reads(read, n), key)
    ensures LastErrorOf(Reads(read, n + 1)) ==
      if read(n).Err? then read(n).error else LastErrorOf(Reads(read, n))
  {
    assert Reads(read, n + 1)[..n] == Reads(read, n);
  }

  /** The body of the try block: a successful read updates the last value
      seen and is tested; a failed read only updates the error message. */
  method ReadOnce(r: Result<InfoDoc, string>, key: string, expected: string, lastSeen: string, errorMsg: string)
    returns (matched: bool, lastSeen': string, errorMsg': string)
    ensures matched <==> Matched(r, key, expected)
    ensures lastSeen' == if r.Ok? then LastSeen(r.value, key) else lastSeen
    ensures errorMsg' == if r.Err? then r.error else errorMsg
  {
    matched, lastSeen', errorMsg' := false, lastSeen, errorMsg;
    if r.Ok? {
      lastSeen' := LastSeen(r.value, key);
      matched := VersionMatches(r.value, key, expected);
    } else {
      errorMsg' := r.error;
    }
  }

  /** Read k of the loop, with the bookkeeping of the values it carries. */
  method ReadRound(read: nat -> Result<InfoDoc, string>, k: nat, key: string, expected: string,
                   lastSeen: string, errorMsg: string)
    returns (matched: bool, lastSeen': string, errorMsg': string)
    requires lastSeen == LastSeenOf(Reads(read, k), key)
    requires errorMsg == LastErrorOf(Reads(read, k))
    ensures matched <==> Matched(read(k), key, expected)
    ensures lastSeen' == LastSeenOf(Reads(read, k + 1), key)
    ensures errorMsg' == LastErrorOf(Reads(read, k + 1))
  {
    ResultsStep(read, k, key);
    matched, lastSeen', errorMsg' := ReadOnce(read(k), key, expected, lastSeen, errorMsg);
  }

  /** What the loop knows after `probes` reads: the clock, that every read
      before the last found no match, whether the last one did, and the
      values carried for the report. */
  predicate PollInv(key: string, expected: string, timeout: Option<int>, sleep: nat,
                    read: nat -> Result<InfoDoc, string>, cost: nat -> nat,
                    ok: bool, lastSeen: string, errorMsg: string, probes: nat, elapsed: nat)
  {
    (!ok ==> elapsed == StartOf(cost, sleep, probes)) &&
    (ok ==> probes > 0 && Matched(read(probes - 1), key, expected) &&
            elapsed == StartOf(cost, sleep, probes - 1) + cost(probes - 1)) &&
    (probes > 0 ==> InTime(StartOf(cost, sleep, probes - 1), timeout)) &&
    (forall k :: 0 <= k < probes - 1 ==> !Matched(read(k), key, expected)) &&
    (!ok && probes > 0 ==> !Matched(read(probes - 1), key, expected)) &&
    lastSeen == LastSeenOf(Reads(read, probes), key) &&
    errorMsg == LastErrorOf(Reads(read, probes))
  }

  /** One pass of the loop body: read, test, and pause unless it matched. */
  method PollRound(key: string, expected: string, timeout: Option<int>, sleep: nat,
                   read: nat -> Result<InfoDoc, string>, cost: nat -> nat,
                   lastSeen: string, errorMsg: string, probes: nat, elapsed: nat)
    returns (ok': bool, lastSeen': string, errorMsg': string, probes': nat, elapsed': nat)
    requires PollInv(key, expected, timeout, sleep, read, cost, false, lastSeen, errorMsg, probes, elapsed)
    requires InTime(elapsed, timeout) && sleep >= 1
    ensures PollInv(key, expected, timeout, sleep, read, cost, ok', lastSeen', errorMsg', probes', elapsed')
    ensures probes' == probes + 1
    ensures ok' <==> Matched(read(probes), key, expected)
    ensures elapsed' > elapsed || (elapsed' == elapsed && ok')
  {
    ok', lastSeen', errorMsg' := ReadRound(read, probes, key, expected, lastSeen, errorMsg);
    elapsed' := elapsed + cost(probes) + (if ok' then 0 else sleep);
    probes' := probes + 1;
  }

  /** Reads info.json until the value at the key matches the expected SHA or
      the time is up. A read that fails is recorded and the loop goes on;
      after a read that does not match, the loop pauses for the interval;
      after the first match it stops at once. */
  method Poll(key: string, expected: string, timeout: Option<int>, interval: Option<int>,
              read: nat -> Result<InfoDoc, string>, cost: nat -> nat)
    returns (ok: bool, lastSeen: string, errorMsg: string, probes: nat, elapsed: nat)
    ensures probes > 0 ==> InTime(StartOf(cost, SleepMs(interval), probes - 1), timeout)
    ensures ok <==> probes > 0 && Matched(read(probes - 1), key, expected)
    ensures forall k :: 0 <= k < probes - 1 ==> !Matched(read(k), key, expected)
    ensures !ok ==> elapsed == StartOf(cost, SleepMs(interval), probes) && !InTime(elapsed, timeout)
    ensures ok ==> elapsed == StartOf(cost, SleepMs(interval), probes - 1) + cost(probes - 1)
    ensures lastSeen == LastSeenOf(Reads(read, probes), key)
    ensures errorMsg == LastErrorOf(Reads(read, probes))
    ensures timeout.None? ==> probes == 0 && !ok
    ensures timeout.Some? ==> probes <= if timeout.value < 0 then 0 else timeout.value
  {
    var sleep := SleepMs(interval);
    ok, lastSeen, errorMsg, probes, elapsed := false, "n/d", "", 0, 0;
    while !ok && InTime(elapsed, timeout)
      invariant PollInv(key, expected, timeout, sleep, read, cost, ok, lastSeen, errorMsg, probes, elapsed)
      decreases (if timeout.Some? then timeout.value else 0) - elapsed, if ok then 0 else 1
    {
      ok, lastSeen, errorMsg, probes, elapsed :=
        PollRound(key, expected, timeout, sleep, read, cost, lastSeen, errorMsg, probes, elapsed);
    }
    ProbesWithinTimeout(cost, sleep, timeout, probes);
  }
}

=== FILE: tag_alloc.dfy ===
/** Tag numbers (index.js lines 87-142 and 299-316): the table of tags with
    its unique tag numbers, the smallest free number in a range, the order
    of ranges a staff tag is taken from, the retry loop of ensureStaffTag,
    the public tags from 100 up, and the rules of /corrigir. */
module TagAlloc {
  import opened Wrappers
  import opened TagConfig

  /** A row of discord_tags.user_tags, keyed by discord id. */
  datatype Row = Row(tag: int, isStaff: bool)

  /** The constraint uq_user_tags_tag: no two members share a number. */
  predicate UniqueTags(rows: map<string, Row>) {
    forall a, b :: a in rows && b in rows && a != b ==> rows[a].tag != rows[b].tag
  }

  function TagsOf(rows: map<string, Row>): set<int> {
    set id | id in rows :: rows[id].tag
  }

  /** Some member other than id holds the number. */
  predicate HeldByOther(rows: map<string, Row>, id: string, tag: int) {
    exists other :: other in rows && other != id && rows[other].tag == tag
  }

  predicate Sorted(xs: seq<int>) {
    forall i, j :: 0 <= i < j < |xs| ==> xs[i] <= xs[j]
  }

  /** The numbers of tags in lo..hi, in increasing order. */
  function InOrder(tags: set<int>, lo: int, hi: int): (r: seq<int>)
    ensures Sorted(r)
    ensures forall i :: 0 <= i < |r| ==> lo <= r[i] <= hi
    ensures forall k :: lo <= k <= hi ==> (k in r <==> k in tags)
    decreases if lo <= hi then hi - lo + 1 else 0
  {
    if lo > hi then [] else (if lo in tags then [lo] else []) + InOrder(tags, lo + 1, hi)
  }

  // ---------------------------------------------------------------- the smallest free number

  /** The smallest number of lo..hi that is not taken. */
  function SmallestFree(tags: set<int>, lo: int, hi: int): (r: Option<int>)
    ensures r.Some? ==> lo <= r.value <= hi && r.value !in tags
    ensures r.Some? ==> forall k :: lo <= k < r.value ==> k in tags
    ensures r.None? <==> forall k :: lo <= k <= hi ==> k in tags
    decreases if lo <= hi then hi - lo + 1 else 0
  {
    if lo > hi then None
    else if lo !in tags then Some(lo)
    else SmallestFree(tags, lo + 1, hi)
  }

  /** The smallest free number is the only one with its two properties. */
  lemma {:induction false} SmallestFreeUnique(tags: set<int>, lo: int, hi: int, n: int)
    requires lo <= n <= hi && n !in tags
    requires forall k :: lo <= k < n ==> k in tags
    ensures SmallestFree(tags, lo, hi) == Some(n)
    decreases n - lo
  {
    if lo < n {
      SmallestFreeUnique(tags, lo + 1, hi, n);
    }
  }

  /** nextFreeTagInRange, over the numbers the query returns: the tags in
      start..end, in increasing order. */
  method NextFreeTagInRange(taken: seq<int>, start: int, end: int) returns (r: Option<int>)
    requires Sorted(taken)
    requires forall i :: 0 <= i < |taken| ==> start <= taken[i] <= end
    ensures r.Some? ==> start <= r.value <= end && r.value !in taken
    ensures r.Some? ==> forall k :: start <= k < r.value ==> k in taken
    ensures r.None? <==> forall k :: start <= k <= end ==> k in taken
  {
    var expected := start;
    for i := 0 to |taken|
      invariant start <= expected
      invariant forall j :: 0 <= j < i ==> taken[j] < expected
      invariant forall k :: start <= k < expected ==> k in taken
    {
      var n := taken[i];
      if n > expected {
        assert forall j :: i <= j < |taken| ==> taken[j] >= n;
        return Some(expected);
      }
      if n == expected {
        expected := expected + 1;
      }
    }
    return if expected <= end then Some(expected) else None;
  }

  // ---------------------------------------------------------------- staff ranges

  /** The ranges allocateStaffTag pushes after the preferred one: the other
      segments in configuration order. A segment with the preferred role is
      skipped. */
  function OtherRanges(segs: seq<Segment>, pref: Option<Segment>): seq<Range>
    decreases |segs|
  {
    if segs == [] then []
    else
      var last := segs[|segs| - 1];
      OtherRanges(segs[..|segs| - 1], pref) +
        (if pref.None? || last.roleId != pref.value.roleId then [Range(last.start, last.end)] else [])
  }

  /** The order in which staff numbers are looked for: the preferred
      segment, the other segments, the overflow range, then 1-99. */
  function TryRanges(pref: Option<Segment>, segs: seq<Segment>, overflow: Option<Range>): seq<Range> {
    (if pref.Some? then [Range(pref.value.start, pref.value.end)] else []) +
    OtherRanges(segs, pref) +
    (if overflow.Some? then [overflow.value] else []) +
    [Range(1, 99)]
  }

  /** The smallest free number of the first range that has one. */
  function FirstFree(tags: set<int>, ranges: seq<Range>): Option<int>
    decreases |ranges|
  {
    if ranges == [] then None
    else
      var n := SmallestFree(tags, ranges[0].start, ranges[0].end);
      if n.Some? then n else FirstFree(tags, ranges[1..])
  }

  /** The number found is free. */
  lemma {:induction false} FirstFreeIsFree(tags: set<int>, ranges: seq<Range>)
    ensures FirstFree(tags, ranges).Some? ==> FirstFree(tags, ranges).value !in tags
    decreases |ranges|
  {
    if ranges != [] {
      FirstFreeIsFree(tags, ranges[1..]);
    }
  }

  /** The number found is the smallest free one of the first range that is
      not full. */
  lemma {:induction false} FirstFreeAt(tags: set<int>, ranges: seq<Range>, i: nat)
    requires i < |ranges| && SmallestFree(tags, ranges[i].start, ranges[i].end).Some?
    requires forall j :: 0 <= j < i ==> SmallestFree(tags, ranges[j].start, ranges[j].end).None?
    ensures FirstFree(tags, ranges) == SmallestFree(tags, ranges[i].start, ranges[i].end)
    decreases i
  {
    if i > 0 {
      assert forall j :: 0 <= j < i - 1 ==> ranges[1..][j] == ranges[j + 1];
      FirstFreeAt(tags, ranges[1..], i - 1);
    }
  }

  /** Nothing is found exactly when every range is full. */
  lemma {:induction false} FirstFreeNone(tags: set<int>, ranges: seq<Range>)
    ensures FirstFree(tags, ranges).None? <==>
      forall i :: 0 <= i < |ranges| ==> SmallestFree(tags, ranges[i].start, ranges[i].end).None?
    decreases |ranges|
  {
    if ranges != [] {
      FirstFreeNone(tags, ranges[1..]);
      assert forall j :: 1 <= j < |ranges| ==> ranges[j] == ranges[1..][j - 1];
    }
  }

  /** A free number in the preferred segment is always taken from there,
      and the staff allocation fails only when 1-99 is full. */
  lemma StaffRangeOrder(tags: set<int>, pref: Option<Segment>, segs: seq<Segment>, overflow: Option<Range>)
    ensures pref.Some? && SmallestFree(tags, pref.value.start, pref.value.end).Some? ==>
      FirstFree(tags, TryRanges(pref, segs, overflow)) == SmallestFree(tags, pref.value.start, pref.value.end)
    ensures FirstFree(tags, TryRanges(pref, segs, overflow)).None? ==> forall k :: 1 <= k <= 99 ==> k in tags
  {
    var rs := TryRanges(pref, segs, overflow);
    if pref.Some? && SmallestFree(tags, pref.value.start, pref.value.end).Some? {
      FirstFreeAt(tags, rs, 0);
    }
    FirstFreeNone(tags, rs);
    assert rs[|rs| - 1] == Range(1, 99);
  }

  const UniqueViolation := "23505"

  /** The first of the attempts from `from` up to the fifth whose write is
      not refused with a unique violation: the attempt at which the retry
      loop stops. */
  function FirstSettled(interference: nat -> Option<string>, from: nat): (r: Option<nat>)
    ensures r.Some? ==> (from <= r.value < 5 && interference(r.value) != Some(UniqueViolation) &&
                         forall k :: from <= k < r.value ==> interference(k) == Some(UniqueViolation))
    ensures r.None? ==> forall k :: from <= k < 5 ==> interference(k) == Some(UniqueViolation)
    decreases 5 - from
  {
    if from >= 5 then None
    else if interference(from) != Some(UniqueViolation) then Some(from)
    else FirstSettled(interference, from + 1)
  }

  /** The errors ensureStaffTag raises: 'Sem números livres para staff',
      'Falha a alocar tag staff após várias tentativas', or the database
      error it passes on. */
  datatype StaffError = NoFreeStaffNumbers | StaffRetriesExhausted | DatabaseError(code: string)

  /** The table of tags and the operations on it. */
  class TagTable {
    var rows: map<string, Row>

    predicate Valid()
      reads this
    {
      UniqueTags(rows)
    }

    function Tags(): set<int>
      reads this
    {
      TagsOf(rows)
    }

    constructor ()
      ensures rows == map[] && Valid()
    {
      rows := map[];
    }

    /** SELECT tag_number ... WHERE tag_number BETWEEN lo AND hi ORDER BY
        tag_number */
    method TakenBetween(lo: int, hi: int) returns (taken: seq<int>)
      ensures Sorted(taken)
      ensures forall i :: 0 <= i < |taken| ==> lo <= taken[i] <= hi
      ensures forall k :: lo <= k <= hi ==> (k in taken <==> k in Tags())
    {
      taken := InOrder(Tags(), lo, hi);
    }

    /** SELECT tag_number ... WHERE tag_number >= lo ORDER BY tag_number;
        the database knows its largest number, found here by a pass over
        the tags. */
    method TakenFrom(lo: int) returns (taken: seq<int>)
      ensures Sorted(taken)
      ensures forall i :: 0 <= i < |taken| ==> lo <= taken[i]
      ensures forall k :: lo <= k ==> (k in taken <==> k in Tags())
    {
      var hi := lo;
      var rest := Tags();
      while rest != {}
        invariant rest <= Tags()
        invariant forall t :: t in Tags() && t !in rest ==> t <= hi
        decreases |rest|
      {
        var t :| t in rest;
        if t > hi {
          hi := t;
        }
        rest := rest - {t};
      }
      taken := InOrder(Tags(), lo, hi);
    }

    /** INSERT ... ON CONFLICT (discord_id) DO UPDATE: the member's row is
        written unless another member holds the number, which the unique
        constraint refuses with code 23505. */
    method Upsert(id: string, tag: int, isStaff: bool) returns (code: Option<string>)
      requires Valid()
      modifies this
      ensures Valid()
      ensures HeldByOther(old(rows), id, tag) ==> code == Some(UniqueViolation) && rows == old(rows)
      ensures !HeldByOther(old(rows), id, tag) ==> code.None? && rows == old(rows)[id := Row(tag, isStaff)]
    {
      if exists other :: other in rows && other != id && rows[other].tag == tag {
        return Some(UniqueViolation);
      }
      rows := rows[id := Row(tag, isStaff)];
      code := None;
    }

    /** allocateStaffTag: push the ranges in order, then take the smallest
        free number of the first range that has one. */
    method AllocateStaffTag(pref: Option<Segment>, segs: seq<Segment>, overflow: Option<Range>)
      returns (r: Result<int, StaffError>)
      ensures r == match FirstFree(Tags(), TryRanges(pref, segs, overflow))
                   case Some(n) => Ok(n)
                   case None => Err(NoFreeStaffNumbers)
    {
      var tryRanges := PushRanges(pref, segs, overflow);
      for i := 0 to |tryRanges|
        invariant FirstFree(Tags(), tryRanges) == FirstFree(Tags(), tryRanges[i..])
      {
        var a, b := tryRanges[i].start, tryRanges[i].end;
        var taken := TakenBetween(a, b);
        var n := NextFreeTagInRange(taken, a, b);
        assert tryRanges[i..][1..] == tryRanges[i + 1..];
        if n.Some? {
          SmallestFreeUnique(Tags(), a, b, n.value);
          return Ok(n.value);
        }
        assert SmallestFree(Tags(), a, b).None?;
      }
      return Err(NoFreeStaffNumbers);
    }

    /** ensureStaffTag: a member with a staff row keeps it; otherwise a
        staff number is allocated and written, and the attempt is repeated,
        five times at most, when the write fails with 23505. The write of
        attempt k fails with interference(k) when other sessions interfere
        (None: it runs against the table as it is). */
    method EnsureStaffTag(id: string, member: Option<set<string>>, segs: seq<Segment>, overflow: Option<Range>,
                          interference: nat -> Option<string>)
      returns (r: Result<Row, StaffError>)
      requires Valid()
      modifies this
      ensures Valid()
      ensures id in old(rows) && old(rows)[id].isStaff ==> r == Ok(old(rows)[id]) && rows == old(rows)
      ensures r.Ok? ==> r.value.isStaff && rows == old(rows)[id := r.value]
      ensures r.Ok? && !(id in old(rows) && old(rows)[id].isStaff) ==>
        Some(r.value.tag) == FirstFree(old(Tags()), TryRanges(StaffPreference(member, segs), segs, overflow))
      ensures r.Err? ==> rows == old(rows)
      ensures r == Err(StaffRetriesExhausted) ==> forall k :: 0 <= k < 5 ==> interference(k) == Some(UniqueViolation)
      ensures (!(id in old(rows) && old(rows)[id].isStaff) &&
               FirstFree(old(Tags()), TryRanges(StaffPreference(member, segs), segs, overflow)).None?) ==>
        r == Err(NoFreeStaffNumbers)
      ensures r.Err? && r.error.DatabaseError? ==> exists k :: 0 <= k < 5 && interference(k) == Some(r.error.code)
      ensures r == Err(NoFreeStaffNumbers) ==>
        !(id in old(rows) && old(rows)[id].isStaff) &&
        FirstFree(old(Tags()), TryRanges(StaffPreference(member, segs), segs, overflow)).None?
      ensures (!(id in old(rows) && old(rows)[id].isStaff) &&
               FirstFree(old(Tags()), TryRanges(StaffPreference(member, segs), segs, overflow)).Some?) ==>
        r == match FirstSettled(interference, 0)
             case None => Err(StaffRetriesExhausted)
             case Some(k) =>
               if interference(k).None?
               then Ok(Row(FirstFree(old(Tags()), TryRanges(StaffPreference(member, segs), segs, overflow)).value, true))
               else Err(DatabaseError(interference(k).value))
    {
      for attempt := 0 to 5
        invariant rows == old(rows)
        invariant FirstSettled(interference, 0) == FirstSettled(interference, attempt)
        invariant forall k :: 0 <= k < attempt ==> interference(k) == Some(UniqueViolation)
        invariant attempt > 0 ==> (!(id in rows && rows[id].isStaff) &&
          FirstFree(Tags(), TryRanges(StaffPreference(member, segs), segs, overflow)).Some?)
      {
        if id in rows && rows[id].isStaff {
          return Ok(rows[id]);
        }
        var pref := StaffPreference(member, segs);
        var n := AllocateStaffTag(pref, segs, overflow);
        if n.Err? {
          return Err(n.error);
        }
        var failure := interference(attempt);
        if failure.None? {
          FirstFreeIsFree(Tags(), TryRanges(pref, segs, overflow));
          assert n.value !in Tags();
          var code := Upsert(id, n.value, true);
          return Ok(Row(n.value, true));
        }
        if failure != Some(UniqueViolation) {
          return Err(DatabaseError(failure.value));
        }
      }
      return Err(StaffRetriesExhausted);
    }

    /** getOrCreatePublicTag: a member with any row keeps it; otherwise the
        smallest number from 100 up that nobody holds is written as a public
        tag. The write fails with interference when other sessions
        interfere. */
    method GetOrCreatePublicTag(id: string, interference: Option<string>) returns (r: Result<Row, string>)
      requires Valid()
      modifies this
      ensures Valid()
      ensures id in old(rows) ==> r == Ok(old(rows)[id]) && rows == old(rows)
      ensures id !in old(rows) && interference.None? ==>
        r.Ok? && !r.value.isStaff && r.value.tag >= 100 && r.value.tag !in old(Tags()) &&
        (forall k :: 100 <= k < r.value.tag ==> k in old(Tags())) &&
        rows == old(rows)[id := r.value]
      ensures interference.Some? && id !in old(rows) ==> r == Err(interference.value) && rows == old(rows)
    {
      if id in rows {
        return Ok(rows[id]);
      }
      var taken := TakenFrom(100);
      var n := PublicScan(taken);
      if interference.Some? {
        return Err(interference.value);
      }
      assert n !in Tags();
      var code := Upsert(id, n, false);
      r := Ok(Row(n, false));
    }

    /** /corrigir: a number below 100 is for staff unless forced; a number
        another member holds is refused; otherwise the member's row gets the
        number, as a staff tag exactly when it is below 100. */
    method Corrigir(memberId: string, numero: int, isStaff: bool, force: bool) returns (out: CorrigirOutcome)
      requires Valid()
      modifies this
      ensures Valid()
      ensures numero < 100 && !isStaff && !force ==> out == ReservedForStaff && rows == old(rows)
      ensures !(numero < 100 && !isStaff && !force) && HeldByOther(old(rows), memberId, numero) ==>
        out == NumberTaken && rows == old(rows)
      ensures out.Corrected? <==> !(numero < 100 && !isStaff && !force) && !HeldByOther(old(rows), memberId, numero)
      ensures out.Corrected? ==> out.row == Row(numero, numero < 100) && rows == old(rows)[memberId := out.row]
    {
      var wantStaff := numero < 100;
      if wantStaff && !isStaff && !force {
        return ReservedForStaff;
      }
      if exists other :: other in rows && other != memberId && rows[other].tag == numero {
        return NumberTaken;
      }
      var code := Upsert(memberId, numero, wantStaff);
      out := Corrected(Row(numero, wantStaff));
    }
  }

  datatype CorrigirOutcome = ReservedForStaff | NumberTaken | Corrected(row: Row)

  /** The first half of allocateStaffTag: the ranges pushed in order. */
  method PushRanges(pref: Option<Segment>, segs: seq<Segment>, overflow: Option<Range>) returns (tryRanges: seq<Range>)
    ensures tryRanges == TryRanges(pref, segs, overflow)
  {
    tryRanges := [];
    if pref.Some? {
      tryRanges := tryRanges + [Range(pref.value.start, pref.value.end)];
    }
    var head := tryRanges;
    for i := 0 to |segs|
      invariant tryRanges == head + OtherRanges(segs[..i], pref)
    {
      assert segs[..i + 1][..i] == segs[..i];
      var s := segs[i];
      if pref.None? || s.roleId != pref.value.roleId {
        tryRanges := tryRanges + [Range(s.start, s.end)];
      }
    }
    assert segs[..|segs|] == segs;
    if overflow.Some? {
      tryRanges := tryRanges + [overflow.value];
    }
    tryRanges := tryRanges + [Range(1, 99)];
  }

  /** const pref = member ? preferredSegmentFor(member) : null */
  function StaffPreference(member: Option<set<string>>, segs: seq<Segment>): Option<Segment> {
    if member.Some? then PreferredSegment(segs, member.value) else None
  }

  /** The scan of getOrCreatePublicTag over the numbers from 100 up, in
      increasing order: it stops at the first gap. */
  method PublicScan(taken: seq<int>) returns (n: int)
    requires Sorted(taken)
    requires forall i :: 0 <= i < |taken| ==> taken[i] >= 100
    ensures n >= 100 && n !in taken
    ensures forall k :: 100 <= k < n ==> k in taken
  {
    n := 100;
    for i := 0 to |taken|
      invariant n >= 100
      invariant forall j :: 0 <= j < i ==> taken[j] < n
      invariant forall k :: 100 <= k < n ==> k in taken
    {
      var t := taken[i];
      if t > n {
        assert forall j :: i <= j < |taken| ==> taken[j] >= t;
        return;
      }
      if t == n {
        n := n + 1;
      }
    }
  }
}

=== FILE: tag_config.dfy ===
/** The staff-tag settings of the bot (index.js lines 38-60): number ranges
    written "a-b", staff segments written "ROLE:a-b;ROLE:a-b", the overflow
    range, the set of staff role ids and the segment a member prefers. */
module TagConfig {
  import opened Wrappers
  import opened Text

  /** A closed range of tag numbers; parseRange always returns start <= end. */
  datatype Range = Range(start: nat, end: nat)

  datatype Segment = Segment(roleId: string, start: nat, end: nat)

  /** The index of the first occurrence of c in s. */
  function FirstIndex(s: string, c: char): (r: Option<nat>)
    ensures r.Some? ==> r.value < |s| && s[r.value] == c && c !in s[..r.value]
    ensures r.None? ==> c !in s
    decreases |s|
  {
    if s == [] then None
    else if s[0] == c then Some(0)
    else
      match FirstIndex(s[1..], c)
      case None => None
      case Some(k) =>
        assert s[..k + 1] == [s[0]] + s[1..][..k];
        Some(k + 1)
  }

  lemma {:induction false} FirstIndexAt(s: string, c: char, i: nat)
    requires i < |s| && s[i] == c && c !in s[..i]
    ensures FirstIndex(s, c) == Some(i)
    decreases i
  {
    if i > 0 {
      assert s[..i][0] == s[0];
      assert s[1..][..i - 1] == s[..i][1..];
      FirstIndexAt(s[1..], c, i - 1);
    }
  }

  /** A side of a range: digits with white space around them. */
  predicate NumberText(x: string) {
    var t := Trim(x);
    t != [] && AllDigits(t)
  }

  /** /^\s*(\d+)\s*-\s*(\d+)\s*$/ on String(s || ''), with the two numbers
      put in order. The text has one dash (digits and white space are not
      dashes), so the match is the text around its first dash. */
  function ParseRange(s: string): (r: Option<Range>)
    ensures r.Some? ==> r.value.start <= r.value.end
  {
    match FirstIndex(s, '-')
    case None => None
    case Some(i) =>
      var a, b := Trim(s[..i]), Trim(s[i + 1..]);
      if a != [] && AllDigits(a) && b != [] && AllDigits(b) then
        var x, y := DigitsValue(a), DigitsValue(b);
        Some(if x <= y then Range(x, y) else Range(y, x))
      else None
  }

  lemma DigitsTrimmed(d: string)
    requires d != [] && AllDigits(d)
    ensures IsTrimmed(d)
  {
    assert IsDigit(d[0]) && IsDigit(d[|d| - 1]);
  }

  /** White space and digits hold no dash. */
  lemma NoDash(w1: string, d: string, w2: string)
    requires AllSpace(w1) && AllDigits(d) && AllSpace(w2)
    ensures '-' !in w1 + d + w2
  {
    var x := w1 + d + w2;
    forall k | 0 <= k < |x| ensures x[k] != '-' {
      if k < |w1| {
        assert x[k] == w1[k];
      } else if k < |w1| + |d| {
        assert x[k] == d[k - |w1|];
      } else {
        assert x[k] == w2[k - |w1| - |d|];
      }
    }
  }

  /** A text whose first dash follows left is cut there. */
  lemma ParseRangeAt(left: string, right: string)
    requires '-' !in left
    ensures var a, b := Trim(left), Trim(right);
      ParseRange(left + "-" + right) ==
        if a != [] && AllDigits(a) && b != [] && AllDigits(b) then
          var x, y := DigitsValue(a), DigitsValue(b);
          Some(if x <= y then Range(x, y) else Range(y, x))
        else None
  {
    var s := left + "-" + right;
    assert s[..|left|] == left;
    FirstIndexAt(s, '-', |left|);
    assert s[|left| + 1..] == right;
  }

  /** Every text of the form "  12 -  7 " is accepted, as the range from the
      smaller number to the larger. */
  lemma ParseRangeAccepts(w1: string, d1: string, w2: string, w3: string, d2: string, w4: string)
    requires AllSpace(w1) && AllSpace(w2) && AllSpace(w3) && AllSpace(w4)
    requires d1 != [] && AllDigits(d1) && d2 != [] && AllDigits(d2)
    ensures var x, y := DigitsValue(d1), DigitsValue(d2);
      ParseRange(w1 + d1 + w2 + "-" + w3 + d2 + w4) ==
        Some(if x <= y then Range(x, y) else Range(y, x))
  {
    NoDash(w1, d1, w2);
    ParseRangeAt(w1 + d1 + w2, w3 + d2 + w4);
    assert w1 + d1 + w2 + "-" + w3 + d2 + w4 == (w1 + d1 + w2) + "-" + (w3 + d2 + w4);
    DigitsTrimmed(d1);
    DigitsTrimmed(d2);
    TrimPadded(w1, d1, w2);
    TrimPadded(w3, d2, w4);
  }

  /** Every character of a text is white space or part of its trimmed
      form. */
  lemma TrimmedCharacters(x: string)
    ensures forall k :: 0 <= k < |x| ==> IsSpace(x[k]) || x[k] in Trim(x)
  {
    TrimResult(x);
    var i, j :| 0 <= i <= j <= |x| && Trim(x) == x[i..j] && AllSpace(x[..i]) && AllSpace(x[j..]);
    forall k | 0 <= k < |x| ensures IsSpace(x[k]) || x[k] in Trim(x) {
      if k < i {
        assert x[..i][k] == x[k];
      } else if k >= j {
        assert x[j..][k - j] == x[k];
      } else {
        assert x[i..j][k - i] == x[k];
      }
    }
  }

  /** An accepted text holds one dash and otherwise only digits and white
      space. */
  lemma ParseRangeCharacters(s: string)
    requires ParseRange(s).Some?
    ensures exists i :: (0 <= i < |s| && s[i] == '-' &&
      (forall k :: 0 <= k < |s| && k != i ==> IsSpace(s[k]) || IsDigit(s[k])))
  {
    var i := FirstIndex(s, '-').value;
    var left, right := s[..i], s[i + 1..];
    TrimmedCharacters(left);
    TrimmedCharacters(right);
    forall k | 0 <= k < |s| && k != i ensures IsSpace(s[k]) || IsDigit(s[k]) {
      if k < i {
        assert left[k] == s[k];
      } else {
        assert right[k - i - 1] == s[k];
      }
    }
  }

  /** OVERFLOW: parseRange(STAFF_OVERFLOW || '61-100'). */
  function Overflow(env: Option<string>): (r: Option<Range>)
    ensures r.Some? ==> r.value.start <= r.value.end
  {
    ParseRange(if env.Some? && env.value != "" then env.value else "61-100")
  }

  /** Without the setting the overflow range is 61-100. */
  lemma OverflowDefault()
    ensures Overflow(None) == Some(Range(61, 100))
    ensures Overflow(Some("")) == Some(Range(61, 100))
  {
    assert "61-100" == "" + "61" + "" + "-" + "" + "100" + "";
    assert DigitsValue("6") == 6;
    assert "61"[..1] == "6";
    assert DigitsValue("61") == 61;
    assert "10"[..1] == "1";
    assert DigitsValue("10") == 10;
    assert "100"[..2] == "10";
    assert DigitsValue("100") == 100;
    ParseRangeAccepts("", "61", "", "", "100", "");
  }

  // ---------------------------------------------------------------- segments

  /** One "ROLE:a-b" item: the role id and the range are the first two
      colon-separated parts, trimmed; further parts are ignored. An item
      without a role id or without a valid range gives nothing. */
  function SegmentOf(item: string): (r: Option<Segment>)
    ensures r.Some? ==> r.value.roleId != [] && r.value.start <= r.value.end
  {
    var parts := Split(item, ':');
    var roleId := Trim(parts[0]);
    var range := if |parts| >= 2 then ParseRange(Trim(parts[1])) else None;
    if roleId != [] && range.Some? then Some(Segment(roleId, range.value.start, range.value.end))
    else None
  }

  /** The segments the items give, in the items' order. */
  function SegmentsOf(items: seq<string>): seq<Segment>
    decreases |items|
  {
    if items == [] then []
    else
      var last := SegmentOf(items[|items| - 1]);
      SegmentsOf(items[..|items| - 1]) + (if last.Some? then [last.value] else [])
  }

  /** The items of the setting: split on ';', trimmed, blank ones dropped. */
  function SegmentItems(setting: Option<string>): seq<string> {
    TrimmedItems(Split(setting.GetOr(""), ';'))
  }

  predicate WellFormed(segs: seq<Segment>) {
    forall k :: 0 <= k < |segs| ==> segs[k].roleId != [] && segs[k].start <= segs[k].end
  }

  /** Every parsed segment names a role and has start <= end. */
  lemma {:induction false} SegmentsWellFormed(items: seq<string>)
    ensures WellFormed(SegmentsOf(items))
    decreases |items|
  {
    if items != [] {
      SegmentsWellFormed(items[..|items| - 1]);
    }
  }

  /** parseSegments: each item of the setting that gives a segment is pushed
      onto the result. */
  method ParseSegments(setting: Option<string>) returns (out: seq<Segment>)
    ensures out == SegmentsOf(SegmentItems(setting))
    ensures WellFormed(out)
  {
    var items := SegmentItems(setting);
    out := [];
    for i := 0 to |items|
      invariant out == SegmentsOf(items[..i])
    {
      assert items[..i + 1][..i] == items[..i];
      var seg := SegmentOf(items[i]);
      if seg.Some? {
        out := out + [seg.value];
      }
    }
    assert items[..|items|] == items;
    SegmentsWellFormed(items);
  }

  // ---------------------------------------------------------------- rendering, the inverse

  /** A segment as an administrator writes it: "ROLE:start-end". */
  function RenderSegment(seg: Segment): string {
    seg.roleId + ":" + RangeText(seg.start, seg.end)
  }

  function RangeText(start: nat, end: nat): string {
    NatToString(start) + "-" + NatToString(end)
  }

  function RenderSegments(segs: seq<Segment>): string {
    Join(seq(|segs|, k requires 0 <= k < |segs| => RenderSegment(segs[k])), ";")
  }

  /** A role id that can be written in the setting: non-blank, trimmed, and
      free of the two separators. */
  predicate WritableRole(roleId: string) {
    roleId != [] && IsTrimmed(roleId) && ':' !in roleId && ';' !in roleId
  }

  lemma {:induction false} TrimmedItemsKeep(xs: seq<string>)
    requires forall k :: 0 <= k < |xs| ==> xs[k] != [] && IsTrimmed(xs[k])
    ensures TrimmedItems(xs) == xs
    decreases |xs|
  {
    if xs != [] {
      TrimPadded("", xs[0], "");
      assert "" + xs[0] + "" == xs[0];
      TrimmedItemsKeep(xs[1..]);
      assert [xs[0]] + xs[1..] == xs;
    }
  }

  /** An item "ROLE:rest" with a writable role and no further colon. */
  lemma SegmentOfParts(roleId: string, range: string)
    requires WritableRole(roleId) && ':' !in range
    ensures SegmentOf(roleId + ":" + range) ==
      var r := ParseRange(Trim(range));
      if r.Some? then Some(Segment(roleId, r.value.start, r.value.end)) else None
  {
    assert roleId + ":" + range == roleId + [':'] + range;
    SplitAfterPiece(roleId, range, ':');
    SplitNoSeparator(range, ':');
    TrimPadded("", roleId, "");
    assert "" + roleId + "" == roleId;
  }

  lemma RangeTextTrimmed(a: string, b: string)
    requires a != [] && AllDigits(a) && b != [] && AllDigits(b)
    ensures ':' !in a + "-" + b
    ensures Trim(a + "-" + b) == a + "-" + b
  {
    var range := a + "-" + b;
    forall k | 0 <= k < |range| ensures range[k] != ':' {
      if k < |a| {
        assert range[k] == a[k];
      } else if k > |a| {
        assert range[k] == b[k - |a| - 1];
      }
    }
    assert IsDigit(a[0]) && IsDigit(b[|b| - 1]);
    TrimPadded("", range, "");
    assert "" + range + "" == range;
  }

  lemma TrimDigits(d: string)
    requires d != [] && AllDigits(d)
    ensures Trim(d) == d && '-' !in d
  {
    DigitsTrimmed(d);
    TrimPadded("", d, "");
    assert "" + d + "" == d;
  }

  /** The canonical text of a range parses back to it. */
  lemma ParseRangeOfNumbers(x: nat, y: nat)
    requires x <= y
    ensures ParseRange(NatToString(x) + "-" + NatToString(y)) == Some(Range(x, y))
  {
    var a, b := NatToString(x), NatToString(y);
    TrimDigits(a);
    TrimDigits(b);
    ParseRangeAt(a, b);
  }

  lemma SegmentOfRender(seg: Segment)
    requires WritableRole(seg.roleId) && seg.start <= seg.end
    ensures SegmentOf(RenderSegment(seg)) == Some(seg)
  {
    var range := RangeText(seg.start, seg.end);
    assert ':' !in range && Trim(range) == range by {
      RangeTextTrimmed(NatToString(seg.start), NatToString(seg.end));
    }
    assert ParseRange(range) == Some(Range(seg.start, seg.end)) by {
      ParseRangeOfNumbers(seg.start, seg.end);
    }
    SegmentOfRangeText(seg.roleId, range, Range(seg.start, seg.end));
  }

  lemma SegmentOfRangeText(roleId: string, range: string, r: Range)
    requires WritableRole(roleId) && ':' !in range && Trim(range) == range
    requires ParseRange(range) == Some(r)
    ensures SegmentOf(roleId + ":" + range) == Some(Segment(roleId, r.start, r.end))
  {
    SegmentOfParts(roleId, range);
  }

  lemma RenderedItems(segs: seq<Segment>, items: seq<string>)
    requires forall k :: 0 <= k < |segs| ==> WritableRole(segs[k].roleId)
    requires |items| == |segs| && forall k :: 0 <= k < |segs| ==> items[k] == RenderSegment(segs[k])
    ensures forall k :: 0 <= k < |items| ==> items[k] != [] && IsTrimmed(items[k]) && ';' !in items[k]
  {
    forall k | 0 <= k < |items| ensures items[k] != [] && IsTrimmed(items[k]) && ';' !in items[k] {
      var seg := segs[k];
      var a, b := NatToString(seg.start), NatToString(seg.end);
      assert items[k] == seg.roleId + ":" + a + "-" + b;
      assert items[k][0] == seg.roleId[0];
      assert items[k][|items[k]| - 1] == b[|b| - 1];
      forall j | 0 <= j < |items[k]| ensures items[k][j] != ';' {
        var r := |seg.roleId|;
        if j < r { assert items[k][j] == seg.roleId[j]; }
        else if r < j < r + 1 + |a| { assert items[k][j] == a[j - r - 1]; }
        else if j > r + 1 + |a| { assert items[k][j] == b[j - r - 2 - |a|]; }
      }
    }
  }

  lemma {:induction false} SegmentsOfParsed(segs: seq<Segment>, items: seq<string>)
    requires |items| == |segs| && forall k :: 0 <= k < |segs| ==> SegmentOf(items[k]) == Some(segs[k])
    ensures SegmentsOf(items) == segs
    decreases |segs|
  {
    if segs != [] {
      var n := |segs|;
      assert SegmentsOf(items[..n - 1]) == segs[..n - 1] by {
        SegmentsOfParsed(segs[..n - 1], items[..n - 1]);
      }
      assert SegmentsOf(items) == SegmentsOf(items[..n - 1]) + [segs[n - 1]] by {
        SegmentsOfSnoc(items, segs[n - 1]);
      }
      assert segs[..n - 1] + [segs[n - 1]] == segs;
    }
  }

  lemma SegmentsOfSnoc(items: seq<string>, seg: Segment)
    requires items != [] && SegmentOf(items[|items| - 1]) == Some(seg)
    ensures SegmentsOf(items) == SegmentsOf(items[..|items| - 1]) + [seg]
  {
  }

  /** Writing segments in the setting's syntax and parsing them gives them
      back, in the same order. */
  lemma ParseSegmentsRender(segs: seq<Segment>)
    requires WellFormed(segs)
    requires forall k :: 0 <= k < |segs| ==> WritableRole(segs[k].roleId)
    ensures SegmentsOf(SegmentItems(Some(RenderSegments(segs)))) == segs
  {
    if segs == [] {
      assert RenderSegments(segs) == "";
      assert Split("", ';') == [[]];
      assert Trim([]) == [] by { TrimResult([]); }
      return;
    }
    var items := seq(|segs|, k requires 0 <= k < |segs| => RenderSegment(segs[k]));
    RenderedItems(segs, items);
    SplitJoin(items, ';');
    assert [';'] == ";";
    TrimmedItemsKeep(items);
    forall k | 0 <= k < |segs| ensures SegmentOf(items[k]) == Some(segs[k]) {
      SegmentOfRender(segs[k]);
    }
    SegmentsOfParsed(segs, items);
  }

  // ---------------------------------------------------------------- staff roles

  /** [...new Set(xs)] continued from acc: the items in the order of their
      first occurrence. */
  function AddNew(acc: seq<string>, xs: seq<string>): (r: seq<string>)
    decreases |xs|
  {
    if xs == [] then acc
    else AddNew(if xs[0] in acc then acc else acc + [xs[0]], xs[1..])
  }

  predicate Distinct(xs: seq<string>) {
    forall i, j :: 0 <= i < j < |xs| ==> xs[i] != xs[j]
  }

  lemma {:induction false} AddNewDistinct(acc: seq<string>, xs: seq<string>)
    requires Distinct(acc)
    ensures Distinct(AddNew(acc, xs))
    decreases |xs|
  {
    if xs != [] {
      var next := if xs[0] in acc then acc else acc + [xs[0]];
      assert Distinct(next);
      AddNewDistinct(next, xs[1..]);
    }
  }

  lemma {:induction false} AddNewMembers(acc: seq<string>, xs: seq<string>)
    ensures forall x :: x in AddNew(acc, xs) <==> x in acc || x in xs
    decreases |xs|
  {
    if xs != [] {
      var next := if xs[0] in acc then acc else acc + [xs[0]];
      AddNewMembers(next, xs[1..]);
      assert xs == [xs[0]] + xs[1..];
    }
  }

  /** ALL_STAFF_ROLE_IDS: the STAFF_ROLE_IDS items, then the segment roles,
      each id once. */
  function StaffRoleIds(extra: seq<string>, segs: seq<Segment>): (r: seq<string>)
    ensures Distinct(r)
    ensures forall x :: x in r <==> x in extra || exists k :: 0 <= k < |segs| && segs[k].roleId == x
  {
    var roles := seq(|segs|, k requires 0 <= k < |segs| => segs[k].roleId);
    AddNewDistinct([], extra + roles);
    AddNewMembers([], extra + roles);
    assert forall x :: x in roles <==> exists k :: 0 <= k < |segs| && segs[k].roleId == x by {
      forall x | x in roles ensures exists k :: 0 <= k < |segs| && segs[k].roleId == x {
        var k :| 0 <= k < |roles| && roles[k] == x;
        assert segs[k].roleId == x;
      }
      forall x | exists k :: 0 <= k < |segs| && segs[k].roleId == x ensures x in roles {
        var k :| 0 <= k < |segs| && segs[k].roleId == x;
        assert roles[k] == x;
      }
    }
    AddNew([], extra + roles)
  }

  /** isStaffMember: some role of the member is a staff role. */
  predicate IsStaffMember(memberRoles: set<string>, staffIds: seq<string>) {
    exists r :: r in memberRoles && r in staffIds
  }

  /** A member is staff exactly when they hold a STAFF_ROLE_IDS role or the
      role of some segment. */
  lemma StaffMemberRoles(memberRoles: set<string>, extra: seq<string>, segs: seq<Segment>)
    ensures IsStaffMember(memberRoles, StaffRoleIds(extra, segs)) <==>
      (exists r :: r in memberRoles && r in extra) ||
      (exists k :: 0 <= k < |segs| && segs[k].roleId in memberRoles)
  {
    var ids := StaffRoleIds(extra, segs);
    if exists k :: 0 <= k < |segs| && segs[k].roleId in memberRoles {
      var k :| 0 <= k < |segs| && segs[k].roleId in memberRoles;
      assert segs[k].roleId in ids;
    }
  }

  /** preferredSegmentFor: the first segment, in configuration order, whose
      role the member holds. */
  function PreferredSegment(segs: seq<Segment>, memberRoles: set<string>): (r: Option<Segment>)
    ensures r.Some? ==> r.value in segs && r.value.roleId in memberRoles
    ensures r.None? <==> forall k :: 0 <= k < |segs| ==> segs[k].roleId !in memberRoles
    ensures r.Some? ==> forall k :: 0 <= k < |segs| && segs[k].roleId in memberRoles ==>
      r.value == segs[k] || exists j :: 0 <= j < k && segs[j] == r.value
    decreases |segs|
  {
    if segs == [] then None
    else if segs[0].roleId in memberRoles then Some(segs[0])
    else
      var rest := PreferredSegment(segs[1..], memberRoles);
      assert forall k :: 1 <= k < |segs| ==> segs[k] == segs[1..][k - 1];
      rest
  }
}

=== FILE: text.dfy ===
/** The JavaScript string operations the bot relies on, stated over
    sequences of Unicode scalar values: trim, startsWith, substring(0, n),
    replaceAll, split, join, toLowerCase on the status words it compares,
    and decimal rendering and parsing of numbers. */
module Text {
  import opened Wrappers

  /** WhiteSpace and LineTerminator of ECMA-262: what String.prototype.trim
      removes and what the regular-expression class \s matches. */
  predicate IsSpace(c: char) {
    c == '\t' || c == '\n' || c == '\U{B}' || c == '\U{C}' || c == '\r' || c == ' ' ||
    c == '\U{A0}' || c == '\U{1680}' || ('\U{2000}' <= c <= '\U{200A}') ||
    c == '\U{2028}' || c == '\U{2029}' || c == '\U{202F}' || c == '\U{205F}' ||
    c == '\U{3000}' || c == '\U{FEFF}'
  }

  predicate AllSpace(s: string) {
    forall i :: 0 <= i < |s| ==> IsSpace(s[i])
  }

  /** The regular-expression class \d: ASCII digits only. */
  predicate IsDigit(c: char) {
    '0' <= c <= '9'
  }

  predicate AllDigits(s: string) {
    forall i :: 0 <= i < |s| ==> IsDigit(s[i])
  }

  /** s.startsWith(p) */
  predicate StartsWith(s: string, p: string) {
    |p| <= |s| && s[..|p|] == p
  }

  /** s.substring(0, n) and s.slice(0, n) for n >= 0. */
  function Take(s: string, n: nat): (r: string)
    ensures |r| == if |s| <= n then |s| else n
    ensures StartsWith(s, r)
  {
    if |s| <= n then s else s[..n]
  }

  // ---------------------------------------------------------------- trim

  function TrimStart(s: string): string
    decreases |s|
  {
    if s != [] && IsSpace(s[0]) then TrimStart(s[1..]) else s
  }

  function TrimEnd(s: string): string
    decreases |s|
  {
    if s != [] && IsSpace(s[|s| - 1]) then TrimEnd(s[..|s| - 1]) else s
  }

  /** trimStart() removes a run of white space from the front and stops at
      the first other character. */
  lemma {:induction false} TrimStartShape(s: string)
    ensures |TrimStart(s)| <= |s| && TrimStart(s) == s[|s| - |TrimStart(s)|..]
    ensures AllSpace(s[..|s| - |TrimStart(s)|])
    ensures TrimStart(s) == [] || !IsSpace(TrimStart(s)[0])
    decreases |s|
  {
    if s != [] && IsSpace(s[0]) {
      var r := TrimStart(s[1..]);
      TrimStartShape(s[1..]);
      assert s[1..][..|s| - 1 - |r|] == s[1..|s| - |r|];
      assert s[1..][|s| - 1 - |r|..] == s[|s| - |r|..];
    }
  }

  /** trimEnd() removes a run of white space from the back and stops at the
      last other character. */
  lemma {:induction false} TrimEndShape(s: string)
    ensures |TrimEnd(s)| <= |s| && TrimEnd(s) == s[..|TrimEnd(s)|]
    ensures AllSpace(s[|TrimEnd(s)|..])
    ensures TrimEnd(s) == [] || !IsSpace(TrimEnd(s)[|TrimEnd(s)| - 1])
    decreases |s|
  {
    if s != [] && IsSpace(s[|s| - 1]) {
      var r := TrimEnd(s[..|s| - 1]);
      assert TrimEnd(s) == r;
      TrimEndShape(s[..|s| - 1]);
      assert s[..|s| - 1][..|r|] == s[..|r|];
      assert s[..|s| - 1][|r|..] == s[|r|..|s| - 1];
      assert s[|r|..] == s[|r|..|s| - 1] + [s[|s| - 1]];
    } else {
      assert TrimEnd(s) == s;
    }
  }

  /** s.trim() */
  function Trim(s: string): string {
    TrimEnd(TrimStart(s))
  }

  predicate IsTrimmed(s: string) {
    s == [] || (!IsSpace(s[0]) && !IsSpace(s[|s| - 1]))
  }

  lemma {:induction false} TrimStartSkipsSpaces(w: string, x: string)
    requires AllSpace(w)
    ensures TrimStart(w + x) == TrimStart(x)
    decreases |w|
  {
    if w != [] {
      var s := w + x;
      assert s[0] == w[0] && IsSpace(s[0]);
      assert s[1..] == w[1..] + x;
      assert TrimStart(s) == TrimStart(s[1..]);
      TrimStartSkipsSpaces(w[1..], x);
    } else {
      assert w + x == x;
    }
  }

  lemma {:induction false} TrimEndSkipsSpaces(x: string, w: string)
    requires AllSpace(w)
    ensures TrimEnd(x + w) == TrimEnd(x)
    decreases |w|
  {
    if w != [] {
      var s := x + w;
      assert s[|s| - 1] == w[|w| - 1] && IsSpace(s[|s| - 1]);
      assert s[..|s| - 1] == x + w[..|w| - 1];
      assert TrimEnd(s) == TrimEnd(s[..|s| - 1]);
      TrimEndSkipsSpaces(x, w[..|w| - 1]);
    } else {
      assert x + w == x;
    }
  }

  /** trim() drops exactly the surrounding white space and keeps what lies
      between, so trimming a padded trimmed string gives it back. */
  lemma TrimPadded(w1: string, x: string, w2: string)
    requires AllSpace(w1) && AllSpace(w2) && IsTrimmed(x)
    ensures Trim(w1 + x + w2) == x
  {
    TrimStartSkipsSpaces(w1, x + w2);
    assert w1 + x + w2 == w1 + (x + w2);
    if x == [] {
      assert x + w2 == w2 + [];
      TrimStartSkipsSpaces(w2, []);
      assert Trim(w1 + x + w2) == TrimEnd([]);
    } else {
      assert TrimStart(x + w2) == x + w2;
      TrimEndSkipsSpaces(x, w2);
      assert TrimEnd(x) == x;
    }
  }

  lemma TrimResult(s: string)
    ensures IsTrimmed(Trim(s))
    ensures exists i, j :: 0 <= i <= j <= |s| && Trim(s) == s[i..j] && AllSpace(s[..i]) && AllSpace(s[j..])
  {
    var t := TrimStart(s);
    var r := TrimEnd(t);
    TrimStartShape(s);
    TrimEndShape(t);
    var i := |s| - |t|;
    var j := i + |r|;
    assert s[i..j] == t[..|r|];
    assert s[j..] == t[|r|..];
    if r != [] {
      assert r[0] == t[0];
    }
  }

  // ---------------------------------------------------------------- case

  function ToLowerAsciiChar(c: char): char {
    if 'A' <= c <= 'Z' then (c as int + 32) as char else c
  }

  /** s.toLowerCase() on the letters A-Z; every other character is kept. */
  function ToLowerAscii(s: string): (r: string)
    ensures |r| == |s|
    ensures forall i :: 0 <= i < |s| ==> r[i] == ToLowerAsciiChar(s[i])
  {
    seq(|s|, i requires 0 <= i < |s| => ToLowerAsciiChar(s[i]))
  }

  // ---------------------------------------------------------------- replaceAll

  /** s.replaceAll(pat, rep) for a non-empty pattern: every occurrence,
      leftmost first and never overlapping, is replaced; the replacement
      text is not scanned again. */
  function ReplaceAll(s: string, pat: string, rep: string): string
    requires |pat| > 0
    decreases |s|
  {
    if |s| < |pat| then s
    else if s[..|pat|] == pat then rep + ReplaceAll(s[|pat|..], pat, rep)
    else [s[0]] + ReplaceAll(s[1..], pat, rep)
  }

  /** s.replace(pat, rep) with a non-empty string pattern: only the leftmost
      occurrence is replaced. */
  function ReplaceFirst(s: string, pat: string, rep: string): string
    requires |pat| > 0
    decreases |s|
  {
    if |s| < |pat| then s
    else if s[..|pat|] == pat then rep + s[|pat|..]
    else [s[0]] + ReplaceFirst(s[1..], pat, rep)
  }

  /** Replacing a leading pattern by the empty text strips exactly it. */
  lemma ReplaceFirstLeading(pat: string, t: string)
    requires |pat| > 0
    ensures ReplaceFirst(pat + t, pat, "") == t
  {
    assert (pat + t)[..|pat|] == pat;
    assert (pat + t)[|pat|..] == t;
  }

  predicate OccursAt(s: string, pat: string, i: int) {
    0 <= i <= |s| - |pat| && s[i..i + |pat|] == pat
  }

  /** A text with no occurrence of the pattern is left as it is. */
  lemma {:induction false} ReplaceAllAbsent(s: string, pat: string, rep: string)
    requires |pat| > 0
    requires forall i :: !OccursAt(s, pat, i)
    ensures ReplaceAll(s, pat, rep) == s
    decreases |s|
  {
    if |s| >= |pat| {
      assert !OccursAt(s, pat, 0);
      assert s[0..|pat|] == s[..|pat|];
      forall i ensures !OccursAt(s[1..], pat, i) {
        if 0 <= i <= |s[1..]| - |pat| {
          assert s[1..][i..i + |pat|] == s[i + 1..i + 1 + |pat|];
          assert !OccursAt(s, pat, i + 1);
        }
      }
      ReplaceAllAbsent(s[1..], pat, rep);
      assert s == [s[0]] + s[1..];
    }
  }

  /** An occurrence at the front is replaced and the scan resumes after it. */
  lemma ReplaceAllFront(s: string, pat: string, rep: string)
    requires |pat| > 0
    ensures ReplaceAll(pat + s, pat, rep) == rep + ReplaceAll(s, pat, rep)
  {
    assert (pat + s)[..|pat|] == pat;
    assert (pat + s)[|pat|..] == s;
  }

  /** Replacing brings in only characters of the text and of the replacement. */
  lemma {:induction false} ReplaceAllKeepsOut(s: string, pat: string, rep: string, c: char)
    requires |pat| > 0 && c !in s && c !in rep
    ensures c !in ReplaceAll(s, pat, rep)
    decreases |s|
  {
    if |s| < |pat| {
    } else if s[..|pat|] == pat {
      assert forall i :: |pat| <= i < |s| ==> s[i] == s[|pat|..][i - |pat|];
      ReplaceAllKeepsOut(s[|pat|..], pat, rep, c);
    } else {
      assert forall i :: 1 <= i < |s| ==> s[i] == s[1..][i - 1];
      ReplaceAllKeepsOut(s[1..], pat, rep, c);
    }
  }

  /** A character that does not start the pattern is copied, whatever follows. */
  lemma ReplaceAllSkip(c: char, s: string, pat: string, rep: string)
    requires |pat| > 0 && pat[0] != c
    ensures ReplaceAll([c] + s, pat, rep) == [c] + ReplaceAll(s, pat, rep)
  {
    assert ([c] + s)[1..] == s;
    if |[c] + s| >= |pat| {
      assert ([c] + s)[..|pat|][0] == c;
    }
  }

  /** A stretch without the pattern's first character is copied unchanged and
      the scan continues after it. */
  lemma {:induction false} ReplaceAllLiteral(lit: string, s: string, pat: string, rep: string)
    requires |pat| > 0 && pat[0] !in lit
    ensures ReplaceAll(lit + s, pat, rep) == lit + ReplaceAll(s, pat, rep)
    decreases |lit|
  {
    if lit != [] {
      assert lit + s == [lit[0]] + (lit[1..] + s);
      assert pat[0] != lit[0];
      ReplaceAllSkip(lit[0], lit[1..] + s, pat, rep);
      assert pat[0] !in lit[1..];
      ReplaceAllLiteral(lit[1..], s, pat, rep);
      calc {
        ReplaceAll(lit + s, pat, rep);
        [lit[0]] + ReplaceAll(lit[1..] + s, pat, rep);
        [lit[0]] + (lit[1..] + ReplaceAll(s, pat, rep));
        { assert lit == [lit[0]] + lit[1..]; }
        lit + ReplaceAll(s, pat, rep);
      }
    } else {
      assert lit + s == s;
    }
  }

  // ---------------------------------------------------------------- split / join

  /** s.split(sep) for a one-character separator: the pieces between
      separators, empty ones included, at least one piece. */
  function Split(s: string, sep: char): (r: seq<string>)
    ensures |r| >= 1
    ensures forall i :: 0 <= i < |r| ==> sep !in r[i]
    decreases |s|
  {
    if s == [] then [[]]
    else
      var rest := Split(s[1..], sep);
      if s[0] == sep then [[]] + rest
      else [[s[0]] + rest[0]] + rest[1..]
  }

  /** xs.join(sep) */
  function Join(xs: seq<string>, sep: string): string
    decreases |xs|
  {
    if |xs| == 0 then ""
    else if |xs| == 1 then xs[0]
    else xs[0] + sep + Join(xs[1..], sep)
  }

  lemma {:induction false} SplitNoSeparator(a: string, sep: char)
    requires sep !in a
    ensures Split(a, sep) == [a]
    decreases |a|
  {
    if a != [] {
      SplitNoSeparator(a[1..], sep);
      assert [a[0]] + a[1..] == a;
    }
  }

  lemma {:induction false} SplitAfterPiece(a: string, b: string, sep: char)
    requires sep !in a
    ensures Split(a + [sep] + b, sep) == [a] + Split(b, sep)
    decreases |a|
  {
    if a == [] {
      assert a + [sep] + b == [sep] + b;
      assert ([sep] + b)[1..] == b;
    } else {
      assert (a + [sep] + b)[1..] == a[1..] + [sep] + b;
      SplitAfterPiece(a[1..], b, sep);
      assert [a[0]] + a[1..] == a;
    }
  }

  /** Splitting a joined list gives the list back when no item holds the
      separator. */
  lemma {:induction false} SplitJoin(xs: seq<string>, sep: char)
    requires |xs| >= 1
    requires forall i :: 0 <= i < |xs| ==> sep !in xs[i]
    ensures Split(Join(xs, [sep]), sep) == xs
    decreases |xs|
  {
    if |xs| == 1 {
      SplitNoSeparator(xs[0], sep);
    } else {
      SplitJoin(xs[1..], sep);
      SplitAfterPiece(xs[0], Join(xs[1..], [sep]), sep);
      assert [xs[0]] + xs[1..] == xs;
    }
  }

  /** Joining the pieces of a split with the separator rebuilds the text. */
  lemma {:induction false} JoinSplit(s: string, sep: char)
    ensures Join(Split(s, sep), [sep]) == s
    decreases |s|
  {
    if s != [] {
      var rest := Split(s[1..], sep);
      JoinSplit(s[1..], sep);
      if s[0] == sep {
        JoinEmptyFront(rest, [sep]);
      } else {
        JoinExtendFront(s[0], rest, [sep]);
      }
      assert s == [s[0]] + s[1..];
    }
  }

  lemma JoinEmptyFront(xs: seq<string>, sep: string)
    requires |xs| >= 1
    ensures Join([[]] + xs, sep) == sep + Join(xs, sep)
  {
    assert ([[]] + xs)[1..] == xs;
  }

  lemma JoinExtendFront(c: char, xs: seq<string>, sep: string)
    requires |xs| >= 1
    ensures Join([[c] + xs[0]] + xs[1..], sep) == [c] + Join(xs, sep)
  {
    var r := [[c] + xs[0]] + xs[1..];
    if |xs| > 1 {
      assert r[1..] == xs[1..];
    }
  }

  /** (s || '').split(',').map(x => x.trim()).filter(Boolean): the non-blank
      items of a comma-separated setting, trimmed, in order. */
  function TrimmedItems(pieces: seq<string>): (r: seq<string>)
    ensures forall i :: 0 <= i < |r| ==> r[i] != [] && IsTrimmed(r[i])
    ensures |r| <= |pieces|
  {
    if pieces == [] then []
    else
      var t := Trim(pieces[0]);
      TrimResult(pieces[0]);
      (if t == [] then [] else [t]) + TrimmedItems(pieces[1..])
  }

  function CommaList(s: string): seq<string> {
    TrimmedItems(Split(s, ','))
  }

  // ---------------------------------------------------------------- numbers

  function DigitChar(d: nat): (c: char)
    requires d < 10
    ensures IsDigit(c) && c as int - '0' as int == d
  {
    ('0' as int + d) as char
  }

  /** The value of a string of decimal digits (parseInt(d, 10) on \d+). */
  function DigitsValue(d: string): nat
    requires AllDigits(d)
    decreases |d|
  {
    if d == [] then 0
    else DigitsValue(d[..|d| - 1]) * 10 + (d[|d| - 1] as int - '0' as int)
  }

  /** String(n) for a non-negative integer: canonical decimal digits. */
  function NatToString(n: nat): (r: string)
    ensures |r| >= 1 && AllDigits(r)
    ensures DigitsValue(r) == n
    ensures r[0] == '0' ==> r == "0"
    decreases n
  {
    if n < 10 then [DigitChar(n)]
    else
      var r := NatToString(n / 10) + [DigitChar(n % 10)];
      assert r[..|r| - 1] == NatToString(n / 10);
      r
  }

  /** String(i) for an integer. */
  function IntToString(i: int): (r: string)
    ensures |r| >= 1
    ensures i >= 0 ==> r == NatToString(i)
    ensures i < 0 ==> r == "-" + NatToString(-i)
  {
    if i < 0 then "-" + NatToString(-i) else NatToString(i)
  }

  /** The longest run of decimal digits at the front of s. */
  function DigitPrefix(s: string): (r: string)
    ensures AllDigits(r) && StartsWith(s, r)
    ensures |r| < |s| ==> !IsDigit(s[|r|])
    decreases |s|
  {
    if s != [] && IsDigit(s[0]) then [s[0]] + DigitPrefix(s[1..]) else []
  }

  /** parseInt(s, 10): leading white space is skipped, one sign is read, then
      the longest run of digits; None stands for NaN, when there is no digit. */
  function ParseInt(s: string): Option<int>
  {
    var t := TrimStart(s);
    var signed := t != [] && (t[0] == '-' || t[0] == '+');
    var d := DigitPrefix(if signed then t[1..] else t);
    if d == [] then None
    else if signed && t[0] == '-' then Some(0 - DigitsValue(d) as int)
    else Some(DigitsValue(d))
  }

  lemma {:induction false} DigitPrefixAll(s: string)
    requires AllDigits(s)
    ensures DigitPrefix(s) == s
    decreases |s|
  {
    if s != [] {
      DigitPrefixAll(s[1..]);
    }
  }

  /** A string of digits reads as its decimal value. */
  lemma ParseIntDigits(d: string)
    requires d != [] && AllDigits(d)
    ensures ParseInt(d) == Some(DigitsValue(d))
  {
    assert !IsSpace(d[0]);
    assert TrimStart(d) == d;
    DigitPrefixAll(d);
  }

  /** Reading back the decimal text of a number gives the number; text after
      the digits is ignored. */
  lemma ParseIntNatToString(n: nat, tail: string)
    requires tail == [] || !IsDigit(tail[0])
    ensures ParseInt(NatToString(n) + tail) == Some(n)
  {
    var d := NatToString(n);
    var s := d + tail;
    assert !IsSpace(s[0]);
    assert TrimStart(s) == s;
    DigitPrefixAll(d);
    DigitPrefixAppend(d, tail);
  }

  lemma {:induction false} DigitPrefixAppend(d: string, tail: string)
    requires AllDigits(d)
    requires tail == [] || !IsDigit(tail[0])
    ensures DigitPrefix(d + tail) == d
    decreases |d|
  {
    if d == [] {
      assert d + tail == tail;
    } else {
      assert (d + tail)[1..] == d[1..] + tail;
      DigitPrefixAppend(d[1..], tail);
      assert d == [d[0]] + d[1..];
    }
  }
}

=== FILE: token.dfy ===
/** The continuation tokens of the deploy panel: a small JSON object,
    written as UTF-8 and then as base64url (deployFlow.js b64 and unb64).
    Only the three object shapes the flow writes are modelled. */
module Token {
  import opened Wrappers
  import opened Text
  import Utf8
  import Base64Url

  /** { pr }, { expect } and { flow }: the state each button carries. */
  datatype Payload = PrRef(pr: nat) | Expect(sha: string) | Flow(id: string)

  // ---------------------------------------------------------------- JSON strings

  function HexDigit(d: nat): (c: char)
    requires d < 16
  {
    if d < 10 then ('0' as int + d) as char else ('a' as int + (d - 10)) as char
  }

  function HexValue(c: char): (r: Option<nat>)
    ensures r.Some? ==> r.value < 16
  {
    if '0' <= c <= '9' then Some(c as int - '0' as int)
    else if 'a' <= c <= 'f' then Some(c as int - 'a' as int + 10)
    else if 'A' <= c <= 'F' then Some(c as int - 'A' as int + 10)
    else None
  }

  /** How JSON.stringify writes one character inside a string literal: the
      quote and the backslash are escaped, the five control characters with
      a short escape use it, the other control characters become \u00XX. */
  function EscapeChar(c: char): string {
    if c == '"' then "\\\""
    else if c == '\\' then "\\\\"
    else if c == '\U{8}' then "\\b"
    else if c == '\t' then "\\t"
    else if c == '\n' then "\\n"
    else if c == '\U{C}' then "\\f"
    else if c == '\r' then "\\r"
    else if c < ' ' then "\\u00" + [HexDigit(c as int / 16), HexDigit(c as int % 16)]
    else [c]
  }

  function Escape(s: string): string
    decreases |s|
  {
    if s == [] then [] else EscapeChar(s[0]) + Escape(s[1..])
  }

  /** Text with no control character, quote or backslash. */
  predicate Plain(s: string) {
    forall i :: 0 <= i < |s| ==> s[i] >= ' ' && s[i] != '"' && s[i] != '\\'
  }

  /** JSON.stringify writes such text as it is. */
  lemma {:induction false} EscapePlain(s: string)
    requires Plain(s)
    ensures Escape(s) == s
    decreases |s|
  {
    if s != [] {
      EscapePlain(s[1..]);
      assert s == [s[0]] + s[1..];
    }
  }

  /** JSON.stringify of a string value. */
  function Quote(s: string): string {
    "\"" + Escape(s) + "\""
  }

  /** The character an escape sequence stands for (t is what follows the
      backslash) and how many characters of t it used. */
  function Unescape(t: string): Option<(char, nat)>
    requires |t| > 0
  {
    var e := t[0];
    if e == '"' || e == '\\' || e == '/' then Some((e, 1))
    else if e == 'b' then Some(('\U{8}', 1))
    else if e == 'f' then Some(('\U{C}', 1))
    else if e == 'n' then Some(('\n', 1))
    else if e == 'r' then Some(('\r', 1))
    else if e == 't' then Some(('\t', 1))
    else if e == 'u' && |t| >= 5 then
      match (HexValue(t[1]), HexValue(t[2]), HexValue(t[3]), HexValue(t[4]))
      case (Some(h3), Some(h2), Some(h1), Some(h0)) =>
        var v := ((h3 * 16 + h2) * 16 + h1) * 16 + h0;
        if Utf8.IsScalar(v) then Some((v as char, 5)) else None
      case _ => None
    else None
  }

  /** Reads the body of a JSON string literal up to its closing quote and
      returns the text and what follows the quote. */
  function ParseString(t: string): Option<(string, string)>
    decreases |t|
  {
    if t == [] then None
    else if t[0] == '"' then Some(([], t[1..]))
    else if t[0] == '\\' then
      if |t| < 2 then None
      else match Unescape(t[1..])
        case None => None
        case Some((c, k)) =>
          match ParseString(t[1 + k..])
          case None => None
          case Some((v, rest)) => Some(([c] + v, rest))
    else if t[0] < ' ' then None
    else match ParseString(t[1..])
      case None => None
      case Some((v, rest)) => Some(([t[0]] + v, rest))
  }

  lemma ParseEscapedChar(c: char, t: string)
    ensures ParseString(EscapeChar(c) + t) ==
      match ParseString(t)
      case None => None
      case Some((v, rest)) => Some(([c] + v, rest))
  {
    var e := EscapeChar(c);
    if |e| == 1 {
      assert (e + t)[1..] == t;
    } else if |e| == 2 {
      ParseShortEscape(c, t);
    } else {
      ParseUnicodeEscape(c, t);
    }
  }

  lemma ParseShortEscape(c: char, t: string)
    requires |EscapeChar(c)| == 2
    ensures ParseString(EscapeChar(c) + t) ==
      match ParseString(t)
      case None => None
      case Some((v, rest)) => Some(([c] + v, rest))
  {
    var e := EscapeChar(c);
    var s := e + t;
    assert s[1..] == [e[1]] + t && s[1 + 1..] == t;
  }

  lemma ParseUnicodeEscape(c: char, t: string)
    requires |EscapeChar(c)| != 1 && |EscapeChar(c)| != 2
    ensures ParseString(EscapeChar(c) + t) ==
      match ParseString(t)
      case None => None
      case Some((v, rest)) => Some(([c] + v, rest))
  {
    var e := EscapeChar(c);
    var s := e + t;
    var hi, lo := c as int / 16, c as int % 16;
    assert s[1..] == ['u', '0', '0', HexDigit(hi), HexDigit(lo)] + t;
    assert s[1 + 5..] == t;
    assert HexValue(HexDigit(hi)) == Some(hi);
    assert HexValue(HexDigit(lo)) == Some(lo);
    assert ((0 * 16 + 0) * 16 + hi) * 16 + lo == c as int;
  }

  /** A string literal written by JSON.stringify reads back as the same text,
      and the reader stops right after its closing quote. */
  lemma {:induction false} ParseEscaped(s: string, rest: string)
    ensures ParseString(Escape(s) + "\"" + rest) == Some((s, rest))
    decreases |s|
  {
    if s == [] {
      assert Escape(s) + "\"" + rest == "\"" + rest;
      assert ("\"" + rest)[1..] == rest;
    } else {
      assert Escape(s) + "\"" + rest == EscapeChar(s[0]) + (Escape(s[1..]) + "\"" + rest);
      ParseEscapedChar(s[0], Escape(s[1..]) + "\"" + rest);
      ParseEscaped(s[1..], rest);
      assert [s[0]] + s[1..] == s;
    }
  }

  // ---------------------------------------------------------------- JSON objects

  /** JSON.stringify of each payload object. */
  function Serialize(p: Payload): string {
    match p
    case PrRef(n) => "{\"pr\":" + NatToString(n) + "}"
    case Expect(sha) => "{\"expect\":\"" + Escape(sha) + "\"}"
    case Flow(id) => "{\"flow\":\"" + Escape(id) + "\"}"
  }

  predicate IsCanonicalNumber(d: string) {
    |d| >= 1 && AllDigits(d) && (d[0] == '0' ==> d == "0")
  }

  /** A string member: the rest of the object after the opening quote of the
      value, which must end with the closing brace. */
  function StringMember(t: string): Option<string> {
    match ParseString(t)
    case Some((v, rest)) => if rest == "}" then Some(v) else None
    case None => None
  }

  /** JSON.parse restricted to the three object shapes above. */
  function Parse(text: string): Option<Payload> {
    if StartsWith(text, "{\"pr\":") && |text| > 6 && text[|text| - 1] == '}' then
      var d := text[6..|text| - 1];
      if IsCanonicalNumber(d) then Some(PrRef(DigitsValue(d))) else None
    else if StartsWith(text, "{\"expect\":\"") then
      match StringMember(text[11..])
      case Some(v) => Some(Expect(v))
      case None => None
    else if StartsWith(text, "{\"flow\":\"") then
      match StringMember(text[9..])
      case Some(v) => Some(Flow(v))
      case None => None
    else None
  }

  lemma ParsePr(n: nat)
    ensures Parse(Serialize(PrRef(n))) == Some(PrRef(n))
  {
    var text := Serialize(PrRef(n));
    assert StartsWith(text, "{\"pr\":");
    assert text[6..|text| - 1] == NatToString(n);
  }

  lemma ParseStringMember(key: string, s: string)
    ensures StringMember((key + Escape(s) + "\"}")[|key|..]) == Some(s)
  {
    assert (key + Escape(s) + "\"}")[|key|..] == Escape(s) + "\"" + "}";
    ParseEscaped(s, "}");
  }

  lemma ParseExpect(sha: string)
    ensures Parse(Serialize(Expect(sha))) == Some(Expect(sha))
  {
    var text := Serialize(Expect(sha));
    ParseStringMember("{\"expect\":\"", sha);
    assert text[..6][2] == 'e';
    assert !StartsWith(text, "{\"pr\":");
    assert StartsWith(text, "{\"expect\":\"");
  }

  lemma ParseFlow(id: string)
    ensures Parse(Serialize(Flow(id))) == Some(Flow(id))
  {
    var text := Serialize(Flow(id));
    ParseStringMember("{\"flow\":\"", id);
    assert text[..6][2] == 'f' && text[..11][2] == 'f';
    assert !StartsWith(text, "{\"pr\":");
    assert !StartsWith(text, "{\"expect\":\"");
    assert StartsWith(text, "{\"flow\":\"");
  }

  /** JSON.parse(JSON.stringify(o)) gives o back for every payload. */
  lemma ParseSerialize(p: Payload)
    ensures Parse(Serialize(p)) == Some(p)
  {
    match p
    case PrRef(n) => ParsePr(n);
    case Expect(sha) => ParseExpect(sha);
    case Flow(id) => ParseFlow(id);
  }

  // ---------------------------------------------------------------- b64 / unb64

  /** b64(o): Buffer.from(JSON.stringify(o)).toString('base64url') */
  function B64(p: Payload): string {
    Base64Url.Encode(Utf8.Encode(Serialize(p)))
  }

  /** unb64(s): JSON.parse(Buffer.from(s, 'base64url').toString('utf8')) */
  function Unb64(s: string): Option<Payload> {
    match Base64Url.Decode(s)
    case None => None
    case Some(bytes) =>
      match Utf8.Decode(bytes)
      case None => None
      case Some(text) => Parse(text)
  }

  /** Every token reads back as the payload it was made from, and is made of
      characters that may stand in a button id. */
  lemma Unb64B64(p: Payload)
    ensures Unb64(B64(p)) == Some(p)
    ensures forall i :: 0 <= i < |B64(p)| ==> Base64Url.IsUrlSafe(B64(p)[i])
  {
    var text := Serialize(p);
    Utf8.DecodeEncode(text);
    Base64Url.DecodeEncode(Utf8.Encode(text));
    Base64Url.EncodeShape(Utf8.Encode(text));
    ParseSerialize(p);
  }
}

=== FILE: utf8.dfy ===
/** Bytes, as Node's Buffer holds them. */
module Bytes {
  type Byte = x: int | 0 <= x < 256
}

/** UTF-8 (RFC 3629): Buffer.from(text) writes a string as UTF-8 and
    buffer.toString('utf8') reads it back. */
module Utf8 {
  import opened Wrappers
  import opened Bytes

  predicate IsContinuation(b: Byte) {
    0x80 <= b < 0xC0
  }

  /** The one to four bytes of a scalar value. */
  function EncodeChar(c: char): (r: seq<Byte>)
    ensures 1 <= |r| <= 4
    ensures (c as int < 0x80) <==> |r| == 1
    ensures forall i :: 1 <= i < |r| ==> IsContinuation(r[i])
  {
    var n := c as int;
    if n < 0x80 then [n]
    else if n < 0x800 then [0xC0 + n / 64, 0x80 + n % 64]
    else if n < 0x10000 then [0xE0 + n / 4096, 0x80 + (n / 64) % 64, 0x80 + n % 64]
    else [0xF0 + n / 262144, 0x80 + (n / 4096) % 64, 0x80 + (n / 64) % 64, 0x80 + n % 64]
  }

  function Encode(s: string): seq<Byte>
    decreases |s|
  {
    if s == [] then [] else EncodeChar(s[0]) + Encode(s[1..])
  }

  predicate IsScalar(v: int) {
    (0 <= v < 0xD800) || (0xE000 <= v < 0x110000)
  }

  /** Reads the first scalar value of a non-empty byte string and says how
      many bytes it took; None for a malformed, overlong or surrogate
      sequence. */
  function DecodeFirst(b: seq<Byte>): (r: Option<(char, nat)>)
    requires |b| > 0
    ensures r.Some? ==> 1 <= r.value.1 <= |b|
  {
    var b0 := b[0] as int;
    if b0 < 0x80 then Some((b0 as char, 1))
    else if 0xC0 <= b0 < 0xE0 && |b| >= 2 && IsContinuation(b[1]) then
      var v := (b0 - 0xC0) * 64 + (b[1] as int - 0x80);
      if 0x80 <= v && IsScalar(v) then Some((v as char, 2)) else None
    else if 0xE0 <= b0 < 0xF0 && |b| >= 3 && IsContinuation(b[1]) && IsContinuation(b[2]) then
      var v := (b0 - 0xE0) * 4096 + (b[1] as int - 0x80) * 64 + (b[2] as int - 0x80);
      if 0x800 <= v && IsScalar(v) then Some((v as char, 3)) else None
    else if 0xF0 <= b0 < 0xF8 && |b| >= 4 && IsContinuation(b[1]) && IsContinuation(b[2]) && IsContinuation(b[3]) then
      var v := (b0 - 0xF0) * 262144 + (b[1] as int - 0x80) * 4096 + (b[2] as int - 0x80) * 64 + (b[3] as int - 0x80);
      if 0x10000 <= v && IsScalar(v) then Some((v as char, 4)) else None
    else None
  }

  function Decode(b: seq<Byte>): Option<string>
    decreases |b|
  {
    if b == [] then Some([])
    else match DecodeFirst(b)
      case None => None
      case Some((c, k)) =>
        match Decode(b[k..])
        case None => None
        case Some(rest) => Some([c] + rest)
  }

  lemma DecodeFirstOfEncoded(c: char, rest: seq<Byte>)
    ensures DecodeFirst(EncodeChar(c) + rest) == Some((c, |EncodeChar(c)|))
  {
    var n := c as int;
    if n < 0x80 {
    } else if n < 0x800 {
      DecodeFirstTwo(c, rest);
    } else if n < 0x10000 {
      DecodeFirstThree(c, rest);
    } else {
      DecodeFirstFour(c, rest);
    }
  }

  lemma DecodeFirstTwo(c: char, rest: seq<Byte>)
    requires 0x80 <= c as int < 0x800
    ensures DecodeFirst(EncodeChar(c) + rest) == Some((c, |EncodeChar(c)|))
  {
    var n := c as int;
    var b := EncodeChar(c) + rest;
    assert b[0] == 0xC0 + n / 64 && b[1] == 0x80 + n % 64;
    assert (n / 64) * 64 + n % 64 == n;
  }

  lemma DecodeFirstThree(c: char, rest: seq<Byte>)
    requires 0x800 <= c as int < 0x10000
    ensures DecodeFirst(EncodeChar(c) + rest) == Some((c, |EncodeChar(c)|))
  {
    var n := c as int;
    var b := EncodeChar(c) + rest;
    assert b[0] == 0xE0 + n / 4096 && b[1] == 0x80 + (n / 64) % 64 && b[2] == 0x80 + n % 64;
    assert (n / 4096) * 64 + (n / 64) % 64 == n / 64;
    assert (n / 64) * 64 + n % 64 == n;
  }

  lemma DecodeFirstFour(c: char, rest: seq<Byte>)
    requires 0x10000 <= c as int
    ensures DecodeFirst(EncodeChar(c) + rest) == Some((c, |EncodeChar(c)|))
  {
    var n := c as int;
    var b := EncodeChar(c) + rest;
    assert b[0] == 0xF0 + n / 262144 && b[1] == 0x80 + (n / 4096) % 64;
    assert b[2] == 0x80 + (n / 64) % 64 && b[3] == 0x80 + n % 64;
    assert (n / 262144) * 64 + (n / 4096) % 64 == n / 4096;
    assert (n / 4096) * 64 + (n / 64) % 64 == n / 64;
    assert (n / 64) * 64 + n % 64 == n;
  }

  /** Reading back what was written gives the same text. */
  lemma {:induction false} DecodeEncode(s: string)
    ensures Decode(Encode(s)) == Some(s)
    decreases |s|
  {
    if s != [] {
      var e := EncodeChar(s[0]);
      var b := Encode(s);
      assert b == e + Encode(s[1..]);
      DecodeFirstOfEncoded(s[0], Encode(s[1..]));
      assert b[|e|..] == Encode(s[1..]);
      DecodeEncode(s[1..]);
      assert s == [s[0]] + s[1..];
    }
  }

  predicate IsAscii(s: string) {
    forall i :: 0 <= i < |s| ==> s[i] as int < 0x80
  }

  lemma AsciiConcat(a: string, b: string)
    requires IsAscii(a) && IsAscii(b)
    ensures IsAscii(a + b)
  {
    forall i | 0 <= i < |a + b|
      ensures (a + b)[i] as int < 0x80
    {
      if i >= |a| {
        assert (a + b)[i] == b[i - |a|];
      }
    }
  }

  /** Text made of ASCII characters takes one byte per character. */
  lemma {:induction false} EncodeAsciiLength(s: string)
    requires IsAscii(s)
    ensures |Encode(s)| == |s|
    decreases |s|
  {
    if s != [] {
      EncodeAsciiLength(s[1..]);
    }
  }
}

=== FILE: workflow.dfy ===
/** The button handler of the deploy panel (deployFlow.js handleInteraction,
    lines 204-425): each click runs one stage, whose outcome is the panel
    left on the message and the trace of outside calls it made. GitHub, the
    deploy host, info.json and the clock are given as a World. */
module Workflow {
  import opened Wrappers
  import opened Text
  import opened Token
  import opened Buttons
  import opened Deploy
  import opened Poller

  datatype Interaction = Interaction(isButton: bool, userId: string, channelId: string, customId: string)

  datatype MergeAnswer = MergeAnswer(merged: bool, sha: string, message: string)

  /** The answers of the outside world to the calls one click can make. */
  datatype World = World(
    compare: Result<CompareData, string>,        // compareCommitsWithBasehead
    openPulls: Result<seq<PullRequest>, string>, // pulls.list
    createPull: Result<PullRequest, string>,     // pulls.create
    merge: Result<MergeAnswer, string>,          // pulls.merge
    host: Host,                                  // the deploy host, for pull and version write
    infoHttp: nat -> HttpOutcome,                // the k-th fetch of INFO_JSON_URL
    infoHost: nat -> Host,                       // the host during the k-th read of INFO_JSON_PATH
    parseJson: string -> Option<InfoDoc>,        // JSON.parse of the file read over SSH
    readCost: nat -> nat,                        // milliseconds the k-th read takes
    now: nat)                                    // Date.now() when the click arrives

  datatype Refusal = NotAllowed | WrongChannel

  datatype HomeNote =
    | CompareFailed
    | NoDiff
    | NothingToMerge
    | MergeNotDone(message: string)
    | PullFailed(message: string)
    | Cancelled
    | VersionMismatch(lastSeen: string, errorMsg: string)
    | Validated
    | MarkedFailed

  datatype VersionNote = NotConfigured | Written | WriteFailed(message: string)

  /** What the message shows after the click. */
  datatype Panel =
    | NotHandled                              // not a button, or an id of another flow
    | Refused(why: Refusal)                   // ephemeral reply, nothing else happens
    | Home(note: HomeNote)                    // the "create MR" button
    | ConfirmMerge(pr: nat)                   // the merge and cancel buttons
    | ConfirmRestart(sha: string, version: VersionNote) // the "restarted" and cancel buttons
    | Validate(stamp: nat)                    // the validated and failed buttons, for flow id Base36(stamp)
    | Crashed(message: string)                // the handler's promise is rejected

  /** The outside calls, in order. */
  datatype Effect =
    | Compare
    | ListPulls
    | CreatePull
    | MergePull(pr: nat)
    | Exec(cmd: string)       // a command handed to runSSH
    | Polled(count: nat)      // the validation loop and how many reads it made
    | NotifyOwner             // DM to DEPLOY_NOTIFY_USER_ID
    | DmClicker               // DM to the user who clicked

  /** The buttons a panel carries, by custom id. */
  function ButtonIds(p: Panel): seq<string> {
    match p
    case Home(_) => [CreateMrId]
    case ConfirmMerge(pr) => [MergeId(pr), CancelId]
    case ConfirmRestart(sha, _) => [ConfirmRestartId(sha), CancelId]
    case Validate(stamp) => [ValidOkId(Base36(stamp)), ValidFailId(Base36(stamp))]
    case _ => []
  }

  /** Every button the flow puts on a panel leads back into the flow, and the
      merge and restart buttons carry exactly the PR number and the SHA of
      that panel. */
  lemma ButtonsLeadBack(p: Panel)
    ensures forall id :: id in ButtonIds(p) ==> !RouteOf(id).NoStage?
    ensures p.ConfirmMerge? ==> RouteOf(ButtonIds(p)[0]) == MergeStage(B64(PrRef(p.pr)))
    ensures p.ConfirmRestart? ==> RouteOf(ButtonIds(p)[0]) == ConfirmRestartStage(B64(Expect(p.sha)))
  {
    RouteFixedIds();
    match p
    case ConfirmMerge(pr) =>
      RouteMergeId(pr);
      assert ButtonIds(p) == [MergeId(pr), CancelId];
    case ConfirmRestart(sha, _) =>
      RouteConfirmRestartId(sha);
      assert ButtonIds(p) == [ConfirmRestartId(sha), CancelId];
    case Validate(stamp) =>
      RouteValidIds(Base36(stamp));
      assert ButtonIds(p) == [ValidOkId(Base36(stamp)), ValidFailId(Base36(stamp))];
    case Home(_) =>
      assert ButtonIds(p) == [CreateMrId];
    case _ =>
      assert ButtonIds(p) == [];
  }

  /** Date.now().toString(36) */
  function Base36(n: nat): (r: string)
    ensures |r| >= 1 && LowerAlnum(r)
    decreases n
  {
    var d := n % 36;
    var c := if d < 10 then ('0' as int + d) as char else ('a' as int + d - 10) as char;
    if n < 36 then [c] else Base36(n / 36) + [c]
  }

  /** The value of a digit 0-9 or a-z. */
  function DigitValue36(c: char): (v: nat)
    requires IsDigit(c) || 'a' <= c <= 'z'
    ensures v < 36
  {
    if IsDigit(c) then c as int - '0' as int else c as int - 'a' as int + 10
  }

  /** parseInt(s, 36) for a string of lower-case digits. */
  function Base36Value(s: string): nat
    requires LowerAlnum(s)
  {
    if s == [] then 0 else Base36Value(s[..|s| - 1]) * 36 + DigitValue36(s[|s| - 1])
  }

  /** The flow id reads back as the time stamp it was made from, so two
      flows started at different milliseconds get different ids. */
  lemma {:induction false} Base36RoundTrip(n: nat)
    ensures Base36Value(Base36(n)) == n
    decreases n
  {
    var r := Base36(n);
    assert r[..|r| - 1] == (if n < 36 then [] else Base36(n / 36));
    if n >= 36 {
      Base36RoundTrip(n / 36);
    }
  }

  function Notify(cfg: Config): seq<Effect> {
    if cfg.notifyUserId.Some? then [NotifyOwner] else []
  }

  predicate HasDiffNow(w: World) {
    w.compare.Ok? && HasDiff(Some(w.compare.value))
  }

  /** The PR the create stage settles on, when the list and the creation
      succeed. */
  function ChosenPull(w: World): Option<PullRequest> {
    if w.openPulls.Err? then None
    else if w.openPulls.value != [] then Some(w.openPulls.value[0])
    else if w.createPull.Ok? then Some(w.createPull.value)
    else None
  }

  // ---------------------------------------------------------------- 1) create MR

  /** Compare the branches; with no difference (or a failed compare) show the
      home panel and create nothing; otherwise find or open the PR and offer
      to merge it. */
  /** The panel and calls of the create stage: the home panel when the
      compare fails or shows no difference; otherwise the merge offer for
      the open PR (or the new one), or a crash when GitHub fails. */
  predicate CreateOutcome(w: World, panel: Panel, trace: seq<Effect>) {
    (panel.Home? || panel.ConfirmMerge? || panel.Crashed?) &&
    (w.compare.Err? ==> panel == Home(CompareFailed) && trace == [Compare]) &&
    (w.compare.Ok? && !HasDiffNow(w) ==> panel == Home(NoDiff) && trace == [Compare]) &&
    (HasDiffNow(w) && ChosenPull(w).Some? ==> panel == ConfirmMerge(ChosenPull(w).value.number)) &&
    (HasDiffNow(w) && ChosenPull(w).None? ==> panel.Crashed?) &&
    (HasDiffNow(w) && w.openPulls.Ok? ==>
       trace == [Compare, ListPulls] + (if w.openPulls.value == [] then [CreatePull] else []))
  }

  method CreateMr(w: World) returns (panel: Panel, trace: seq<Effect>)
    ensures forall e :: e in trace ==> e == Compare || e == ListPulls || e == CreatePull
    ensures CreatePull in trace ==> HasDiffNow(w) && w.openPulls == Ok([])
    ensures CreateOutcome(w, panel, trace)
  {
    trace := [Compare];
    if w.compare.Err? {
      return Home(CompareFailed), trace;
    }
    if !HasDiff(Some(w.compare.value)) {
      return Home(NoDiff), trace;
    }
    trace := trace + [ListPulls];
    if w.openPulls.Err? {
      return Crashed(w.openPulls.error), trace;
    }
    if w.openPulls.value == [] {
      trace := trace + [CreatePull];
    }
    if w.openPulls.value == [] && w.createPull.Err? {
      return Crashed(w.createPull.error), trace;
    }
    var pr := EnsurePullRequest(w.openPulls.value, if w.createPull.Ok? then w.createPull.value else PullRequest(0)).0;
    panel := ConfirmMerge(pr.number);
  }

  // ---------------------------------------------------------------- 2) merge

  /** The pull over SSH succeeded: DEPLOY_PATH is set and the command
      exited with 0. */
  predicate PullSucceeded(cfg: Config, w: World) {
    DeployCommands(cfg).Ok? &&
    var r := RunSsh(cfg.dryRun, DeployCommands(cfg).value, w.host);
    r.Ok? && r.value.code == 0
  }

  /** The version note the panel shows once the pull has succeeded. */
  function VersionOutcome(cfg: Config, sha: string, w: World): VersionNote {
    if cfg.versionFilePath.None? then NotConfigured
    else
      var r := WriteVersionCfg(cfg, sha, w.host);
      if r.Err? then WriteFailed(r.error)
      else if r.value.code != 0 then WriteFailed(if r.value.stderr != "" then r.value.stderr else "erro")
      else Written
  }

  /** The calls the steps after a merge make: the pull (unless dry run), then
      on a failed pull the owner's message, on a successful one the version
      write (unless dry run) when a version file is configured. */
  function PullWriteTrace(cfg: Config, w: World, sha: string): seq<Effect> {
    if !PullSucceeded(cfg, w) then
      (if DeployCommands(cfg).Ok? && !cfg.dryRun then [Exec(DeployCommands(cfg).value)] else []) + Notify(cfg)
    else if cfg.dryRun then []
    else
      [Exec(DeployCommands(cfg).value)] +
      (if cfg.versionFilePath.Some?
       then [Exec(VersionCommandFixed(cfg.versionFilePath.value, VersionLine(cfg.versionFormat, sha)))]
       else [])
  }

  /** The steps after a successful merge: pull over SSH, and write the
      version line only once the pull has succeeded. */
  method PullAndWrite(cfg: Config, w: World, sha: string) returns (panel: Panel, trace: seq<Effect>)
    ensures forall e :: e in trace ==> e.Exec? || e == NotifyOwner
    ensures cfg.dryRun ==> forall e :: e in trace ==> !e.Exec?
    ensures !PullSucceeded(cfg, w) ==> panel.Home? && panel.note.PullFailed?
    ensures !PullSucceeded(cfg, w) ==>
      trace == (if DeployCommands(cfg).Ok? && !cfg.dryRun then [Exec(DeployCommands(cfg).value)] else []) + Notify(cfg)
    ensures PullSucceeded(cfg, w) ==> panel == ConfirmRestart(sha, VersionOutcome(cfg, sha, w))
    ensures PullSucceeded(cfg, w) && !cfg.dryRun ==>
      trace == [Exec(DeployCommands(cfg).value)] +
        (if cfg.versionFilePath.Some?
         then [Exec(VersionCommandFixed(cfg.versionFilePath.value, VersionLine(cfg.versionFormat, sha)))]
         else [])
    ensures PullSucceeded(cfg, w) && cfg.dryRun ==> trace == []
    ensures trace == PullWriteTrace(cfg, w, sha)
  {
    trace := [];
    var cmd := DeployCommands(cfg);
    if cmd.Err? {
      return Home(PullFailed(cmd.error)), trace + Notify(cfg);
    }
    if !cfg.dryRun {
      trace := trace + [Exec(cmd.value)];
    }
    var pullRes := RunSsh(cfg.dryRun, cmd.value, w.host);
    if pullRes.Err? {
      return Home(PullFailed(pullRes.error)), trace + Notify(cfg);
    }
    if pullRes.value.code != 0 {
      var stderr := if pullRes.value.stderr != "" then pullRes.value.stderr else "sem stderr";
      return Home(PullFailed(stderr)), trace + Notify(cfg);
    }
    var versionNote := NotConfigured;
    if cfg.versionFilePath.Some? {
      if !cfg.dryRun {
        trace := trace + [Exec(VersionCommandFixed(cfg.versionFilePath.value, VersionLine(cfg.versionFormat, sha)))];
      }
      versionNote := VersionOutcome(cfg, sha, w);
    }
    panel := ConfirmRestart(sha, versionNote);
  }

  /** Read the PR number from the button, re-check the difference (a failed
      compare counts as none), merge, then pull and write the version. */
  method MergeAndPull(cfg: Config, w: World, token: string) returns (panel: Panel, trace: seq<Effect>)
    ensures forall e :: e in trace ==> e == Compare || e.MergePull? || e.Exec? || e == NotifyOwner
    ensures forall e :: e in trace && e.MergePull? ==> HasDiffNow(w) && Unb64(token) == Some(PrRef(e.pr))
    ensures (exists e :: e in trace && e.Exec?) ==> w.merge.Ok? && w.merge.value.merged && !cfg.dryRun
    ensures MergeOutcome(cfg, w, Unb64(token), panel, trace)
  {
    panel, trace := MergePayload(cfg, w, Unb64(token));
  }

  /** What the owner is told when GitHub does not merge: its message, or
      'erro' when it gave none. */
  function MergeFailureText(res: MergeAnswer): string {
    if res.message != "" then res.message else "erro"
  }

  /** The panel and calls of the merge stage: a crash on an unreadable
      token, the home panel when there is nothing to merge or GitHub does
      not merge, and the restart panel exactly when the merge and the pull
      both succeed. */
  predicate MergeOutcome(cfg: Config, w: World, payload: Option<Payload>, panel: Panel, trace: seq<Effect>) {
    (panel.Home? || panel.ConfirmRestart? || panel.Crashed?) &&
    (payload.None? ==> panel.Crashed? && trace == []) &&
    (payload.Some? && !HasDiffNow(w) ==> panel == Home(NothingToMerge) && trace == [Compare]) &&
    (payload.Some? && HasDiffNow(w) && !payload.value.PrRef? ==> panel.Crashed? && trace == [Compare]) &&
    (HasDiffNow(w) && payload.Some? && payload.value.PrRef? && w.merge.Err? ==>
       panel == Crashed(w.merge.error) && trace == [Compare, MergePull(payload.value.pr)]) &&
    (HasDiffNow(w) && payload.Some? && payload.value.PrRef? && w.merge.Ok? && w.merge.value.merged ==>
       trace == [Compare, MergePull(payload.value.pr)] + PullWriteTrace(cfg, w, w.merge.value.sha)) &&
    ((HasDiffNow(w) && payload.Some? && payload.value.PrRef? && w.merge.Ok? && w.merge.value.merged &&
      !PullSucceeded(cfg, w)) ==> panel.Home? && panel.note.PullFailed?) &&
    (w.merge.Ok? && !w.merge.value.merged && HasDiffNow(w) && payload.Some? && payload.value.PrRef? ==>
       panel == Home(MergeNotDone(MergeFailureText(w.merge.value))) &&
       trace == [Compare, MergePull(payload.value.pr)]) &&
    (panel.ConfirmRestart? <==>
       HasDiffNow(w) && payload.Some? && payload.value.PrRef? &&
       w.merge.Ok? && w.merge.value.merged && PullSucceeded(cfg, w)) &&
    (panel.ConfirmRestart? ==>
       panel == ConfirmRestart(w.merge.value.sha, VersionOutcome(cfg, w.merge.value.sha, w)))
  }

  /** When the pull fails, the merge stage sends no command but the pull:
      the version file is never written. */
  lemma FailedPullWritesNoVersion(cfg: Config, w: World, payload: Option<Payload>, panel: Panel, trace: seq<Effect>)
    requires MergeOutcome(cfg, w, payload, panel, trace)
    requires !PullSucceeded(cfg, w)
    ensures forall e :: e in trace && e.Exec? ==> DeployCommands(cfg).Ok? && e.cmd == DeployCommands(cfg).value
  {
    if HasDiffNow(w) && payload.Some? && payload.value.PrRef? && w.merge.Ok? && w.merge.value.merged {
      var pr := payload.value.pr;
      var pull := if DeployCommands(cfg).Ok? && !cfg.dryRun then [Exec(DeployCommands(cfg).value)] else [];
      assert trace == [Compare, MergePull(pr)] + pull + Notify(cfg);
    }
  }

  /** The merge stage once the token has been decoded (or not). */
  method MergePayload(cfg: Config, w: World, payload: Option<Payload>) returns (panel: Panel, trace: seq<Effect>)
    ensures forall e :: e in trace ==> e == Compare || e.MergePull? || e.Exec? || e == NotifyOwner
    ensures forall e :: e in trace && e.MergePull? ==> HasDiffNow(w) && payload == Some(PrRef(e.pr))
    ensures (exists e :: e in trace && e.Exec?) ==> w.merge.Ok? && w.merge.value.merged && !cfg.dryRun
    ensures MergeOutcome(cfg, w, payload, panel, trace)
  {
    if payload.None? {
      return Crashed("unb64"), [];
    }
    trace := [Compare];
    if !HasDiffNow(w) {
      return Home(NothingToMerge), trace;
    }
    if !payload.value.PrRef? {
      return Crashed("pull_number"), trace;
    }
    var pr := payload.value.pr;
    trace := trace + [MergePull(pr)];
    if w.merge.Err? {
      return Crashed(w.merge.error), trace;
    }
    var res := w.merge.value;
    if !res.merged {
      return Home(MergeNotDone(MergeFailureText(res))), trace;
    }
    var rest;
    panel, rest := PullAndWrite(cfg, w, res.sha);
    trace := trace + rest;
  }

  // ---------------------------------------------------------------- 4) confirm restart

  /** The k-th read of info.json during validation. */
  function InfoRead(cfg: Config, w: World): nat -> Result<InfoDoc, string> {
    (k: nat) => ReadInfoJson(cfg, w.infoHttp(k), w.infoHost(k), w.parseJson)
  }

  /** The first p reads of the wait all started within the timeout, and
      none before the last of them matched. */
  predicate PollReads(cfg: Config, w: World, read: nat -> Result<InfoDoc, string>, expected: string, p: nat) {
    (forall k :: 0 <= k < p ==> InTime(StartOf(w.readCost, SleepMs(cfg.pollInterval), k), cfg.pollTimeout)) &&
    (forall k :: 0 <= k < p - 1 ==> !Matched(read(k), cfg.infoJsonKey, expected))
  }

  /** What the validation wait leaves, read off the p reads it made: each
      of them started within the timeout and none before the last matched;
      the validation panel comes exactly when the last one matched, and
      otherwise the next read would have started too late, the report
      carries the last value and the last error seen, and the clicker and
      the owner are told. */
  predicate PollOutcome(cfg: Config, w: World, read: nat -> Result<InfoDoc, string>, expected: string,
                        panel: Panel, trace: seq<Effect>) {
    |trace| >= 1 && trace[0].Polled? &&
    var p := trace[0].count;
    var sleep := SleepMs(cfg.pollInterval);
    PollReads(cfg, w, read, expected, p) &&
    (panel.Validate? <==> p > 0 && Matched(read(p - 1), cfg.infoJsonKey, expected)) &&
    (panel.Validate? ==>
       trace == [Polled(p)] &&
       panel == Validate(w.now + (StartOf(w.readCost, sleep, p - 1) + w.readCost(p - 1)))) &&
    (!panel.Validate? ==>
       !InTime(StartOf(w.readCost, sleep, p), cfg.pollTimeout) &&
       panel == Home(VersionMismatch(LastSeenOf(Reads(read, p), cfg.infoJsonKey), LastErrorOf(Reads(read, p)))) &&
       trace == [Polled(p), DmClicker] + Notify(cfg))
  }

  /** The panel and calls of the restart stage: a crash on an unreadable
      token; the validation buttons at once when no info.json source is
      configured; a crash when the token carries no SHA; otherwise the
      outcome of the wait for that SHA. */
  predicate RestartOutcome(cfg: Config, w: World, payload: Option<Payload>, panel: Panel, trace: seq<Effect>) {
    if payload.None? then panel == Crashed("unb64") && trace == []
    else if cfg.infoJsonUrl.None? && cfg.infoJsonPath.None? then panel == Validate(w.now) && trace == []
    else if !payload.value.Expect? then panel == Crashed("expect") && trace == []
    else PollOutcome(cfg, w, InfoRead(cfg, w), payload.value.sha, panel, trace)
  }

  /** After the manual restart: with no info.json source go straight to the
      validation buttons; otherwise poll until the expected SHA shows, and
      on a timeout warn the clicker and the owner and show the home panel. */
  method ConfirmRestarted(cfg: Config, w: World, token: string) returns (panel: Panel, trace: seq<Effect>)
    ensures forall e :: e in trace ==> e.Polled? || e == DmClicker || e == NotifyOwner
    ensures forall e :: e in trace && e.Polled? ==>
      Unb64(token).Some? && Unb64(token).value.Expect? && (cfg.infoJsonUrl.Some? || cfg.infoJsonPath.Some?)
    ensures RestartOutcome(cfg, w, Unb64(token), panel, trace)
  {
    panel, trace := ConfirmPayload(cfg, w, Unb64(token));
  }

  /** The restart stage once the token has been decoded (or not). */
  method ConfirmPayload(cfg: Config, w: World, payload: Option<Payload>) returns (panel: Panel, trace: seq<Effect>)
    ensures forall e :: e in trace ==> e.Polled? || e == DmClicker || e == NotifyOwner
    ensures forall e :: e in trace && e.Polled? ==>
      payload.Some? && payload.value.Expect? && (cfg.infoJsonUrl.Some? || cfg.infoJsonPath.Some?)
    ensures RestartOutcome(cfg, w, payload, panel, trace)
  {
    if payload.None? {
      return Crashed("unb64"), [];
    }
    if cfg.infoJsonUrl.None? && cfg.infoJsonPath.None? {
      return Validate(w.now), [];
    }
    if !payload.value.Expect? {
      return Crashed("expect"), [];
    }
    panel, trace := AwaitVersion(cfg, w, InfoRead(cfg, w), payload.value.sha);
  }

  /** What the poll reports settles the panel and the calls of the wait. */
  lemma OutcomeOfPoll(cfg: Config, w: World, read: nat -> Result<InfoDoc, string>, expected: string,
                      ok: bool, lastSeen: string, errorMsg: string, probes: nat, elapsed: nat)
    requires probes > 0 ==> InTime(StartOf(w.readCost, SleepMs(cfg.pollInterval), probes - 1), cfg.pollTimeout)
    requires ok <==> probes > 0 && Matched(read(probes - 1), cfg.infoJsonKey, expected)
    requires forall k :: 0 <= k < probes - 1 ==> !Matched(read(k), cfg.infoJsonKey, expected)
    requires !ok ==> !InTime(StartOf(w.readCost, SleepMs(cfg.pollInterval), probes), cfg.pollTimeout)
    requires ok ==> elapsed == StartOf(w.readCost, SleepMs(cfg.pollInterval), probes - 1) + w.readCost(probes - 1)
    requires lastSeen == LastSeenOf(Reads(read, probes), cfg.infoJsonKey)
    requires errorMsg == LastErrorOf(Reads(read, probes))
    ensures ok ==> PollOutcome(cfg, w, read, expected, Validate(w.now + elapsed), [Polled(probes)])
    ensures !ok ==> PollOutcome(cfg, w, read, expected, Home(VersionMismatch(lastSeen, errorMsg)),
                                [Polled(probes), DmClicker] + Notify(cfg))
  {
    AllStartedInTime(w.readCost, SleepMs(cfg.pollInterval), cfg.pollTimeout, probes);
  }

  /** The wait for the server to show the expected commit, the k-th look at
      it being read(k): the validation panel on a match, otherwise the
      mismatch report and the two messages. */
  method AwaitVersion(cfg: Config, w: World, read: nat -> Result<InfoDoc, string>, expected: string)
    returns (panel: Panel, trace: seq<Effect>)
    ensures forall e :: e in trace ==> e.Polled? || e == DmClicker || e == NotifyOwner
    ensures PollOutcome(cfg, w, read, expected, panel, trace)
  {
    var ok, lastSeen, errorMsg, probes, elapsed :=
      Poll(cfg.infoJsonKey, expected, cfg.pollTimeout, cfg.pollInterval, read, w.readCost);
    OutcomeOfPoll(cfg, w, read, expected, ok, lastSeen, errorMsg, probes, elapsed);
    if !ok {
      return Home(VersionMismatch(lastSeen, errorMsg)), [Polled(probes), DmClicker] + Notify(cfg);
    }
    return Validate(w.now + elapsed), [Polled(probes)];
  }

  // ---------------------------------------------------------------- dispatch

  /** The panel and calls of the stage a custom id selects, once the click
      has passed the allow-list and the channel check. */
  predicate StageOutcome(cfg: Config, w: World, route: Route, panel: Panel, trace: seq<Effect>) {
    match route
    case CreateStage => CreateOutcome(w, panel, trace)
    case MergeStage(token) => MergeOutcome(cfg, w, Unb64(token), panel, trace)
    case CancelStage => panel == Home(Cancelled) && trace == []
    case ConfirmRestartStage(token) => RestartOutcome(cfg, w, Unb64(token), panel, trace)
    case ValidOkStage => panel == Home(Validated) && trace == []
    case ValidFailStage => panel == Home(MarkedFailed) && trace == Notify(cfg)
    case NoStage => panel == NotHandled && trace == []
  }

  /** handleInteraction: buttons only; the allow-list, then the channel, then
      the stage the id selects. */
  method HandleInteraction(cfg: Config, w: World, it: Interaction) returns (panel: Panel, trace: seq<Effect>)
    ensures !it.isButton ==> panel == NotHandled && trace == []
    ensures it.isButton && !IsAllowed(cfg, it.userId) ==> panel == Refused(NotAllowed) && trace == []
    ensures it.isButton && IsAllowed(cfg, it.userId) && !IsRightChannel(cfg, it.channelId) ==>
      panel == Refused(WrongChannel) && trace == []
    ensures trace != [] ==> it.isButton && IsAllowed(cfg, it.userId) && IsRightChannel(cfg, it.channelId)
    ensures CreatePull in trace ==> RouteOf(it.customId) == CreateStage && HasDiffNow(w)
    ensures forall e :: e in trace && e.MergePull? ==>
      RouteOf(it.customId).MergeStage? && HasDiffNow(w) && Unb64(RouteOf(it.customId).token) == Some(PrRef(e.pr))
    ensures (exists e :: e in trace && e.Exec?) ==>
      RouteOf(it.customId).MergeStage? && w.merge.Ok? && w.merge.value.merged && !cfg.dryRun
    ensures RouteOf(it.customId).NoStage? ==> panel == NotHandled || panel.Refused?
    ensures it.isButton && IsAllowed(cfg, it.userId) && IsRightChannel(cfg, it.channelId) ==>
      StageOutcome(cfg, w, RouteOf(it.customId), panel, trace)
    ensures (it.isButton && IsAllowed(cfg, it.userId) && IsRightChannel(cfg, it.channelId) &&
             !RouteOf(it.customId).NoStage?) ==> !panel.Refused? && panel != NotHandled
  {
    if !it.isButton {
      return NotHandled, [];
    }
    if !IsAllowed(cfg, it.userId) {
      return Refused(NotAllowed), [];
    }
    if !IsRightChannel(cfg, it.channelId) {
      return Refused(WrongChannel), [];
    }
    var route := RouteOf(it.customId);
    match route
    case CreateStage =>
      panel, trace := CreateMr(w);
    case MergeStage(token) =>
      panel, trace := MergeAndPull(cfg, w, token);
    case CancelStage =>
      panel, trace := Home(Cancelled), [];
    case ConfirmRestartStage(token) =>
      panel, trace := ConfirmRestarted(cfg, w, token);
    case ValidOkStage =>
      panel, trace := Home(Validated), [];
    case ValidFailStage =>
      panel, trace := Home(MarkedFailed), Notify(cfg);
    case NoStage =>
      panel, trace := NotHandled, [];
  }
}

=== FILE: wrappers.dfy ===
/** Option and Result values for the error paths of the bot: a missing
    setting, a failed remote call, a token that does not decode. */
module Wrappers {

  datatype Option<+T> = None | Some(value: T) {
    function GetOr(default: T): T {
      match this
      case Some(v) => v
      case None => default
    }
  }

  datatype Result<+R, +E> = Ok(value: R) | Err(error: E)
}
